=== FILE: README.md ===
# Computer Graphics Simulator — integer rasterization kernels and editor state machines

This project models the integer core of the Computer Graphics Simulator demos:

- the software framebuffer of the pendulum and traffic demos (`clearBuffer`,
  the opaque path of `setPixel`);
- the Bresenham line in its two error-accumulator forms;
- the three midpoint / Bresenham circle tracers;
- the integer midpoint ellipse;
- the scanline rectangle fill;
- four small state machines: the traffic light, the terrain point list, the
  line editor of `main.cpp` and the multi-shape CAD editor of `main2.cpp`.

Every kernel is modelled by the trace of pixels it plots, in plotting order,
as a `seq<(int, int)>`. Each is written as a method with loop invariants
(the Bresenham lines, the framebuffer clear, the polygon outline) or as a
recursive function whose shape is proved by induction (the circle and
ellipse tracers, whose loops carry several coupled decision variables).

Modules:

| module | file | models |
|---|---|---|
| `Pixels` | pixels.dfy | pixels, float points as reals, `std::round`, walks towards a target |
| `Bresenham` | bresenham.dfy | `bresenhamLine` / `drawLine` (inclusive form), `drawBresenhamLine` / `Line::drawBresenham` (strict form after rounding) |
| `Framebuffer` | framebuffer.dfy | `clearBuffer`, opaque `setPixel`, plotting a trace, `thickLine`'s degenerate branch, `drawPixel` clipping |
| `Circles` | circles.dfy | `midpointCircle`, `Circle::draw` + `plot8Points`, `drawCircle` (outline and span fill) |
| `Ellipse` | ellipse.dfy | `midpointEllipse` |
| `Rect` | rect.dfy | `fillRect` of both demos |
| `Traffic` | traffic.dfy | `TrafficLight` |
| `TerrainPoints` | terrain.dfy | `Terrain` point list and its events |
| `LineEditor` | line_editor.dfy | the line list, selection and pending points of `main.cpp`, and the held-key translate, rotate and scale of the selected line |
| `ShapeEditor` | shape_editor.dfy | the shape list, selection, deletion, pending points, radius clamps, polygon edges and outline, and the held-key translate, rotate and scale of the selected shape in `main2.cpp` |

Calls into code outside the model are function parameters:

- `containsPoint` of each shape class (`contains`);
- `distancePointToLine` of `main.cpp` (`dist`);
- the `sqrt` the circle click uses (`sqrt`);
- the `cos` and `sin` of the rotation angle, which come with the Q and E
  key events.

Float coordinates are exact reals.

## Model

| member | source | states |
|---|---|---|
| Pixels.Round | ComputerGraphicsSimulator/main2.cpp:199-203 | `std::round` of a float endpoint lies within half a unit of it, keeps its sign, and rounds a halfway value away from zero |
| Pixels.WalkIsConnectedAndDistinct | ComputerGraphicsSimulator/main2.cpp:221-227 | a trace whose every step moves each coordinate by zero or one unit towards the target is 8-connected and never revisits a pixel |
| Framebuffer.Clear | ComputerGraphicsSimulator/BallCollision.cpp:63-74 | after clearBuffer every one of the w*h pixels holds (r, g, b, 255), whether addressed by cell number or by (x, y) |
| Framebuffer.SetPixel | ComputerGraphicsSimulator/BallCollision.cpp:77-91 | an out-of-window write leaves the whole buffer unchanged; an in-window write sets exactly the four bytes at (y*w + x)*4 to (r, g, b, 255) and no other byte |
| Framebuffer.SetPixelAt | ComputerGraphicsSimulator/TrafficSim.cpp:76-100 | seen as pixels, setPixel recolours (x, y) and leaves every other pixel as it was |
| Framebuffer.Paint | ComputerGraphicsSimulator/TrafficSim.cpp:76-100 | plotting a whole trace through setPixel keeps the buffer's size, colours exactly the in-window pixels of the trace and leaves every other pixel as it was |
| Framebuffer.PaintOutside | ComputerGraphicsSimulator/BallCollision.cpp:80-81 | a trace lying wholly outside the window leaves the buffer unchanged |
| Framebuffer.ThickLineDegenerate | ComputerGraphicsSimulator/BallCollision.cpp:135-139 | thickLine with coincident integer endpoints changes exactly the one pixel (x0, y0) |
| Framebuffer.Clip | ComputerGraphicsSimulator/projectno2.cpp:49-54 | drawPixel keeps a pixel exactly when it lies in [0, w) x [0, h), and never adds one |
| Framebuffer.ClipDistinct | ComputerGraphicsSimulator/projectno2.cpp:49-54 | clipping a trace with no repeated pixel gives a trace with no repeated pixel |
| Bresenham.InclusiveAdvance | ComputerGraphicsSimulator/BallCollision.cpp:121-123 | one pass of the `>=`/`<=` loop body short of the endpoint moves x by sx, y by sy or both, never away from the target, and always along the major axis |
| Bresenham.StrictPass | ComputerGraphicsSimulator/main.cpp:49-53 | from a loop state short of the endpoint, one pass of the strict body is a step towards the endpoint that moves each coordinate by zero or one unit and always advances the major axis by one; it lands in a loop state with one pass fewer left, so the error stays within the bound that keeps every pixel near the ideal line |
| Bresenham.StrictNextState | ComputerGraphicsSimulator/main.cpp:49-53 | from any loop state short of the endpoint, a pass of the strict body moves each coordinate by zero or one unit towards the target, always along the major axis, and lands in a loop state again |
| Bresenham.StrictTraceShape | ComputerGraphicsSimulator/main.cpp:37-54 | the strict loop's trace starts at (x0, y0), ends at (x1, y1), has max(dx, dy) + 1 pixels, steps towards the end each time and stays within half a pixel of the ideal segment |
| Bresenham.Line | ComputerGraphicsSimulator/BallCollision.cpp:107-125 | the loop ends; the trace starts at (x0, y0), ends at (x1, y1), has max(dx, dy) + 1 pixels, so coincident endpoints give one pixel, steps towards the end each time, and every pixel is within half a pixel of the ideal segment; bresenhamLine of TrafficSim.cpp (106-124) and drawLine of projectno2.cpp (56-68) are the same loop |
| Bresenham.LineStrict | ComputerGraphicsSimulator/main.cpp:37-54 | the loop, run to its break, plots exactly the strict trace pass by pass, so it has the endpoints, length, monotone steps and half-pixel closeness of Bresenham.StrictTraceShape |
| Bresenham.RoundedLine | ComputerGraphicsSimulator/main2.cpp:199-229 | Line::drawBresenham plots the strict trace between the rounded endpoints: the rounded p1 first and the rounded p2 last, is 8-connected, never repeats a pixel and has max(dx, dy) + 1 pixels; Polygon::drawBresenhamLine (538-563) and BezierCurve::drawBresenhamLine (736-761) are the same code, so they plot the same trace |
| Circles.AllOctants | ComputerGraphicsSimulator/BallCollision.cpp:166-173 | a point set closed under the two axis reflections and the diagonal swap through (cx, cy) holds all eight images of each of its points that the eight setPixel calls produce, so the Symmetric8 claims of the circle rows mean closure under all eight octant reflections |
| Circles.Plot8Symmetric | ComputerGraphicsSimulator/BallCollision.cpp:166-173 | the eight setPixel calls for one offset are closed under the eight octant reflections |
| Circles.Expand8Symmetric | ComputerGraphicsSimulator/TrafficSim.cpp:156-184 | a trace made of whole groups of eight reflections is closed under the eight reflections |
| Circles.MidpointOctantShape | ComputerGraphicsSimulator/BallCollision.cpp:164-184 | the midpointCircle loop runs exactly while x >= y; y rises by exactly one per pass, x stays or drops by one, and x never falls below y |
| Circles.MidpointCircle | ComputerGraphicsSimulator/BallCollision.cpp:157-186 | the plotted point set is closed under the eight octant reflections about (cx, cy); midpointCircle of TrafficSim.cpp (156-184) is the same loop |
| Circles.CircleDrawOctantShape | ComputerGraphicsSimulator/main2.cpp:267-285 | Circle::draw's loop runs exactly while x <= y; x rises by exactly one per pass and y stays or drops by one |
| Circles.CircleDraw | ComputerGraphicsSimulator/main2.cpp:322-336 | Circle::draw, run from (0, (int)radius), emits all eight reflections of each offset and plots at least one group for every radius |
| Circles.CircleDrawIsTransposedMidpoint | ComputerGraphicsSimulator/main2.cpp:267-285 | Circle::draw's octant is midpointCircle's octant with x and y exchanged: the decision variables agree step by step |
| Circles.SameCircle | ComputerGraphicsSimulator/main2.cpp:267-285 | for the same integer radius, about the same integer centre, Circle::draw and midpointCircle plot the same set of pixels |
| Circles.BresenhamOctantShape | ComputerGraphicsSimulator/projectno2.cpp:95-103 | drawCircle's loop runs exactly while y >= x; x rises by exactly one per pass and y stays or drops by one |
| Circles.CircleTrace | ComputerGraphicsSimulator/projectno2.cpp:75-94 | the outline emits all eight reflections of every offset; the fill emits exactly the pixels on horizontal spans centred on cx on rows cy±y (half-width x) and cy±x (half-width y), a set mirrored about both axes |
| Circles.ExpandSpansMembers | ComputerGraphicsSimulator/projectno2.cpp:75-84 | a pixel is in the fill trace exactly when it lies on the spans of some offset |
| Circles.DrawCircle | ComputerGraphicsSimulator/projectno2.cpp:70-104 | drawCircle as written plots nothing for a negative radius; its outline is closed under the eight octant reflections and holds the four axis points at distance r; its fill is mirrored about both axes and holds exactly the pixels on the spans of its offsets |
| Circles.RadiusFiveMissesPixel | ComputerGraphicsSimulator/projectno2.cpp:95-103 | as written, the radius-5 outline misses (3, 4), which is on the circle and which midpointCircle plots |
| Circles.DrawCircleCorrected | ComputerGraphicsSimulator/projectno2.cpp:70-104 | with the recurrence corrected, the outline plots exactly the pixel set of midpointCircle for every centre and radius |
| Circles.CorrectedIsMidpoint | ComputerGraphicsSimulator/projectno2.cpp:95-103 | the corrected d = 3 - 2r recurrence is Circle::draw's recurrence scaled by two: same decisions, same offsets |
| Ellipse.QuarterToward0 | ComputerGraphicsSimulator/TrafficSim.cpp:220 | the (int) cast of a quarter truncates toward zero, on both sides of zero |
| Ellipse.Plot4Mirrored | ComputerGraphicsSimulator/TrafficSim.cpp:225-230 | the four setPixel calls of plot4 are closed under reflection across both axes through (cx, cy) |
| Ellipse.Expand4Mirrored | ComputerGraphicsSimulator/TrafficSim.cpp:225-230 | a trace of whole plot4 groups is closed under both reflections |
| Ellipse.RegionOneWalkShape | ComputerGraphicsSimulator/TrafficSim.cpp:235-248 | in region 1, x rises by exactly one per pass and y stays or drops by one, staying in the first quadrant |
| Ellipse.RegionTwoWalkShape | ComputerGraphicsSimulator/TrafficSim.cpp:251-265 | in region 2, y drops by exactly one per pass and x stays or rises by one, and the region ends on y == 0 |
| Ellipse.EllipseQuadrant | ComputerGraphicsSimulator/TrafficSim.cpp:211-266 | the first offset is (0, ry); region-1 steps then region-2 steps follow; for ry >= 0 the walk stays in the quadrant and ends on the x axis, and for ry < 0 only (0, ry) is plotted |
| Ellipse.MidpointEllipse | ComputerGraphicsSimulator/TrafficSim.cpp:211-266 | every plotted point comes with its reflections across both axes through (cx, cy), four setPixel calls per offset, all on rows cy - ry to cy + ry; the first four plots are the group of (0, ry), so (cx, cy + ry) and (cx, cy - ry) come first, and for ry >= 0 the last four plots lie on row cy |
| Rect.RectCellsMembers | ComputerGraphicsSimulator/projectno2.cpp:106-112 | the two nested loops visit exactly the cells of [x, x + w) x [y, y + h) |
| Rect.RectCellsOrder | ComputerGraphicsSimulator/TrafficSim.cpp:292-298 | the cells come in row-major order: cell i*w + j is (x + j, y + i) |
| Rect.RectCellsDistinct | ComputerGraphicsSimulator/projectno2.cpp:106-112 | no cell is visited twice |
| Rect.FillRect | ComputerGraphicsSimulator/TrafficSim.cpp:292-298 | fillRect colours exactly the in-window pixels of the rectangle, leaves every other pixel as it was, and changes nothing when w <= 0 or h <= 0 |
| Rect.FillRectDrawn | ComputerGraphicsSimulator/projectno2.cpp:106-112 | the pixels drawn are exactly the rectangle's cells inside the 1200 x 700 window, each once |
| Traffic.Initial | ComputerGraphicsSimulator/TrafficSim.cpp:344 | a new light starts on green |
| Traffic.Cycle | ComputerGraphicsSimulator/TrafficSim.cpp:347-355 | cycle moves one place along green, yellow, red, wrapping to green, and always changes the state |
| Traffic.CycleNIndex | ComputerGraphicsSimulator/TrafficSim.cpp:347-355 | n cycles move n places along the order, modulo three |
| Traffic.CyclePeriod | ComputerGraphicsSimulator/TrafficSim.cpp:347-355 | three cycles are the identity and one or two cycles are not |
| Traffic.AfterClicks | ComputerGraphicsSimulator/TrafficSim.cpp:695-699 | after n left clicks the light shows state n mod 3, green exactly when n is a multiple of 3 |
| TerrainPoints.Default | ComputerGraphicsSimulator/projectno2.cpp:122-132 | the default hill has eight points with strictly increasing x from 0 to 1200 and is not being drawn |
| TerrainPoints.StartDrawing | ComputerGraphicsSimulator/projectno2.cpp:134-138 | startDrawing leaves exactly the point (0, y) and sets drawing |
| TerrainPoints.AddPoint | ComputerGraphicsSimulator/projectno2.cpp:140-144 | addPoint appends (x, y) only while drawing with fewer than 100 points, and otherwise changes nothing |
| TerrainPoints.AddPointsBounded | ComputerGraphicsSimulator/projectno2.cpp:140-144 | no run of addPoint calls takes the list above max(its size, 100), shrinks it or changes the drawing flag |
| TerrainPoints.FinishDrawing | ComputerGraphicsSimulator/projectno2.cpp:146-151 | finishDrawing clears drawing and appends (1200, last y) to a non-empty list, nothing to an empty one |
| TerrainPoints.Step | ComputerGraphicsSimulator/projectno2.cpp:389-421 | D restarts the list at (0, y) and starts drawing; Space restores the default hill; a left click ends a drawing, closing a non-empty list at (1200, last y), and changes nothing otherwise; a mouse move appends its point only while drawing below 100 points; apart from D and Space every event keeps the points there are and adds at most one |
| TerrainPoints.ReachableValid | ComputerGraphicsSimulator/projectno2.cpp:389-421 | along any sequence of D, Space, left-click and mouse-move events from the default hill the list is never empty, starts at x = 0, holds at most 100 points while drawing and ends at x = 1200 once finished |
| LineEditor.Initial | ComputerGraphicsSimulator/main.cpp:116-122 | the editor starts with no lines and no pending point, in selection mode, with nothing selected |
| LineEditor.SelectFromSpec | ComputerGraphicsSimulator/main.cpp:139-147 | the selection loop from index k stops at the first line within 8.0 of the click, and yields -1 exactly when none is |
| LineEditor.Select | ComputerGraphicsSimulator/main.cpp:139-147 | a selection click selects the lowest-index line within 8.0 of the click, and -1 exactly when no line is that close |
| LineEditor.Step | ComputerGraphicsSimulator/main.cpp:135-195 | the mode changes only on 1, 2 or 3, which select SELECTION, DRAW_DDA and DRAW_BRES respectively and change nothing else; a right click changes nothing; the selection changes only on a selection-mode click or C; the pending points are kept, emptied or grow by the click; at most one line is added, from the pending point to the click, DDA exactly in DDA mode; a held key transforms the selected line alone |
| LineEditor.MoveLineMidpoint | ComputerGraphicsSimulator/main.cpp:57-89 | translateLine moves the line's midpoint by the move amount; rotateLine and scaleLine keep it |
| LineEditor.MoveLineInverse | ComputerGraphicsSimulator/main.cpp:58-61 | in exact arithmetic, Left then Right, or Up then Down, restores the line |
| LineEditor.DrawClicks | ComputerGraphicsSimulator/main.cpp:150-161 | in a draw mode the second click appends exactly one line from the two points, red and DDA exactly in DDA mode, and empties the pending list; the first click only records its point |
| LineEditor.ClearKey | ComputerGraphicsSimulator/main.cpp:170 | the C key empties the lines and the pending points and sets the selection to -1, keeping the mode |
| LineEditor.RunValid | ComputerGraphicsSimulator/main.cpp:132-172 | along any event sequence at most one point is pending, the selection is -1 or a line index, and a line is red exactly when it is a DDA line |
| ShapeEditor.Initial | ComputerGraphicsSimulator/main2.cpp:869-886 | the editor starts with no shapes and no pending points, in selection mode, with nothing selected, fill off and grid on |
| ShapeEditor.ClampRadius | ComputerGraphicsSimulator/main2.cpp:303-306 | the clamp yields at least 1 and keeps any radius already at least 1 |
| ShapeEditor.NewEllipse | ComputerGraphicsSimulator/main2.cpp:347-352 | a new ellipse has both radii at least 1, and keeps each radius that is already at least 1, whatever the other one is |
| ShapeEditor.ScaleRadii | ComputerGraphicsSimulator/main2.cpp:418-423 | scale multiplies a circle's radius and each of an ellipse's radii by the factor and clamps each to 1: a product of at least 1 is kept, a smaller one becomes exactly 1, which is what the S key's factor 0.98 does to a radius near 1; the centre and kind are kept |
| ShapeEditor.ScaleUpNoClamp | ComputerGraphicsSimulator/main2.cpp:303-306 | scaling up a circle or ellipse whose radii are already at least 1 only multiplies them |
| ShapeEditor.PolygonEdges | ComputerGraphicsSimulator/main2.cpp:466-474 | Polygon::draw draws no edge for fewer than two vertices, and otherwise one edge per vertex i, from vertex i to vertex (i + 1) mod n |
| ShapeEditor.NextIsSuccessorMod | ComputerGraphicsSimulator/main2.cpp:472 | the closing index is (i + 1) % n |
| ShapeEditor.PolygonEdgesClosed | ComputerGraphicsSimulator/main2.cpp:466-474 | the edges form one closed loop: each ends where the next begins, the last runs from the last vertex back to the first, and each vertex starts its own edge |
| ShapeEditor.TransformKeepsShape | ComputerGraphicsSimulator/main2.cpp:1009-1027 | every held-key transform keeps the shape's class, its number of points and its well-formedness |
| ShapeEditor.TranslateInverse | ComputerGraphicsSimulator/main2.cpp:494-499 | in exact arithmetic, translating by an offset and back restores any shape |
| ShapeEditor.TranslateCenter | ComputerGraphicsSimulator/main2.cpp:494-499 | translate moves every point, and so getCenter, by the offset |
| ShapeEditor.AboutCentroidKeepsIt | ComputerGraphicsSimulator/main2.cpp:501-528 | turning or scaling the vertices about their mean by any matrix keeps the mean |
| ShapeEditor.MoveAboutCenterKeeps | ComputerGraphicsSimulator/main2.cpp:140-166 | rotate and scale of a line, polygon or Bezier curve keep its getCenter |
| ShapeEditor.TransformCenter | ComputerGraphicsSimulator/main2.cpp:1009-1027 | an arrow key moves the selected shape's centre by 0.75 in its direction; Q, E, W and S keep the centre |
| ShapeEditor.PolygonOutline | ComputerGraphicsSimulator/main2.cpp:466-480 | the outline is the strict Bresenham traces of the edges between rounded vertices, edge after edge in order; a polygon with fewer than two vertices draws nothing, and otherwise every rounded vertex is plotted |
| ShapeEditor.OutlineHasStarts | ComputerGraphicsSimulator/main2.cpp:470-474 | drawing the edges in order plots the rounded start of every edge |
| ShapeEditor.TopmostSpec | ComputerGraphicsSimulator/main2.cpp:939-946 | the reverse search finds a hit shape with no hit shape after it, and -1 exactly when no shape is hit |
| ShapeEditor.Flag | ComputerGraphicsSimulator/main2.cpp:933-943 | after the clear-then-mark pass exactly shape i is flagged, and no shape's geometry or colour changes |
| ShapeEditor.SelectClickSpec | ComputerGraphicsSimulator/main2.cpp:932-946 | a selection click marks at most one shape, the last-added one whose containsPoint holds, and none when no shape is hit |
| ShapeEditor.Delete | ComputerGraphicsSimulator/main2.cpp:916-922 | Delete removes the selected shape, clears the selection, keeps every other shape in order, and does nothing when nothing is selected |
| ShapeEditor.DeleteKeepsOrder | ComputerGraphicsSimulator/main2.cpp:916-922 | putting the deleted shape back at its index restores the original list |
| ShapeEditor.BresenhamClickAndClear | ComputerGraphicsSimulator/main2.cpp:956-963 | in Bresenham mode the second click appends exactly one red Bresenham line from the two pending points and empties the pending list; the C key empties shapes, selection and pending points |
| ShapeEditor.TwoClickShape | ComputerGraphicsSimulator/main2.cpp:948-984 | the second click builds an unselected, well-formed shape: a green DDA or red Bresenham line from the first point to the second, a blue circle about the first point whose radius is sqrt(dx² + dy²), or a magenta ellipse about the first point whose radii are the offsets' magnitudes when at least 1 and exactly 1 when the offset is smaller |
| ShapeEditor.DrawClick | ComputerGraphicsSimulator/main2.cpp:948-990 | a drawing click with one point pending in a two-click mode appends exactly the shape built from the pending point and the click and empties the pending list; any other drawing click only records its point |
| ShapeEditor.Finish | ComputerGraphicsSimulator/main2.cpp:994-1006 | a right click appends one shape exactly when at least three points are pending in polygon mode or at least two in Bezier mode; the new shape is a cyan polygon of the pending points filled as the fill toggle says (so the scan-line fill runs exactly when the toggle is on, there being at least three vertices) or a yellow Bezier curve of the pending points, well formed; the pending points are then dropped; otherwise nothing changes |
| ShapeEditor.TransformSelected | ComputerGraphicsSimulator/main2.cpp:1009-1027 | a held key transforms the selected shape, keeps its colour and flag, and changes nothing else |
| ShapeEditor.Step | ComputerGraphicsSimulator/main2.cpp:897-1027 | the selection stays -1 or a shape index; only a mode key changes the mode, and it changes nothing else; F toggles the polygon fill flag, G toggles the grid and Escape empties the pending points, each changing nothing else |
| ShapeEditor.StepPending | ComputerGraphicsSimulator/main2.cpp:897-1006 | every event keeps, empties, or grows the pending points by the clicked point; C empties the shapes, the selection and the pending points |
| ShapeEditor.StepShapes | ComputerGraphicsSimulator/main2.cpp:897-1006 | every event adds at most one shape; apart from C, Delete and held keys, the shapes already there keep their geometry |
| ShapeEditor.StepHeld | ComputerGraphicsSimulator/main2.cpp:1009-1027 | a held key transforms the selected shape alone; with nothing selected it changes nothing |
| ShapeEditor.StepValid | ComputerGraphicsSimulator/main2.cpp:897-1006 | every event keeps the selection a valid index or -1 matching the isSelected flags, and keeps ellipses, polygons and Bezier curves well formed |
| ShapeEditor.DrawClickValid | ComputerGraphicsSimulator/main2.cpp:948-990 | a drawing click only ever appends an unselected, well-formed shape |
| ShapeEditor.StaleTempBlocksShapes | ComputerGraphicsSimulator/main2.cpp:899-905 | as written, once two or more points are pending in a two-click mode, no run of left clicks adds a shape |
| ShapeEditor.PolygonThenLineLosesLine | ComputerGraphicsSimulator/main2.cpp:956-963 | three polygon clicks, the Bresenham key and two clicks leave no shape and five pending points |
| ShapeEditor.StepCorrected | ComputerGraphicsSimulator/main2.cpp:899-905 | with the correction, a mode key sets the mode and drops the pending points, keeping the shapes and the selection; every other event is the event as written |
| ShapeEditor.StepCorrectedKeeps | ComputerGraphicsSimulator/main2.cpp:913-915 | with mode keys clearing the pending points, at most one point is pending in a two-click mode and none in selection mode |
| ShapeEditor.CorrectedTwoClicksAddShape | ComputerGraphicsSimulator/main2.cpp:948-984 | with the correction, from a state of a two-click mode with nothing pending, the next two left clicks add exactly one shape built from them |
| ShapeEditor.PolygonThenLineCorrected | ComputerGraphicsSimulator/main2.cpp:956-963 | with the correction, the same run draws the Bresenham line from the last two clicks |

## Left out

- SFML windows, event polling, textures, `sf::RectangleShape` and `sf::Vertex` drawing, the HUD and text: library I/O. Events are a datatype, and a plotted pixel is an element of the trace.
- Pendulum physics, car kinematics and the per-pixel shading of the pendulum demo: float and trigonometric numerics with no exact contract.
- The non-opaque (alpha-blending) branch of `setPixel`: float blending truncated to 8 bits.
- `fillCircle`, `fillEllipse`, `scanlineFillCircle` and `scanlineGlowRing`: their span bounds come from float `sqrt`.
- The main branch of `thickLine`: its offsets come from a float perpendicular vector. Only the degenerate branch is modelled.
- DDA lines, the float midpoint ellipse of `main2.cpp`, Bezier evaluation and the polygon scan-line fill: float geometry. `ShapeEditor.FillsInterior` records only the fill condition, which `ShapeEditor.Finish` states for a new polygon.
- The degrees-to-radians conversion and the `cos` and `sin` calls of rotate: the Q and E events carry the cosine and sine of the angle, so a rotation is by whatever matrix they give.
- Keys held together in one frame are a run of held-key events in the order the loop polls them; the frame loop and its timing are not modelled.
- `containsPoint`, `distancePointToLine` and `sqrt`: float geometry, passed in as parameters.
- Float rounding: float coordinates and radii are exact reals, so a float product that rounds differently is not modelled. ShapeEditor.TranslateInverse and LineEditor.MoveLineInverse hold only in exact arithmetic; in floats, moving back and forth can drift.
- 32-bit `int` overflow: the kernels use unbounded integers, so a radius or coordinate large enough to overflow `rx * rx * ry` or `2 * err` is not modelled.
- Circles.CircleDraw: Circle::draw adds the integer offsets to the float `center`; the offsets are modelled centre-relative and that float addition is not modelled, so Circles.SameCircle speaks only of an integer centre.
- Bresenham.RoundedLine: does not model the `sf::RectangleShape` of size 2 placed at each pixel, only its position.
- ShapeEditor.ScaleRadii: only the circle and ellipse `scale` clamps are modelled. The Circle constructor does not clamp, so a circle drawn with two clicks on one point keeps radius 0 until it is first scaled; the model follows the code.
- TerrainPoints.Step: the D key passes the mouse-move fields of a key-press event, which the program leaves undefined. The y it reads is a parameter of the event, and the x is ignored by `startDrawing` anyway.
- ShapeEditor.Step: `selectedShape`, a shared_ptr, is modelled as an index into the shape list, or -1 for nullptr.
- Ellipse.EllipseQuadrant: for negative radii only the ry < 0 case is pinned down; a negative rx behaves as its absolute value because only rx*rx is used.

## Findings

| source | as written | input that shows it | evidently intended | confidence | as-written member | corrected member |
|---|---|---|---|---|---|---|
| ComputerGraphicsSimulator/projectno2.cpp:95-103 | `x++` (and `y--`) run before d is updated, so the update uses the coordinates of the next pixel instead of the current one | drawCircle with r = 5 in outline mode walks (0,5), (1,5), (2,4), (3,3) and never plots (3,4), although 3² + 4² = 5² | update d from the pixel just plotted, as the Bresenham circle does; the walk is then (0,5), (1,5), (2,5), (3,4), and the outline equals the midpoint circle | high; not executed | Circles.DrawCircle, Circles.RadiusFiveMissesPixel | Circles.DrawCircleCorrected, Circles.CorrectedIsMidpoint |
| ComputerGraphicsSimulator/main2.cpp:899-905 | the mode keys change the mode but keep `tempPoints`, and the two-click modes test for `size() == 2` | clicking three polygon vertices, pressing 3 and clicking twice adds no line and leaves five pending points; from then on no run of left clicks in a two-click mode adds a shape; only Escape or C, which drop the points, or 6 or 7 followed by a right click, which turn them into a polygon or a Bezier curve, clear them | switching mode drops the pending points, as Escape does | medium; not executed | ShapeEditor.StaleTempBlocksShapes, ShapeEditor.PolygonThenLineLosesLine | ShapeEditor.StepCorrected, ShapeEditor.CorrectedTwoClicksAddShape, ShapeEditor.PolygonThenLineCorrected |

=== FILE: bresenham.dfy ===
/** Bresenham line rasterization in the two error-accumulator forms that
    occur in the demos. Both return the trace of plotted pixels in order. */
module Bresenham {
  import opened Pixels

  /** The pixel p lies within half a pixel of the ideal segment from
      (x0, y0) to (x1, y1), measured along the minor axis: with i and j the
      steps taken in x and y, |dx*j - dy*i| is at most max(dx, dy) / 2. */
  predicate NearIdeal(x0: int, y0: int, x1: int, y1: int, p: Pixel)
  {
    var dx := Abs(x1 - x0);
    var dy := Abs(y1 - y0);
    2 * Abs(dx * Abs(p.1 - y0) - dy * Abs(p.0 - x0)) <= Max(dx, dy)
  }

  /** Every pixel of pts is near the ideal segment. */
  predicate AllNear(x0: int, y0: int, x1: int, y1: int, pts: seq<Pixel>)
  {
    forall k :: 0 <= k < |pts| ==> NearIdeal(x0, y0, x1, y1, pts[k])
  }

  lemma AllNearSnoc(x0: int, y0: int, x1: int, y1: int, pts: seq<Pixel>, p: Pixel)
    requires AllNear(x0, y0, x1, y1, pts) && NearIdeal(x0, y0, x1, y1, p)
    ensures AllNear(x0, y0, x1, y1, pts + [p])
  {
    var q := pts + [p];
    assert forall k :: 0 <= k < |pts| ==> q[k] == pts[k];
  }

  /** The coordinate reached after i unit steps from a towards b. */
  function Advance(a: int, b: int, i: int): int
  {
    if a < b then a + i else a - i
  }

  lemma MulMono(a: int, b: int, c: int)
    requires a >= 0 && b <= c
    ensures a * b <= a * c
  {
  }

  lemma AdvanceDistance(a: int, b: int, i: int)
    requires i >= 0
    ensures Abs(Advance(a, b, i) - a) == i
    ensures Advance(a, b, i) == b <==> i == Abs(b - a)
  {
  }

  /** Where the walk stands after i steps in x and j steps in y, with
      f = dx*j - m*i its deviation from the ideal line (m = |y1 - y0|).
      The product identity is kept apart so that the step lemmas stay linear. */
  predicate Progress(dx: int, m: int, i: int, j: int, f: int)
  {
    0 <= i <= dx && 0 <= j <= m && 2 * Abs(f) <= Max(dx, m)
  }

  /** The linear consequences of f == dx*j - m*i at the two far edges. */
  lemma EdgeFacts(dx: int, m: int, i: int, j: int, f: int)
    requires 0 <= i <= dx && 0 <= j <= m && f == dx * j - m * i
    ensures i == dx && j < m ==> f <= -dx
    ensures j == m && i < dx ==> f >= m
  {
    if i == dx && j < m {
      assert f == dx * (j - m);
      MulMono(dx, j - m, -1);
    }
    if j == m && i < dx {
      assert f == m * (dx - i);
      MulMono(m, 1, dx - i);
    }
  }

  /** The pixel reached after i steps in x and j in y is near the line. */
  lemma NearIdealAt(x0: int, y0: int, x1: int, y1: int, i: int, j: int, f: int)
    requires Progress(Abs(x1 - x0), Abs(y1 - y0), i, j, f)
    requires f == Abs(x1 - x0) * j - Abs(y1 - y0) * i
    ensures NearIdeal(x0, y0, x1, y1, (Advance(x0, x1, i), Advance(y0, y1, j)))
  {
    AdvanceDistance(x0, x1, i);
    AdvanceDistance(y0, y1, j);
  }

  /** Moving the counters by at most one each, and not both by zero, is a
      step towards the far endpoint as long as neither counter overshoots. */
  lemma AdvanceStep(x0: int, y0: int, x1: int, y1: int, i: int, j: int, i': int, j': int)
    requires 0 <= i <= i' <= i + 1 && 0 <= j <= j' <= j + 1 && (i', j') != (i, j)
    requires i' <= Abs(x1 - x0) && j' <= Abs(y1 - y0)
    ensures StepToward((Advance(x0, x1, i), Advance(y0, y1, j)),
                       (Advance(x0, x1, i'), Advance(y0, y1, j')), (x1, y1))
  {
  }

  /** The deviation dx*j - m*i after a step in x, in y, or in both. */
  lemma DeviationStep(dx: int, m: int, i: int, j: int)
    ensures dx * j - m * (i + 1) == (dx * j - m * i) - m
    ensures dx * (j + 1) - m * i == (dx * j - m * i) + dx
    ensures dx * (j + 1) - m * (i + 1) == (dx * j - m * i) - m + dx
  {
  }

  /** One iteration of the inclusive form, on the step counters: the tests
      e2 >= dy and e2 <= dx (e2 = 2 * err, err = f + dx - m) never overshoot,
      always move along the major axis, and keep the walk near the line. */
  lemma InclusiveStep(dx: int, m: int, i: int, j: int, f: int)
    requires Progress(dx, m, i, j, f)
    requires i == dx && j < m ==> f <= -dx
    requires j == m && i < dx ==> f >= m
    requires i < dx || j < m
    ensures var e2 := 2 * (f + dx - m);
      && (e2 >= -m ==> i < dx)
      && (e2 <= dx ==> j < m)
      && (dx >= m ==> e2 >= -m)
      && (m >= dx ==> e2 <= dx)
      && Progress(dx, m, if e2 >= -m then i + 1 else i, if e2 <= dx then j + 1 else j,
                  f - (if e2 >= -m then m else 0) + (if e2 <= dx then dx else 0))
  {
  }

  /** The same for the strict form (tests e2 > -dy and e2 < dx). */
  lemma StrictStep(dx: int, m: int, i: int, j: int, f: int)
    requires Progress(dx, m, i, j, f)
    requires dx == m ==> f == 0
    requires i == dx && j < m ==> f <= -dx
    requires j == m && i < dx ==> f >= m
    requires i < dx || j < m
    ensures var e2 := 2 * (f + dx - m);
      && (e2 > -m ==> i < dx)
      && (e2 < dx ==> j < m)
      && (dx >= m ==> e2 > -m)
      && (m >= dx ==> e2 < dx)
      && Progress(dx, m, if e2 > -m then i + 1 else i, if e2 < dx then j + 1 else j,
                  f - (if e2 > -m then m else 0) + (if e2 < dx then dx else 0))
      && (dx == m ==> e2 > -m && e2 < dx)
  {
  }

  /** The loop state (x, y, err) of either form after i steps in x and j in
      y: the pixel reached, err = f + dx - m with f = dx*j - m*i, and the
      deviation f kept within half the major length. */
  predicate LoopState(x0: int, y0: int, x1: int, y1: int, x: int, y: int, err: int, i: int, j: int, f: int)
  {
    var dx, m := Abs(x1 - x0), Abs(y1 - y0);
    && Progress(dx, m, i, j, f) && f == dx * j - m * i && err == f + dx - m
    && x == Advance(x0, x1, i) && y == Advance(y0, y1, j)
  }

  /** One pass of the inclusive loop body after the pixel is plotted, when
      (x, y) is not yet the far endpoint: a step towards it that always moves
      along the major axis. */
  method InclusiveAdvance(x0: int, y0: int, x1: int, y1: int, dx: int, dy: int, sx: int, sy: int,
                          x: int, y: int, err: int, ghost i: int, ghost j: int, ghost f: int)
    returns (x': int, y': int, err': int, ghost i': int, ghost j': int, ghost f': int)
    requires dx == Abs(x1 - x0) && dy == -(Abs(y1 - y0) as int)
    requires sx == (if x0 < x1 then 1 else -1) && sy == (if y0 < y1 then 1 else -1)
    requires LoopState(x0, y0, x1, y1, x, y, err, i, j, f)
    requires (x, y) != (x1, y1)
    ensures LoopState(x0, y0, x1, y1, x', y', err', i', j', f')
    ensures StepToward((x, y), (x', y'), (x1, y1))
    ensures i <= i' <= i + 1 && j <= j' <= j + 1
    ensures if dx >= -dy then i' == i + 1 else j' == j + 1
  {
    ghost var m := -dy;
    AdvanceDistance(x0, x1, i);
    AdvanceDistance(y0, y1, j);
    EdgeFacts(dx, m, i, j, f);
    InclusiveStep(dx, m, i, j, f);
    DeviationStep(dx, m, i, j);
    var e2 := 2 * err;
    x', y', err' := x, y, err;
    if e2 >= dy {
      err' := err' + dy;
      x' := x' + sx;
    }
    if e2 <= dx {
      err' := err' + dx;
      y' := y' + sy;
    }
    i' := if e2 >= dy then i + 1 else i;
    j' := if e2 <= dx then j + 1 else j;
    f' := f - (if e2 >= dy then m else 0) + (if e2 <= dx then dx else 0);
    AdvanceStep(x0, y0, x1, y1, i, j, i', j');
  }

  /** A loop state of the strict form with n passes left before the major
      axis is exhausted. */
  predicate StrictState(x0: int, y0: int, x1: int, y1: int, x: int, y: int, err: int, i: int, j: int, f: int, n: int)
  {
    var dx, dy := Abs(x1 - x0), Abs(y1 - y0);
    && LoopState(x0, y0, x1, y1, x, y, err, i, j, f) && (dx == dy ==> f == 0)
    && n + (if dx >= dy then i else j) == Max(dx, dy)
  }

  /** The same for the strict form, as a step of the function form: from
      any loop state short of the endpoint, StrictNext moves each coordinate
      by zero or one unit towards the target, always along the major axis,
      and lands in a loop state again. */
  lemma StrictNextState(x0: int, y0: int, x1: int, y1: int, x: int, y: int, err: int, i: int, j: int, f: int, n: int)
    returns (i': int, j': int, f': int)
    requires StrictState(x0, y0, x1, y1, x, y, err, i, j, f, n)
    requires (x, y) != (x1, y1)
    ensures var next := StrictNext(Abs(x1 - x0), Abs(y1 - y0), if x0 < x1 then 1 else -1, if y0 < y1 then 1 else -1, x, y, err);
      && n >= 1
      && StrictState(x0, y0, x1, y1, next.0, next.1, next.2, i', j', f', n - 1)
      && StepToward((x, y), (next.0, next.1), (x1, y1))
  {
    var dx: int, dy: int := Abs(x1 - x0), Abs(y1 - y0);
    var sx, sy := if x0 < x1 then 1 else -1, if y0 < y1 then 1 else -1;
    AdvanceDistance(x0, x1, i);
    AdvanceDistance(y0, y1, j);
    EdgeFacts(dx, dy, i, j, f);
    StrictStep(dx, dy, i, j, f);
    DeviationStep(dx, dy, i, j);
    var e2 := 2 * err;
    i' := if e2 > -dy then i + 1 else i;
    j' := if e2 < dx then j + 1 else j;
    f' := f - (if e2 > -dy then dy else 0) + (if e2 < dx then dx else 0);
    AdvanceStep(x0, y0, x1, y1, i, j, i', j');
    var next := StrictNext(dx, dy, sx, sy, x, y, err);
    assert next.0 == Advance(x0, x1, i') && next.1 == Advance(y0, y1, j');
    assert next.2 == f' + dx - dy;
  }

  /** The line of BallCollision.cpp, TrafficSim.cpp and projectno2.cpp:
      dy is kept negative, err starts at dx + dy, and the two tests are
      e2 >= dy and e2 <= dx. */
  method Line(x0: int, y0: int, x1: int, y1: int) returns (pts: seq<Pixel>)
    ensures |pts| == Max(Abs(x1 - x0), Abs(y1 - y0)) + 1
    ensures pts[0] == (x0, y0) && pts[|pts| - 1] == (x1, y1)
    ensures Walk(pts, (x1, y1))
    ensures forall k :: 0 <= k < |pts| ==> NearIdeal(x0, y0, x1, y1, pts[k])
  {
    var dx: int := Abs(x1 - x0);
    var dy: int := -(Abs(y1 - y0) as int);
    var sx := if x0 < x1 then 1 else -1;
    var sy := if y0 < y1 then 1 else -1;
    var err := dx + dy;
    var x, y := x0, y0;
    ghost var i: int, j: int, f: int := 0, 0, 0;
    pts := [];
    while true
      invariant LoopState(x0, y0, x1, y1, x, y, err, i, j, f)
      invariant |pts| == (if dx >= -dy then i else j)
      invariant |pts| == 0 ==> i == 0 && j == 0
      invariant |pts| > 0 ==> pts[0] == (x0, y0)
      invariant |pts| > 0 ==> StepToward(pts[|pts| - 1], (x, y), (x1, y1))
      invariant Walk(pts, (x1, y1))
      invariant AllNear(x0, y0, x1, y1, pts)
      decreases (dx - i) + (-dy - j)
    {
      NearIdealAt(x0, y0, x1, y1, i, j, f);
      AllNearSnoc(x0, y0, x1, y1, pts, (x, y));
      WalkSnoc(pts, (x, y), (x1, y1));
      pts := pts + [(x, y)];
      AdvanceDistance(x0, x1, i);
      AdvanceDistance(y0, y1, j);
      if x == x1 && y == y1 {
        break;
      }
      x, y, err, i, j, f := InclusiveAdvance(x0, y0, x1, y1, dx, dy, sx, sy, x, y, err, i, j, f);
    }
  }

  /** One pass of the strict loop body on (x, y, err): the two tests are
      made on the same e2 = 2 * err. */
  function StrictNext(dx: int, dy: int, sx: int, sy: int, x: int, y: int, err: int): (int, int, int)
  {
    var e2 := 2 * err;
    var x', ex := if e2 > -dy then x + sx else x, if e2 > -dy then err - dy else err;
    var y', ey := if e2 < dx then y + sy else y, if e2 < dx then ex + dx else ex;
    (x', y', ey)
  }

  /** One pass of the strict loop body after the pixel is plotted, when
      (x, y) is not yet the far endpoint: both tests use the same
      e2 = 2 * err, the pass is a step towards the endpoint that always
      moves along the major axis, and it lands in a loop state with one
      pass fewer left. */
  method StrictPass(x0: int, y0: int, x1: int, y1: int, dx: int, dy: int, sx: int, sy: int,
                    x: int, y: int, err: int, ghost i: int, ghost j: int, ghost f: int, ghost n: int)
    returns (x': int, y': int, err': int, ghost i': int, ghost j': int, ghost f': int)
    requires dx == Abs(x1 - x0) && dy == Abs(y1 - y0)
    requires sx == (if x0 < x1 then 1 else -1) && sy == (if y0 < y1 then 1 else -1)
    requires StrictState(x0, y0, x1, y1, x, y, err, i, j, f, n)
    requires (x, y) != (x1, y1)
    ensures n >= 1 && StrictState(x0, y0, x1, y1, x', y', err', i', j', f', n - 1)
    ensures StepToward((x, y), (x', y'), (x1, y1))
    ensures i <= i' <= i + 1 && j <= j' <= j + 1
    ensures if dx >= dy then i' == i + 1 else j' == j + 1
    ensures (x', y', err') == StrictNext(dx, dy, sx, sy, x, y, err)
  {
    i', j', f' := StrictNextState(x0, y0, x1, y1, x, y, err, i, j, f, n);
    var e2 := 2 * err;
    x', y', err' := x, y, err;
    if e2 > -dy {
      err' := err' - dy;
      x' := x' + sx;
    }
    if e2 < dx {
      err' := err' + dx;
      y' := y' + sy;
    }
  }

  /** The pixels the strict loop plots from state (x, y, err), for at most n
      further passes: it plots (x, y) and stops at (x1, y1). */
  function StrictFrom(x1: int, y1: int, dx: int, dy: int, sx: int, sy: int, x: int, y: int, err: int, n: nat): seq<Pixel>
    decreases n
  {
    if (x == x1 && y == y1) || n == 0 then [(x, y)]
    else
      var next := StrictNext(dx, dy, sx, sy, x, y, err);
      [(x, y)] + StrictFrom(x1, y1, dx, dy, sx, sy, next.0, next.1, next.2, n - 1)
  }

  /** The strict loop's state (x, y, err) after plotting done: done followed
      by what the loop plots from there is the whole trace. */
  predicate StrictRest(trace: seq<Pixel>, done: seq<Pixel>, x1: int, y1: int, dx: int, dy: int, sx: int, sy: int,
                       x: int, y: int, err: int)
  {
    |done| <= Max(dx, dy) && done + StrictFrom(x1, y1, dx, dy, sx, sy, x, y, err, Max(dx, dy) - |done|) == trace
  }

  /** Before the first pass nothing is plotted and the rest is the trace. */
  lemma StrictRestStart(x0: int, y0: int, x1: int, y1: int)
    ensures var dx, dy := Abs(x1 - x0), Abs(y1 - y0);
      StrictRest(StrictTrace(x0, y0, x1, y1), [], x1, y1, dx, dy, if x0 < x1 then 1 else -1, if y0 < y1 then 1 else -1, x0, y0, dx - dy)
  {
    var dx, dy := Abs(x1 - x0), Abs(y1 - y0);
    assert [] + StrictTrace(x0, y0, x1, y1) == StrictTrace(x0, y0, x1, y1);
  }

  /** Once the loop stands on (x1, y1), it has plotted the whole trace. */
  lemma StrictRestEnd(trace: seq<Pixel>, done: seq<Pixel>, x1: int, y1: int, dx: int, dy: int, sx: int, sy: int, err: int)
    requires StrictRest(trace, done, x1, y1, dx, dy, sx, sy, x1, y1, err)
    ensures done + [(x1, y1)] == trace
  {
  }

  /** One pass moves the first pixel of the rest onto the plotted prefix. */
  lemma StrictRestStep(trace: seq<Pixel>, done: seq<Pixel>, x1: int, y1: int, dx: int, dy: int, sx: int, sy: int,
                       x: int, y: int, err: int)
    requires StrictRest(trace, done, x1, y1, dx, dy, sx, sy, x, y, err)
    requires (x, y) != (x1, y1) && |done| < Max(dx, dy)
    ensures var next := StrictNext(dx, dy, sx, sy, x, y, err);
      StrictRest(trace, done + [(x, y)], x1, y1, dx, dy, sx, sy, next.0, next.1, next.2)
  {
    var next := StrictNext(dx, dy, sx, sy, x, y, err);
    var n := Max(dx, dy) - |done|;
    var rest := StrictFrom(x1, y1, dx, dy, sx, sy, next.0, next.1, next.2, n - 1);
    assert StrictFrom(x1, y1, dx, dy, sx, sy, x, y, err, n) == [(x, y)] + rest;
    assert done + ([(x, y)] + rest) == (done + [(x, y)]) + rest;
  }

  /** The trace of the strict loop from (x0, y0) to (x1, y1). The bound of
      max(dx, dy) passes is never what stops it: LineStrict shows the loop
      reaches (x1, y1) within that many passes. */
  function StrictTrace(x0: int, y0: int, x1: int, y1: int): seq<Pixel>
  {
    var dx, dy := Abs(x1 - x0), Abs(y1 - y0);
    StrictFrom(x1, y1, dx, dy, if x0 < x1 then 1 else -1, if y0 < y1 then 1 else -1, x0, y0, dx - dy, Max(dx, dy))
  }

  /** Prepending a pixel near the line that steps to the head of a walk
      keeps both properties. */
  lemma WalkNearCons(x0: int, y0: int, x1: int, y1: int, p: Pixel, rest: seq<Pixel>)
    requires rest != [] && StepToward(p, rest[0], (x1, y1)) && NearIdeal(x0, y0, x1, y1, p)
    requires Walk(rest, (x1, y1)) && AllNear(x0, y0, x1, y1, rest)
    ensures var r := [p] + rest;
      && |r| == |rest| + 1 && r[0] == p && r[|r| - 1] == rest[|rest| - 1]
      && Walk(r, (x1, y1)) && AllNear(x0, y0, x1, y1, r)
  {
    var r := [p] + rest;
    forall k | 0 <= k < |r| - 1
      ensures StepToward(r[k], r[k + 1], (x1, y1))
    {
      if k > 0 {
        assert r[k] == rest[k - 1] && r[k + 1] == rest[k];
      }
    }
    forall k | 0 <= k < |r|
      ensures NearIdeal(x0, y0, x1, y1, r[k])
    {
      if k > 0 {
        assert r[k] == rest[k - 1];
      }
    }
  }

  /** The trace from any loop state has the promised shape: it has one
      pixel per remaining step of the major axis plus one, starts at (x, y),
      ends at (x1, y1), steps towards the end each time and stays within half
      a pixel of the ideal segment. */
  lemma {:induction false} StrictFromShape(x0: int, y0: int, x1: int, y1: int, x: int, y: int, err: int,
                                           i: int, j: int, f: int, n: nat)
    requires StrictState(x0, y0, x1, y1, x, y, err, i, j, f, n)
    ensures var dx, dy := Abs(x1 - x0), Abs(y1 - y0);
      var r := StrictFrom(x1, y1, dx, dy, if x0 < x1 then 1 else -1, if y0 < y1 then 1 else -1, x, y, err, n);
      && |r| == n + 1 && r[0] == (x, y) && r[|r| - 1] == (x1, y1)
      && Walk(r, (x1, y1)) && AllNear(x0, y0, x1, y1, r)
    decreases n
  {
    var dx, dy := Abs(x1 - x0), Abs(y1 - y0);
    var sx, sy := if x0 < x1 then 1 else -1, if y0 < y1 then 1 else -1;
    if (x, y) == (x1, y1) {
      StrictFromEndShape(x0, y0, x1, y1, err, i, j, f, n);
    } else {
      NearIdealAt(x0, y0, x1, y1, i, j, f);
      var i', j', f' := StrictNextState(x0, y0, x1, y1, x, y, err, i, j, f, n);
      var next := StrictNext(dx, dy, sx, sy, x, y, err);
      StrictFromShape(x0, y0, x1, y1, next.0, next.1, next.2, i', j', f', n - 1);
      var rest := StrictFrom(x1, y1, dx, dy, sx, sy, next.0, next.1, next.2, n - 1);
      StrictFromUnfold(x1, y1, dx, dy, sx, sy, x, y, err, n);
      WalkNearCons(x0, y0, x1, y1, (x, y), rest);
    }
  }

  /** At (x1, y1) no steps remain and the trace is that one pixel. */
  lemma StrictFromEndShape(x0: int, y0: int, x1: int, y1: int, err: int, i: int, j: int, f: int, n: nat)
    requires StrictState(x0, y0, x1, y1, x1, y1, err, i, j, f, n)
    ensures var dx, dy := Abs(x1 - x0), Abs(y1 - y0);
      var r := StrictFrom(x1, y1, dx, dy, if x0 < x1 then 1 else -1, if y0 < y1 then 1 else -1, x1, y1, err, n);
      && r == [(x1, y1)] && n == 0
      && Walk(r, (x1, y1)) && AllNear(x0, y0, x1, y1, r)
  {
    NearIdealAt(x0, y0, x1, y1, i, j, f);
    AdvanceDistance(x0, x1, i);
    AdvanceDistance(y0, y1, j);
  }

  /** Short of (x1, y1), the trace is the current pixel followed by the
      trace from the next state. */
  lemma StrictFromUnfold(x1: int, y1: int, dx: int, dy: int, sx: int, sy: int, x: int, y: int, err: int, n: nat)
    requires (x, y) != (x1, y1) && n >= 1
    ensures var next := StrictNext(dx, dy, sx, sy, x, y, err);
      StrictFrom(x1, y1, dx, dy, sx, sy, x, y, err, n)
      == [(x, y)] + StrictFrom(x1, y1, dx, dy, sx, sy, next.0, next.1, next.2, n - 1)
  {
  }

  lemma StrictTraceShape(x0: int, y0: int, x1: int, y1: int)
    ensures var pts := StrictTrace(x0, y0, x1, y1);
      && |pts| == Max(Abs(x1 - x0), Abs(y1 - y0)) + 1
      && pts[0] == (x0, y0) && pts[|pts| - 1] == (x1, y1)
      && Walk(pts, (x1, y1))
      && AllNear(x0, y0, x1, y1, pts)
  {
    var dx: int, dy: int := Abs(x1 - x0), Abs(y1 - y0);
    var sx, sy := if x0 < x1 then 1 else -1, if y0 < y1 then 1 else -1;
    assert StrictTrace(x0, y0, x1, y1) == StrictFrom(x1, y1, dx, dy, sx, sy, x0, y0, dx - dy, Max(dx, dy));
    StrictFromShape(x0, y0, x1, y1, x0, y0, dx - dy, 0, 0, 0, Max(dx, dy));
  }

  method LineStrict(x0: int, y0: int, x1: int, y1: int) returns (pts: seq<Pixel>)
    ensures pts == StrictTrace(x0, y0, x1, y1)
  {
    var dx: int := Abs(x1 - x0);
    var dy: int := Abs(y1 - y0);
    var sx := if x0 < x1 then 1 else -1;
    var sy := if y0 < y1 then 1 else -1;
    var err := dx - dy;
    var x, y := x0, y0;
    ghost var i: int, j: int, f: int := 0, 0, 0;
    ghost var trace := StrictTrace(x0, y0, x1, y1);
    StrictRestStart(x0, y0, x1, y1);
    pts := [];
    while true
      invariant StrictState(x0, y0, x1, y1, x, y, err, i, j, f, Max(dx, dy) - |pts|)
      invariant StrictRest(trace, pts, x1, y1, dx, dy, sx, sy, x, y, err)
      decreases Max(dx, dy) - |pts|
    {
      ghost var done := pts;
      pts := pts + [(x, y)];
      if x == x1 && y == y1 {
        StrictRestEnd(trace, done, x1, y1, dx, dy, sx, sy, err);
        break;
      }
      ghost var px, py, perr := x, y, err;
      x, y, err, i, j, f := StrictPass(x0, y0, x1, y1, dx, dy, sx, sy, x, y, err, i, j, f, Max(dx, dy) - |done|);
      StrictRestStep(trace, done, x1, y1, dx, dy, sx, sy, px, py, perr);
    }
  }

  /** The strict trace between the rounded endpoints. */
  function RoundedTrace(p1: Point, p2: Point): seq<Pixel>
  {
    StrictTrace(Round(p1.x), Round(p1.y), Round(p2.x), Round(p2.y))
  }

  /** Line::drawBresenham in main2.cpp (and drawBresenhamLine in main.cpp):
      both float endpoints are rounded with std::round, then the strict form
      is run. The copies in Polygon and BezierCurve are the same code. */
  method RoundedLine(p1: Point, p2: Point) returns (pts: seq<Pixel>)
    ensures pts == RoundedTrace(p1, p2)
    ensures |pts| == Max(Abs(Round(p2.x) - Round(p1.x)), Abs(Round(p2.y) - Round(p1.y))) + 1
    ensures pts[0] == (Round(p1.x), Round(p1.y))
    ensures pts[|pts| - 1] == (Round(p2.x), Round(p2.y))
    ensures Connected8(pts) && Distinct(pts)
    ensures Walk(pts, (Round(p2.x), Round(p2.y)))
  {
    pts := LineStrict(Round(p1.x), Round(p1.y), Round(p2.x), Round(p2.y));
    StrictTraceShape(Round(p1.x), Round(p1.y), Round(p2.x), Round(p2.y));
    WalkIsConnectedAndDistinct(pts, (Round(p2.x), Round(p2.y)));
  }
}

=== FILE: circles.dfy ===
/** The three integer circle tracers of the demos. Each walks one octant of
    offsets (x, y) from the centre and plots them with 8-fold symmetry (or,
    in projectno2.cpp's fill mode, as mirrored horizontal spans).

    - midpointCircle (BallCollision.cpp, TrafficSim.cpp): x = r, y = 0,
      p = 1 - r, loop while x >= y;
    - Circle::draw (main2.cpp): x = 0, y = (int)radius, d = 1 - y, loop while
      x <= y; this is the same walk with the roles of x and y exchanged;
    - drawCircle (projectno2.cpp): x = 0, y = r, d = 3 - 2r, loop while y >= x. */
module Circles {
  import opened Pixels

  /** The eight octant images of offset o about (cx, cy), in the order in
      which every tracer plots them. */
  function Plot8(cx: int, cy: int, o: Pixel): seq<Pixel>
  {
    var x, y := o.0, o.1;
    [(cx + x, cy + y), (cx - x, cy + y), (cx + x, cy - y), (cx - x, cy - y),
     (cx + y, cy + x), (cx - y, cy + x), (cx + y, cy - x), (cx - y, cy - x)]
  }

  /** The trace of plotting every offset of offs with Plot8, in order. */
  function Expand8(cx: int, cy: int, offs: seq<Pixel>): seq<Pixel>
  {
    if offs == [] then [] else Plot8(cx, cy, offs[0]) + Expand8(cx, cy, offs[1..])
  }

  /** Reflection in the vertical axis through column cx. */
  function MirrorX(cx: int, p: Pixel): Pixel
  {
    (2 * cx - p.0, p.1)
  }

  /** Reflection in the horizontal axis through row cy. */
  function MirrorY(cy: int, p: Pixel): Pixel
  {
    (p.0, 2 * cy - p.1)
  }

  /** Reflection in the diagonal through (cx, cy): the offsets swap. */
  function Swap(cx: int, cy: int, p: Pixel): Pixel
  {
    (cx + (p.1 - cy), cy + (p.0 - cx))
  }

  /** The point set is closed under reflection in the vertical and the
      horizontal axis through (cx, cy) and in the diagonal x - cx == y - cy.
      These three reflections generate all eight octant symmetries:
      AllOctants shows that such a set holds every Octant image of each of
      its points. */
  predicate Symmetric8(cx: int, cy: int, s: seq<Pixel>)
  {
    forall p {:trigger MirrorX(cx, p)} {:trigger MirrorY(cy, p)} {:trigger Swap(cx, cy, p)} :: p in s ==>
      MirrorX(cx, p) in s && MirrorY(cy, p) in s && Swap(cx, cy, p) in s
  }

  /** The k-th of the eight octant symmetries about (cx, cy). */
  function Octant(k: int, cx: int, cy: int, p: Pixel): Pixel
  {
    var (u, v) := (p.0 - cx, p.1 - cy);
    match k
    case 0 => (cx + u, cy + v)
    case 1 => (cx - u, cy + v)
    case 2 => (cx + u, cy - v)
    case 3 => (cx - u, cy - v)
    case 4 => (cx + v, cy + u)
    case 5 => (cx - v, cy + u)
    case 6 => (cx + v, cy - u)
    case _ => (cx - v, cy - u)
  }

  /** The three generating reflections give all eight octant images: a
      Symmetric8 set holds each of the eight points that plot8 emits for
      any of its points. */
  lemma AllOctants(cx: int, cy: int, s: seq<Pixel>, p: Pixel, k: int)
    requires Symmetric8(cx, cy, s) && p in s && 0 <= k < 8
    ensures Octant(k, cx, cy, p) in s
  {
    var h := MirrorX(cx, p);
    var v := MirrorY(cy, p);
    var d := Swap(cx, cy, p);
    assert h in s && v in s && d in s;
    var hv := MirrorY(cy, h);
    var dh := MirrorX(cx, d);
    var dv := MirrorY(cy, d);
    assert hv in s && dh in s && dv in s;
    var dhv := MirrorY(cy, dh);
    assert dhv in s;
  }

  lemma Plot8Symmetric(cx: int, cy: int, o: Pixel)
    ensures Symmetric8(cx, cy, Plot8(cx, cy, o))
  {
    Plot8Reflects(cx, cy, o, 0);
    Plot8Reflects(cx, cy, o, 1);
    Plot8Reflects(cx, cy, o, 2);
  }

  /** Each group of eight is closed under one generating reflection: the
      mirror in the vertical axis (r = 0), in the horizontal axis (r = 1),
      or the exchange of the two offsets (r = 2). */
  lemma Plot8Reflects(cx: int, cy: int, o: Pixel, r: int)
    requires 0 <= r < 3
    ensures forall p :: p in Plot8(cx, cy, o) ==>
      (if r == 0 then MirrorX(cx, p) else if r == 1 then MirrorY(cy, p) else Swap(cx, cy, p)) in Plot8(cx, cy, o)
  {
    var s := Plot8(cx, cy, o);
    var perm := if r == 0 then [1, 0, 3, 2, 5, 4, 7, 6]
                else if r == 1 then [2, 3, 0, 1, 6, 7, 4, 5]
                else [4, 6, 5, 7, 0, 2, 1, 3];
    forall p | p in s
      ensures (if r == 0 then MirrorX(cx, p) else if r == 1 then MirrorY(cy, p) else Swap(cx, cy, p)) in s
    {
      var k :| 0 <= k < 8 && s[k] == p;
      assert s[perm[k]] == if r == 0 then MirrorX(cx, p) else if r == 1 then MirrorY(cy, p) else Swap(cx, cy, p);
    }
  }

  /** A trace made of whole Plot8 groups is 8-fold symmetric. */
  lemma {:induction false} Expand8Symmetric(cx: int, cy: int, offs: seq<Pixel>)
    ensures Symmetric8(cx, cy, Expand8(cx, cy, offs))
  {
    if offs != [] {
      Expand8Symmetric(cx, cy, offs[1..]);
      Plot8Symmetric(cx, cy, offs[0]);
      var a := Plot8(cx, cy, offs[0]);
      var b := Expand8(cx, cy, offs[1..]);
      assert forall p :: p in a + b <==> p in a || p in b;
    }
  }

  /** The shape of an octant walked row by row from (x, y): the k-th offset
      is on row y + k, the column starts at x, drops by at most one per
      row and never falls below the row. */
  predicate RowWalk(r: seq<Pixel>, x: int, y: int)
  {
    && (|r| > 0 ==> r[0] == (x, y))
    && (forall k :: 0 <= k < |r| ==> r[k].1 == y + k && r[k].1 <= r[k].0 <= x)
    && (forall k :: 0 < k < |r| ==> r[k].0 == r[k - 1].0 || r[k].0 == r[k - 1].0 - 1)
  }

  /** The same with the roles of the coordinates exchanged: the k-th offset
      is in column x + k and the row drops by at most one per column. */
  predicate ColumnWalk(r: seq<Pixel>, x: int, y: int)
  {
    && (|r| > 0 ==> r[0] == (x, y))
    && (forall k :: 0 <= k < |r| ==> r[k].0 == x + k && r[k].0 <= r[k].1 <= y)
    && (forall k :: 0 < k < |r| ==> r[k].1 == r[k - 1].1 || r[k].1 == r[k - 1].1 - 1)
  }

  lemma ConsRowWalk(rest: seq<Pixel>, x: int, y: int, x2: int)
    requires y <= x && (x2 == x || x2 == x - 1) && RowWalk(rest, x2, y + 1)
    ensures RowWalk([(x, y)] + rest, x, y)
  {
    var r := [(x, y)] + rest;
    forall k | 0 < k < |r|
      ensures r[k].1 == y + k && r[k].1 <= r[k].0 <= x
      ensures r[k].0 == r[k - 1].0 || r[k].0 == r[k - 1].0 - 1
    {
      assert r[k] == rest[k - 1];
      if k > 1 {
        assert r[k - 1] == rest[k - 2];
      }
    }
  }

  lemma ConsColumnWalk(rest: seq<Pixel>, x: int, y: int, y2: int)
    requires x <= y && (y2 == y || y2 == y - 1) && ColumnWalk(rest, x + 1, y2)
    ensures ColumnWalk([(x, y)] + rest, x, y)
  {
    var r := [(x, y)] + rest;
    forall k | 0 < k < |r|
      ensures r[k].0 == x + k && r[k].0 <= r[k].1 <= y
      ensures r[k].1 == r[k - 1].1 || r[k].1 == r[k - 1].1 - 1
    {
      assert r[k] == rest[k - 1];
      if k > 1 {
        assert r[k - 1] == rest[k - 2];
      }
    }
  }

  // ---------------------------------------------------------------------
  // midpointCircle of BallCollision.cpp and TrafficSim.cpp
  // ---------------------------------------------------------------------

  /** The offsets the loop of midpointCircle visits from state (x, y, p):
      it plots (x, y), steps y, and steps x back when p >= 0, while x >= y. */
  function MidpointOctant(x: int, y: int, p: int): seq<Pixel>
    decreases x - y
  {
    if x < y then []
    else if p < 0 then [(x, y)] + MidpointOctant(x, y + 1, p + 2 * (y + 1) + 1)
    else [(x, y)] + MidpointOctant(x - 1, y + 1, p + 2 * ((y + 1) - (x - 1)) + 1)
  }

  /** The walk is one octant, row by row, and it is empty exactly when the
      loop condition fails at once. */
  lemma {:induction false} MidpointOctantShape(x: int, y: int, p: int)
    ensures |MidpointOctant(x, y, p)| > 0 <==> x >= y
    ensures RowWalk(MidpointOctant(x, y, p), x, y)
    decreases x - y
  {
    if x >= y {
      if p < 0 {
        MidpointOctantShape(x, y + 1, p + 2 * (y + 1) + 1);
        ConsRowWalk(MidpointOctant(x, y + 1, p + 2 * (y + 1) + 1), x, y, x);
      } else {
        MidpointOctantShape(x - 1, y + 1, p + 2 * ((y + 1) - (x - 1)) + 1);
        ConsRowWalk(MidpointOctant(x - 1, y + 1, p + 2 * ((y + 1) - (x - 1)) + 1), x, y, x - 1);
      }
    }
  }

  /** midpointCircle(cx, cy, radius): the trace of setPixel calls, eight per
      offset of the walk started at x = radius, y = 0, p = 1 - radius. */
  function MidpointCircle(cx: int, cy: int, radius: int): (trace: seq<Pixel>)
    ensures Symmetric8(cx, cy, trace)
  {
    Expand8Symmetric(cx, cy, MidpointOctant(radius, 0, 1 - radius));
    Expand8(cx, cy, MidpointOctant(radius, 0, 1 - radius))
  }

  // ---------------------------------------------------------------------
  // Circle::draw of main2.cpp
  // ---------------------------------------------------------------------

  /** The offsets the loop of Circle::draw visits from state (x, y, d): it
      plots (x, y), steps y back when d >= 0, and steps x, while x <= y. */
  function CircleDrawOctant(x: int, y: int, d: int): seq<Pixel>
    decreases y - x
  {
    if x > y then []
    else if d < 0 then [(x, y)] + CircleDrawOctant(x + 1, y, d + 2 * x + 3)
    else [(x, y)] + CircleDrawOctant(x + 1, y - 1, d + 2 * (x - y) + 5)
  }

  lemma {:induction false} CircleDrawOctantShape(x: int, y: int, d: int)
    ensures |CircleDrawOctant(x, y, d)| > 0 <==> x <= y
    ensures ColumnWalk(CircleDrawOctant(x, y, d), x, y)
    decreases y - x
  {
    if x <= y {
      if d < 0 {
        CircleDrawOctantShape(x + 1, y, d + 2 * x + 3);
        ConsColumnWalk(CircleDrawOctant(x + 1, y, d + 2 * x + 3), x, y, y);
      } else {
        CircleDrawOctantShape(x + 1, y - 1, d + 2 * (x - y) + 5);
        ConsColumnWalk(CircleDrawOctant(x + 1, y - 1, d + 2 * (x - y) + 5), x, y, y - 1);
      }
    }
  }

  /** Circle::draw for a circle of float radius (never negative: it is a
      distance, and scale clamps it at 1). The trace is relative to the
      centre, which plot8Points adds to each offset. */
  function CircleDraw(radius: real): (trace: seq<Pixel>)
    requires radius >= 0.0
    ensures Symmetric8(0, 0, trace)
    ensures |trace| > 0
  {
    var r := Trunc(radius);
    CircleDrawOctantShape(0, r, 1 - r);
    Expand8Symmetric(0, 0, CircleDrawOctant(0, r, 1 - r));
    Expand8(0, 0, CircleDrawOctant(0, r, 1 - r))
  }

  /** Each offset with its two coordinates exchanged. */
  function Transpose(s: seq<Pixel>): (r: seq<Pixel>)
    ensures |r| == |s|
    ensures forall k :: 0 <= k < |s| ==> r[k] == (s[k].1, s[k].0)
  {
    if s == [] then [] else [(s[0].1, s[0].0)] + Transpose(s[1..])
  }

  /** Circle::draw walks exactly the midpointCircle octant with x and y
      exchanged: the two decision variables take the same values. */
  lemma {:induction false} CircleDrawIsTransposedMidpoint(x: int, y: int, p: int)
    ensures CircleDrawOctant(y, x, p) == Transpose(MidpointOctant(x, y, p))
    decreases x - y
  {
    if x >= y {
      if p < 0 {
        CircleDrawIsTransposedMidpoint(x, y + 1, p + 2 * (y + 1) + 1);
      } else {
        CircleDrawIsTransposedMidpoint(x - 1, y + 1, p + 2 * ((y + 1) - (x - 1)) + 1);
      }
    }
  }

  /** Exchanging the coordinates of every offset permutes each group of
      eight, so the plotted pixel set does not change. */
  lemma {:induction false} Expand8Transpose(cx: int, cy: int, offs: seq<Pixel>, q: Pixel)
    ensures q in Expand8(cx, cy, Transpose(offs)) <==> q in Expand8(cx, cy, offs)
  {
    if offs != [] {
      Expand8Transpose(cx, cy, offs[1..], q);
      var o := offs[0];
      assert q in Plot8(cx, cy, (o.1, o.0)) <==> q in Plot8(cx, cy, o);
    }
  }

  /** For the same integer radius, main2.cpp's Circle::draw and the
      midpointCircle of BallCollision.cpp / TrafficSim.cpp plot the same set
      of pixels about the centre. */
  lemma SameCircle(cx: int, cy: int, r: int, q: Pixel)
    ensures q in Expand8(cx, cy, CircleDrawOctant(0, r, 1 - r)) <==> q in MidpointCircle(cx, cy, r)
  {
    CircleDrawIsTransposedMidpoint(r, 0, 1 - r);
    Expand8Transpose(cx, cy, MidpointOctant(r, 0, 1 - r), q);
  }

  // ---------------------------------------------------------------------
  // drawCircle of projectno2.cpp
  // ---------------------------------------------------------------------

  /** drawCircle's loop as written, from state (x, y, d): it plots (x, y),
      steps x (and y when d > 0) and only THEN adds 4 * (x - y) + 10 or
      4 * x + 6 to d, with the already stepped coordinates. */
  function BresenhamOctant(x: int, y: int, d: int): seq<Pixel>
    decreases y - x
  {
    if y < x then []
    else if d > 0 then [(x, y)] + BresenhamOctant(x + 1, y - 1, d + 4 * ((x + 1) - (y - 1)) + 10)
    else [(x, y)] + BresenhamOctant(x + 1, y, d + 4 * (x + 1) + 6)
  }

  lemma {:induction false} BresenhamOctantShape(x: int, y: int, d: int)
    ensures |BresenhamOctant(x, y, d)| > 0 <==> x <= y
    ensures ColumnWalk(BresenhamOctant(x, y, d), x, y)
    decreases y - x
  {
    if x <= y {
      if d > 0 {
        BresenhamOctantShape(x + 1, y - 1, d + 4 * ((x + 1) - (y - 1)) + 10);
        ConsColumnWalk(BresenhamOctant(x + 1, y - 1, d + 4 * ((x + 1) - (y - 1)) + 10), x, y, y - 1);
      } else {
        BresenhamOctantShape(x + 1, y, d + 4 * (x + 1) + 6);
        ConsColumnWalk(BresenhamOctant(x + 1, y, d + 4 * (x + 1) + 6), x, y, y);
      }
    }
  }

  /** The Bresenham circle recurrence with d updated from the x and y of the
      pixel just plotted, before the walk steps. */
  function BresenhamOctantCorrected(x: int, y: int, d: int): seq<Pixel>
    decreases y - x
  {
    if y < x then []
    else if d > 0 then [(x, y)] + BresenhamOctantCorrected(x + 1, y - 1, d + 4 * (x - y) + 10)
    else [(x, y)] + BresenhamOctantCorrected(x + 1, y, d + 4 * x + 6)
  }

  /** With d = 2 * (midpoint decision) + 1, the corrected recurrence takes
      the same decisions as the midpoint circle of main2.cpp. */
  lemma {:induction false} CorrectedIsMidpoint(x: int, y: int, d: int)
    ensures BresenhamOctantCorrected(x, y, 2 * d + 1) == CircleDrawOctant(x, y, d)
    decreases y - x
  {
    if x <= y {
      if d < 0 {
        CorrectedIsMidpoint(x + 1, y, d + 2 * x + 3);
      } else {
        CorrectedIsMidpoint(x + 1, y - 1, d + 2 * (x - y) + 5);
      }
    }
  }

  /** Row span [lo, hi] plotted on rows ra and rb, interleaved as in the
      inner loops of drawCircle's fill mode. */
  function Span(lo: int, hi: int, ra: int, rb: int): seq<Pixel>
    decreases hi - lo
  {
    if hi < lo then [] else Span(lo, hi - 1, ra, rb) + [(hi, ra), (hi, rb)]
  }

  lemma {:induction false} SpanMembers(lo: int, hi: int, ra: int, rb: int, p: Pixel)
    ensures p in Span(lo, hi, ra, rb) <==> lo <= p.0 <= hi && (p.1 == ra || p.1 == rb)
    decreases hi - lo
  {
    if lo <= hi {
      SpanMembers(lo, hi - 1, ra, rb, p);
    }
  }

  /** Fill mode for one offset (x, y): spans centred on cx on rows cy +- y
      (half-width x) and on rows cy +- x (half-width y). */
  function Spans(cx: int, cy: int, o: Pixel): seq<Pixel>
  {
    Span(cx - o.0, cx + o.0, cy + o.1, cy - o.1) + Span(cx - o.1, cx + o.1, cy + o.0, cy - o.0)
  }

  function ExpandSpans(cx: int, cy: int, offs: seq<Pixel>): seq<Pixel>
  {
    if offs == [] then [] else Spans(cx, cy, offs[0]) + ExpandSpans(cx, cy, offs[1..])
  }

  /** The pixel p lies on one of the spans drawn for offset o. */
  predicate OnSpans(cx: int, cy: int, o: Pixel, p: Pixel)
  {
    || (Abs(p.0 - cx) <= o.0 && (p.1 == cy + o.1 || p.1 == cy - o.1))
    || (Abs(p.0 - cx) <= o.1 && (p.1 == cy + o.0 || p.1 == cy - o.0))
  }

  lemma SpansMembers(cx: int, cy: int, o: Pixel, p: Pixel)
    ensures p in Spans(cx, cy, o) <==> OnSpans(cx, cy, o, p)
  {
    SpanMembers(cx - o.0, cx + o.0, cy + o.1, cy - o.1, p);
    SpanMembers(cx - o.1, cx + o.1, cy + o.0, cy - o.0, p);
  }

  /** Some offset of offs puts p on its spans. */
  predicate Covered(cx: int, cy: int, offs: seq<Pixel>, p: Pixel)
  {
    exists k :: 0 <= k < |offs| && OnSpans(cx, cy, offs[k], p)
  }

  /** Membership in the fill trace: exactly the pixels on some offset's spans. */
  lemma {:induction false} ExpandSpansMembers(cx: int, cy: int, offs: seq<Pixel>, p: Pixel)
    ensures p in ExpandSpans(cx, cy, offs) <==> Covered(cx, cy, offs, p)
  {
    if offs != [] {
      ExpandSpansMembers(cx, cy, offs[1..], p);
      SpansMembers(cx, cy, offs[0], p);
      if Covered(cx, cy, offs, p) && !OnSpans(cx, cy, offs[0], p) {
        var k :| 0 <= k < |offs| && OnSpans(cx, cy, offs[k], p);
        assert offs[1..][k - 1] == offs[k];
      }
      if Covered(cx, cy, offs[1..], p) {
        var k :| 0 <= k < |offs| - 1 && OnSpans(cx, cy, offs[1..][k], p);
        assert offs[k + 1] == offs[1..][k];
      }
    }
  }

  /** The fill trace is mirror-symmetric about the vertical and the
      horizontal axis through (cx, cy). */
  predicate Mirrored(cx: int, cy: int, s: seq<Pixel>)
  {
    forall p {:trigger MirrorX(cx, p)} {:trigger MirrorY(cy, p)} :: p in s ==>
      MirrorX(cx, p) in s && MirrorY(cy, p) in s
  }

  lemma ExpandSpansMirrored(cx: int, cy: int, offs: seq<Pixel>)
    ensures Mirrored(cx, cy, ExpandSpans(cx, cy, offs))
  {
    forall p | p in ExpandSpans(cx, cy, offs)
      ensures MirrorX(cx, p) in ExpandSpans(cx, cy, offs)
      ensures MirrorY(cy, p) in ExpandSpans(cx, cy, offs)
    {
      ExpandSpansMembers(cx, cy, offs, p);
      var k :| 0 <= k < |offs| && OnSpans(cx, cy, offs[k], p);
      assert OnSpans(cx, cy, offs[k], MirrorX(cx, p));
      assert OnSpans(cx, cy, offs[k], MirrorY(cy, p));
      ExpandSpansMembers(cx, cy, offs, MirrorX(cx, p));
      ExpandSpansMembers(cx, cy, offs, MirrorY(cy, p));
    }
  }

  /** The drawPixel calls of drawCircle for the walk offs: one group of
      eight per offset, or its two pairs of spans in fill mode. */
  function CircleTrace(cx: int, cy: int, offs: seq<Pixel>, fill: bool): (trace: seq<Pixel>)
    ensures !fill ==> Symmetric8(cx, cy, trace)
    ensures fill ==> Mirrored(cx, cy, trace)
    ensures fill ==> forall p :: p in trace <==> Covered(cx, cy, offs, p)
  {
    if fill then
      assert forall p :: p in ExpandSpans(cx, cy, offs) <==> Covered(cx, cy, offs, p) by {
        forall p {
          ExpandSpansMembers(cx, cy, offs, p);
        }
      }
      ExpandSpansMirrored(cx, cy, offs);
      ExpandSpans(cx, cy, offs)
    else
      Expand8Symmetric(cx, cy, offs);
      Expand8(cx, cy, offs)
  }

  /** drawCircle(cx, cy, r, fill) as written: the drawPixel calls it makes
      (before clipping to the window). */
  function DrawCircle(cx: int, cy: int, r: int, fill: bool): (trace: seq<Pixel>)
    ensures !fill ==> Symmetric8(cx, cy, trace)
    ensures fill ==> Mirrored(cx, cy, trace)
    ensures fill ==> forall p :: p in trace <==> Covered(cx, cy, BresenhamOctant(0, r, 3 - 2 * r), p)
    ensures r < 0 ==> trace == []
    ensures !fill && r >= 0 ==>
      (cx, cy + r) in trace && (cx, cy - r) in trace && (cx + r, cy) in trace && (cx - r, cy) in trace
  {
    var offs := BresenhamOctant(0, r, 3 - 2 * r);
    assert r >= 0 ==> offs != [] && offs[0] == (0, r) && Expand8(cx, cy, offs)[..8] == Plot8(cx, cy, (0, r));
    CircleTrace(cx, cy, offs, fill)
  }

  /** drawCircle with the recurrence corrected: in outline mode it plots
      exactly the pixels of midpointCircle, for every centre and radius. */
  function DrawCircleCorrected(cx: int, cy: int, r: int, fill: bool): (trace: seq<Pixel>)
    ensures !fill ==> forall q :: q in trace <==> q in MidpointCircle(cx, cy, r)
  {
    var t := CircleTrace(cx, cy, BresenhamOctantCorrected(0, r, 3 - 2 * r), fill);
    assert !fill ==> forall q :: q in t <==> q in MidpointCircle(cx, cy, r) by {
      CorrectedIsMidpoint(0, r, 1 - r);
      forall q {
        SameCircle(cx, cy, r, q);
      }
    }
    t
  }

  /** As written, drawCircle of radius 5 walks (0, 5), (1, 5), (2, 4), (3, 3);
      the corrected recurrence walks (0, 5), (1, 5), (2, 5), (3, 4). */
  lemma RadiusFiveWalks()
    ensures BresenhamOctant(0, 5, 3 - 2 * 5) == [(0, 5), (1, 5), (2, 4), (3, 3)]
    ensures BresenhamOctantCorrected(0, 5, 3 - 2 * 5) == [(0, 5), (1, 5), (2, 5), (3, 4)]
  {
    assert BresenhamOctant(3, 3, 15) == [(3, 3)];
    assert BresenhamOctant(2, 4, 5) == [(2, 4), (3, 3)];
    assert BresenhamOctant(1, 5, 3) == [(1, 5), (2, 4), (3, 3)];
    assert BresenhamOctantCorrected(3, 4, 7) == [(3, 4)];
    assert BresenhamOctantCorrected(2, 5, 9) == [(2, 5), (3, 4)];
    assert BresenhamOctantCorrected(1, 5, -1) == [(1, 5), (2, 5), (3, 4)];
  }

  /** The as-written walk of radius 5 plots no group that contains (3, 4). */
  lemma RadiusFiveOutline()
    ensures (3, 4) !in Expand8(0, 0, BresenhamOctant(0, 5, 3 - 2 * 5))
  {
    RadiusFiveWalks();
    var w := [(0, 5), (1, 5), (2, 4), (3, 3)];
    assert (3, 4) !in Plot8(0, 0, (0, 5)) && (3, 4) !in Plot8(0, 0, (1, 5));
    assert (3, 4) !in Plot8(0, 0, (2, 4)) && (3, 4) !in Plot8(0, 0, (3, 3));
    assert Expand8(0, 0, w[3..]) == Plot8(0, 0, (3, 3));
    assert Expand8(0, 0, w[2..]) == Plot8(0, 0, (2, 4)) + Expand8(0, 0, w[3..]);
    assert Expand8(0, 0, w[1..]) == Plot8(0, 0, (1, 5)) + Expand8(0, 0, w[2..]);
    assert Expand8(0, 0, w) == Plot8(0, 0, (0, 5)) + Expand8(0, 0, w[1..]);
  }

  /** The corrected walk of radius 5 plots (3, 4) as the first pixel of its
      fourth group. */
  lemma RadiusFiveCorrectedOutline()
    ensures (3, 4) in Expand8(0, 0, BresenhamOctantCorrected(0, 5, 3 - 2 * 5))
  {
    RadiusFiveWalks();
    var c := [(0, 5), (1, 5), (2, 5), (3, 4)];
    assert Expand8(0, 0, c[3..])[0] == (3, 4);
    assert Expand8(0, 0, c[2..]) == Plot8(0, 0, (2, 5)) + Expand8(0, 0, c[3..]);
    assert Expand8(0, 0, c[1..]) == Plot8(0, 0, (1, 5)) + Expand8(0, 0, c[2..]);
    assert Expand8(0, 0, c) == Plot8(0, 0, (0, 5)) + Expand8(0, 0, c[1..]);
    assert Expand8(0, 0, c)[24] == (3, 4);
  }

  /** The outline drawCircle draws for radius 5 about the origin misses the
      pixel (3, 4), which lies exactly on the circle (9 + 16 == 25) and
      which midpointCircle and the corrected drawCircle both plot. */
  lemma RadiusFiveMissesPixel()
    ensures 3 * 3 + 4 * 4 == 5 * 5
    ensures (3, 4) !in DrawCircle(0, 0, 5, false)
    ensures (3, 4) in MidpointCircle(0, 0, 5)
    ensures (3, 4) in DrawCircleCorrected(0, 0, 5, false)
  {
    RadiusFiveOutline();
    RadiusFiveCorrectedOutline();
    assert DrawCircle(0, 0, 5, false) == Expand8(0, 0, BresenhamOctant(0, 5, 3 - 2 * 5));
    assert DrawCircleCorrected(0, 0, 5, false) == Expand8(0, 0, BresenhamOctantCorrected(0, 5, 3 - 2 * 5));
  }
}

=== FILE: ellipse.dfy ===
/** midpointEllipse of TrafficSim.cpp: the integer midpoint ellipse with
    4-way symmetry. Region 1 steps x by one per iteration while the slope is
    shallow (px < py); region 2 steps y down by one until it reaches 0. */
module Ellipse {
  import opened Pixels
  import opened Circles

  /** The four axis reflections of offset o about (cx, cy), in the order of
      the plot4 lambda. */
  function Plot4(cx: int, cy: int, o: Pixel): seq<Pixel>
  {
    [(cx + o.0, cy + o.1), (cx - o.0, cy + o.1), (cx + o.0, cy - o.1), (cx - o.0, cy - o.1)]
  }

  /** The trace of plotting every offset of offs with Plot4, in order. */
  function Expand4(cx: int, cy: int, offs: seq<Pixel>): seq<Pixel>
  {
    if offs == [] then [] else Expand4(cx, cy, offs[..|offs| - 1]) + Plot4(cx, cy, offs[|offs| - 1])
  }

  lemma Plot4Mirrored(cx: int, cy: int, o: Pixel)
    ensures Mirrored(cx, cy, Plot4(cx, cy, o))
  {
    var s := Plot4(cx, cy, o);
    var hx := [1, 0, 3, 2];
    var vy := [2, 3, 0, 1];
    forall p | p in s
      ensures MirrorX(cx, p) in s && MirrorY(cy, p) in s
    {
      var k :| 0 <= k < 4 && s[k] == p;
      assert s[hx[k]] == MirrorX(cx, p);
      assert s[vy[k]] == MirrorY(cy, p);
    }
  }

  /** Every point of a trace of whole plot4 groups comes with its
      reflections across both axes through (cx, cy). */
  lemma {:induction false} Expand4Mirrored(cx: int, cy: int, offs: seq<Pixel>)
    ensures Mirrored(cx, cy, Expand4(cx, cy, offs))
  {
    if offs != [] {
      var n := |offs| - 1;
      Expand4Mirrored(cx, cy, offs[..n]);
      Plot4Mirrored(cx, cy, offs[n]);
      var a := Expand4(cx, cy, offs[..n]);
      var b := Plot4(cx, cy, offs[n]);
      assert forall p :: p in a + b <==> p in a || p in b;
    }
  }

  /** A C++ (int) cast of the float n / 4: truncation toward zero. */
  function QuarterToward0(n: int): (q: int)
    ensures n >= 0 ==> 0 <= 4 * q <= n < 4 * q + 4
    ensures n < 0 ==> 4 * q - 4 < n <= 4 * q <= 0
  {
    if n >= 0 then n / 4 else -((-n) / 4)
  }

  /** The float initialisation of p for region 1, ry2 - rx2 * ry + 0.25 * rx2,
      truncated by the (int) cast. */
  function RegionOneStart(rx2: int, ry2: int, ry: int): int
  {
    QuarterToward0(4 * ry2 - 4 * rx2 * ry + rx2)
  }

  /** The float initialisation of p for region 2,
      ry2 * (x + 0.5)^2 + rx2 * (y - 1)^2 - rx2 * ry2, truncated. */
  function RegionTwoStart(rx2: int, ry2: int, x: int, y: int): int
  {
    QuarterToward0(ry2 * (2 * x + 1) * (2 * x + 1) + 4 * rx2 * (y - 1) * (y - 1) - 4 * rx2 * ry2)
  }

  /** The loop variables of midpointEllipse. */
  datatype State = State(x: int, y: int, px: int, py: int, p: int)

  /** One pass of the region-1 loop body: x steps and px grows by 2 * ry2;
      when p >= 0, y also steps down and py shrinks by 2 * rx2. */
  function StepOne(rx2: nat, ry2: nat, s: State): State
  {
    var x, px := s.x + 1, s.px + 2 * ry2;
    if s.p < 0 then State(x, s.y, px, s.py, s.p + ry2 + px)
    else State(x, s.y - 1, px, s.py - 2 * rx2, s.p + ry2 + px - (s.py - 2 * rx2))
  }

  /** One pass of the region-2 loop body: y steps down and py shrinks by
      2 * rx2; when p <= 0, x also steps and px grows by 2 * ry2. */
  function StepTwo(rx2: nat, ry2: nat, s: State): State
  {
    var y, py := s.y - 1, s.py - 2 * rx2;
    if s.p > 0 then State(s.x, y, s.px, py, s.p + rx2 - py)
    else State(s.x + 1, y, s.px + 2 * ry2, py, s.p + rx2 - py + s.px + 2 * ry2)
  }

  /** The offsets the region-1 loop plots from state s, in order. The loop
      (while px < py) can only run when ry2 > 0, so px - py grows. */
  function RegionOneWalk(rx2: nat, ry2: nat, s: State): seq<Pixel>
    requires ry2 > 0 || s.py <= s.px
    decreases s.py - s.px
  {
    if s.px >= s.py then []
    else
      var t := StepOne(rx2, ry2, s);
      [(t.x, t.y)] + RegionOneWalk(rx2, ry2, t)
  }

  /** The state in which the region-1 loop stops. */
  function RegionOneEnd(rx2: nat, ry2: nat, s: State): State
    requires ry2 > 0 || s.py <= s.px
    decreases s.py - s.px
  {
    if s.px >= s.py then s else RegionOneEnd(rx2, ry2, StepOne(rx2, ry2, s))
  }

  /** The offsets the region-2 loop (while y > 0) plots from state s. */
  function RegionTwoWalk(rx2: nat, ry2: nat, s: State): seq<Pixel>
    decreases s.y
  {
    if s.y <= 0 then []
    else
      var t := StepTwo(rx2, ry2, s);
      [(t.x, t.y)] + RegionTwoWalk(rx2, ry2, t)
  }

  /** A region-1 step: x up by exactly one, y down by at most one. */
  predicate OneStep(a: Pixel, b: Pixel)
  {
    b.0 == a.0 + 1 && a.1 - 1 <= b.1 <= a.1
  }

  /** A region-2 step: y down by exactly one, x up by at most one. */
  predicate TwoStep(a: Pixel, b: Pixel)
  {
    b.1 == a.1 - 1 && a.0 <= b.0 <= a.0 + 1
  }

  /** w continues from a by region-1 steps. */
  predicate ChainOne(a: Pixel, w: seq<Pixel>)
  {
    && (|w| > 0 ==> OneStep(a, w[0]))
    && forall k :: 0 < k < |w| ==> OneStep(w[k - 1], w[k])
  }

  /** w continues from a by region-2 steps. */
  predicate ChainTwo(a: Pixel, w: seq<Pixel>)
  {
    && (|w| > 0 ==> TwoStep(a, w[0]))
    && forall k :: 0 < k < |w| ==> TwoStep(w[k - 1], w[k])
  }

  /** Every offset lies in the closed first quadrant, no higher than ry. */
  predicate InQuadrant(s: seq<Pixel>, ry: int)
  {
    forall k :: 0 <= k < |s| ==> 0 <= s[k].0 && 0 <= s[k].1 <= ry
  }

  /** The last offset of [a] + w. */
  function Last(a: Pixel, w: seq<Pixel>): Pixel
  {
    if w == [] then a else w[|w| - 1]
  }

  lemma ConsChainOne(a: Pixel, b: Pixel, w: seq<Pixel>, ry: int)
    requires OneStep(a, b) && ChainOne(b, w)
    requires 0 <= b.0 && 0 <= b.1 <= ry && InQuadrant(w, ry)
    ensures ChainOne(a, [b] + w) && InQuadrant([b] + w, ry) && Last(a, [b] + w) == Last(b, w)
  {
    var v := [b] + w;
    forall k | 1 < k < |v|
      ensures OneStep(v[k - 1], v[k])
    {
      assert v[k] == w[k - 1] && v[k - 1] == w[k - 2];
    }
    assert forall k :: 0 < k < |v| ==> v[k] == w[k - 1];
  }

  lemma ConsChainTwo(a: Pixel, b: Pixel, w: seq<Pixel>, ry: int)
    requires TwoStep(a, b) && ChainTwo(b, w)
    requires 0 <= b.0 && 0 <= b.1 <= ry && InQuadrant(w, ry)
    ensures ChainTwo(a, [b] + w) && InQuadrant([b] + w, ry) && Last(a, [b] + w) == Last(b, w)
  {
    var v := [b] + w;
    forall k | 1 < k < |v|
      ensures TwoStep(v[k - 1], v[k])
    {
      assert v[k] == w[k - 1] && v[k - 1] == w[k - 2];
    }
    assert forall k :: 0 < k < |v| ==> v[k] == w[k - 1];
  }

  lemma MulStep(c: int, n: int)
    ensures c * (n + 1) == c * n + c
    ensures c * (n - 1) == c * n - c
  {
  }

  lemma ProductSigns(c: int, n: int)
    requires c >= 0
    ensures n >= 0 ==> c * n >= 0
    ensures n <= 0 ==> c * n <= 0
    ensures c * n > 0 ==> n > 0
  {
  }

  lemma SquareNonNegative(n: int)
    ensures n * n >= 0
  {
  }

  /** px and py are tied to x and y as the loops keep them. */
  predicate Tied(rx2: nat, ry2: nat, s: State)
  {
    s.px == 2 * ry2 * s.x && s.py == 2 * rx2 * s.y
  }

  /** A region-1 step from a state inside the quadrant with px, py tied to
      x, y stays inside and tied: y only steps down while py > 0. */
  lemma StepOneFacts(rx2: nat, ry2: nat, ry: int, s: State)
    requires ry2 > 0 || ry <= 0
    requires Tied(rx2, ry2, s) && 0 <= s.x && 0 <= s.y <= ry && s.px < s.py
    ensures var t := StepOne(rx2, ry2, s);
      && Tied(rx2, ry2, t) && 0 <= t.x && 0 <= t.y <= ry && ry2 > 0
      && OneStep((s.x, s.y), (t.x, t.y))
  {
    MulStep(2 * ry2, s.x);
    MulStep(2 * rx2, s.y);
    ProductSigns(2 * ry2, s.x);
    ProductSigns(2 * rx2, s.y);
  }

  /** Region 1 started inside the quadrant, tied, plots region-1 steps that
      stay inside the quadrant, and stops at its last offset, still tied and
      inside. */
  lemma {:induction false} RegionOneWalkShape(rx2: nat, ry2: nat, ry: int, s: State)
    requires ry2 > 0 || s.py <= s.px
    requires ry2 > 0 || ry <= 0
    requires Tied(rx2, ry2, s) && 0 <= s.x && 0 <= s.y <= ry
    ensures ChainOne((s.x, s.y), RegionOneWalk(rx2, ry2, s))
    ensures InQuadrant(RegionOneWalk(rx2, ry2, s), ry)
    ensures var e := RegionOneEnd(rx2, ry2, s);
      Last((s.x, s.y), RegionOneWalk(rx2, ry2, s)) == (e.x, e.y) && 0 <= e.x && 0 <= e.y <= ry
    decreases s.py - s.px
  {
    if s.px < s.py {
      var t := StepOne(rx2, ry2, s);
      StepOneFacts(rx2, ry2, ry, s);
      RegionOneWalkShape(rx2, ry2, ry, t);
      ConsChainOne((s.x, s.y), (t.x, t.y), RegionOneWalk(rx2, ry2, t), ry);
    }
  }

  /** Region 2 started inside the quadrant plots region-2 steps that stay
      inside it and ends on the x axis. */
  lemma {:induction false} RegionTwoWalkShape(rx2: nat, ry2: nat, ry: int, s: State)
    requires 0 <= s.x && 0 <= s.y <= ry
    ensures ChainTwo((s.x, s.y), RegionTwoWalk(rx2, ry2, s))
    ensures InQuadrant(RegionTwoWalk(rx2, ry2, s), ry)
    ensures Last((s.x, s.y), RegionTwoWalk(rx2, ry2, s)).1 == 0
    decreases s.y
  {
    if s.y > 0 {
      var t := StepTwo(rx2, ry2, s);
      RegionTwoWalkShape(rx2, ry2, ry, t);
      ConsChainTwo((s.x, s.y), (t.x, t.y), RegionTwoWalk(rx2, ry2, t), ry);
    }
  }

  /** What midpointEllipse passes to plot4, in order, and the index at which
      region 2 begins. */
  datatype Quadrant = Quadrant(offsets: seq<Pixel>, split: nat)

  /** The loop variables after the first plot of (0, ry). */
  function EllipseStart(rx2: nat, ry2: nat, ry: int): State
  {
    State(0, ry, 0, 2 * rx2 * ry, RegionOneStart(rx2, ry2, ry))
  }

  /** Offsets built as a start pixel, a region-1 chain and a region-2 chain
      from its last pixel step as the two regions say. */
  lemma JoinChains(a: Pixel, w1: seq<Pixel>, w2: seq<Pixel>)
    requires ChainOne(a, w1) && ChainTwo(Last(a, w1), w2)
    ensures var offs := [a] + w1 + w2;
      && (forall k :: 0 < k <= |w1| ==> OneStep(offs[k - 1], offs[k]))
      && (forall k :: |w1| < k < |offs| ==> TwoStep(offs[k - 1], offs[k]))
  {
    var offs := [a] + w1 + w2;
    forall k | 0 < k <= |w1|
      ensures OneStep(offs[k - 1], offs[k])
    {
      assert offs[k] == w1[k - 1];
      assert offs[k - 1] == if k == 1 then a else w1[k - 2];
    }
    forall k | |w1| < k < |offs|
      ensures TwoStep(offs[k - 1], offs[k])
    {
      assert offs[k] == w2[k - 1 - |w1|];
      assert offs[k - 1] == if k == |w1| + 1 then Last(a, w1) else w2[k - 2 - |w1|];
    }
  }

  /** The quadrant walk for the squared radii rx2 and ry2: the first plot
      of (0, ry), then region 1, then region 2, which picks up x, y, px, py
      where region 1 left them and starts p afresh. */
  function QuadrantWalk(rx2: nat, ry2: nat, ry: int): Quadrant
    requires ry2 > 0 || ry <= 0
  {
    var s := EllipseStart(rx2, ry2, ry);
    ProductSigns(2 * rx2, ry);
    var e := RegionOneEnd(rx2, ry2, s);
    var e' := State(e.x, e.y, e.px, e.py, RegionTwoStart(rx2, ry2, e.x, e.y));
    Quadrant([(0, ry)] + RegionOneWalk(rx2, ry2, s) + RegionTwoWalk(rx2, ry2, e'), 1 + |RegionOneWalk(rx2, ry2, s)|)
  }

  /** The start pixel (0, ry), a region-1 chain and a region-2 chain from
      its end, all in the quadrant and ending on the x axis, make offsets
      that step as the two regions say. */
  lemma AssembledShape(ry: int, w1: seq<Pixel>, w2: seq<Pixel>)
    requires ry >= 0
    requires ChainOne((0, ry), w1) && InQuadrant(w1, ry)
    requires ChainTwo(Last((0, ry), w1), w2) && InQuadrant(w2, ry)
    requires Last(Last((0, ry), w1), w2).1 == 0
    ensures var offs := [(0, ry)] + w1 + w2;
      && (forall k :: 0 < k < 1 + |w1| ==> OneStep(offs[k - 1], offs[k]))
      && (forall k :: 1 + |w1| <= k < |offs| ==> TwoStep(offs[k - 1], offs[k]))
      && InQuadrant(offs, ry) && offs[|offs| - 1].1 == 0
  {
    JoinChains((0, ry), w1, w2);
    AssembledInQuadrant(ry, w1, w2);
    assert Last((0, ry), w1 + w2) == Last(Last((0, ry), w1), w2);
  }

  lemma AssembledInQuadrant(ry: int, w1: seq<Pixel>, w2: seq<Pixel>)
    requires ry >= 0 && InQuadrant(w1, ry) && InQuadrant(w2, ry)
    ensures InQuadrant([(0, ry)] + w1 + w2, ry)
  {
    var offs := [(0, ry)] + w1 + w2;
    forall k | 0 <= k < |offs|
      ensures 0 <= offs[k].0 && 0 <= offs[k].1 <= ry
    {
      if 1 <= k < 1 + |w1| {
        assert offs[k] == w1[k - 1];
      } else if k >= 1 + |w1| {
        assert offs[k] == w2[k - 1 - |w1|];
      }
    }
  }

  /** Region 1 steps x by one and region 2 steps y down by one, from (0, ry)
      inside the first quadrant down to the x axis; a negative ry plots only
      (0, ry). */
  lemma QuadrantWalkShape(rx2: nat, ry2: nat, ry: int)
    requires ry2 > 0 || ry <= 0
    ensures var q := QuadrantWalk(rx2, ry2, ry);
      && 1 <= q.split <= |q.offsets| && q.offsets[0] == (0, ry)
      && (forall k :: 0 < k < q.split ==> OneStep(q.offsets[k - 1], q.offsets[k]))
      && (forall k :: q.split <= k < |q.offsets| ==> TwoStep(q.offsets[k - 1], q.offsets[k]))
      && (ry >= 0 ==> InQuadrant(q.offsets, ry) && q.offsets[|q.offsets| - 1].1 == 0)
      && (ry < 0 ==> q.offsets == [(0, ry)])
  {
    var s := EllipseStart(rx2, ry2, ry);
    ProductSigns(2 * rx2, ry);
    var e := RegionOneEnd(rx2, ry2, s);
    var e' := State(e.x, e.y, e.px, e.py, RegionTwoStart(rx2, ry2, e.x, e.y));
    var w1, w2 := RegionOneWalk(rx2, ry2, s), RegionTwoWalk(rx2, ry2, e');
    var q := QuadrantWalk(rx2, ry2, ry);
    assert q.offsets == [(0, ry)] + w1 + w2 && q.split == 1 + |w1|;
    if ry >= 0 {
      RegionOneWalkShape(rx2, ry2, ry, s);
      RegionTwoWalkShape(rx2, ry2, ry, e');
      AssembledShape(ry, w1, w2);
    } else {
      assert w1 == [] && e == s;
      assert w2 == [];
    }
  }

  /** The offsets of midpointEllipse(cx, cy, rx, ry), in order, with the
      index at which region 2 begins: from (0, ry) region 1 steps x by one
      and region 2 steps y down by one, inside the first quadrant down to
      the x axis; a negative ry plots only (0, ry). */
  function EllipseQuadrant(rx: int, ry: int): (q: Quadrant)
    ensures 1 <= q.split <= |q.offsets| && q.offsets[0] == (0, ry)
    ensures forall k :: 0 < k < q.split ==> OneStep(q.offsets[k - 1], q.offsets[k])
    ensures forall k :: q.split <= k < |q.offsets| ==> TwoStep(q.offsets[k - 1], q.offsets[k])
    ensures ry >= 0 ==> InQuadrant(q.offsets, ry) && q.offsets[|q.offsets| - 1].1 == 0
    ensures ry < 0 ==> q.offsets == [(0, ry)]
  {
    SquareNonNegative(rx);
    SquareNonNegative(ry);
    QuadrantWalkShape(rx * rx, ry * ry, ry);
    QuadrantWalk(rx * rx, ry * ry, ry)
  }

  /** Every pixel of a trace of plot4 groups whose offsets lie in the
      quadrant lies within rows cy - ry .. cy + ry. */
  lemma {:induction false} Expand4Rows(cx: int, cy: int, offs: seq<Pixel>, ry: int)
    ensures InQuadrant(offs, ry) ==> forall q :: q in Expand4(cx, cy, offs) ==> cy - ry <= q.1 <= cy + ry
  {
    if offs != [] {
      var n := |offs| - 1;
      Expand4Rows(cx, cy, offs[..n], ry);
      var a := Expand4(cx, cy, offs[..n]);
      var b := Plot4(cx, cy, offs[n]);
      assert forall q :: q in a + b <==> q in a || q in b;
    }
  }

  /** The first four points of a trace of plot4 groups are the group of the
      first offset, and the last four the group of the last offset. */
  lemma {:induction false} Expand4Ends(cx: int, cy: int, offs: seq<Pixel>)
    requires offs != []
    ensures |Expand4(cx, cy, offs)| >= 4
    ensures Expand4(cx, cy, offs)[..4] == Plot4(cx, cy, offs[0])
    ensures var t := Expand4(cx, cy, offs); t[|t| - 4..] == Plot4(cx, cy, offs[|offs| - 1])
  {
    var n := |offs| - 1;
    var a := Expand4(cx, cy, offs[..n]);
    var b := Plot4(cx, cy, offs[n]);
    assert Expand4(cx, cy, offs) == a + b;
    if n == 0 {
      assert a == [];
    } else {
      Expand4Ends(cx, cy, offs[..n]);
      assert offs[..n][0] == offs[0];
      assert (a + b)[..4] == a[..4];
    }
    assert (a + b)[|a + b| - 4..] == b;
  }

  /** For a walk that starts at (0, ry) and, when ry >= 0, ends on y == 0:
      the trace starts with (cx, cy + ry) and (cx, cy - ry) and ends with
      four plots on row cy. */
  lemma WalkTraceEnds(cx: int, cy: int, ry: int, offs: seq<Pixel>)
    requires offs != [] && offs[0] == (0, ry)
    requires ry >= 0 ==> offs[|offs| - 1].1 == 0
    ensures var t := Expand4(cx, cy, offs);
      && |t| >= 4 && t[..4] == Plot4(cx, cy, (0, ry))
      && t[0] == (cx, cy + ry) && t[2] == (cx, cy - ry)
      && (ry >= 0 ==> forall q :: q in t[|t| - 4..] ==> q.1 == cy)
  {
    Expand4Ends(cx, cy, offs);
    var t := Expand4(cx, cy, offs);
    assert t[0] == t[..4][0] && t[2] == t[..4][2];
  }

  /** midpointEllipse(cx, cy, rx, ry): the trace of setPixel calls, four per
      offset of the quadrant walk. It is symmetric about both axes through
      the centre, and for ry >= 0 it stays within rows cy - ry .. cy + ry.
      The first four plots are the group of (0, ry), so (cx, cy + ry) and
      (cx, cy - ry) come first; for ry >= 0 the last four lie on row cy. */
  function MidpointEllipse(cx: int, cy: int, rx: int, ry: int): (trace: seq<Pixel>)
    ensures Mirrored(cx, cy, trace)
    ensures ry >= 0 ==> forall q :: q in trace ==> cy - ry <= q.1 <= cy + ry
    ensures |trace| == 4 * |EllipseQuadrant(rx, ry).offsets|
    ensures |trace| >= 4 && trace[..4] == Plot4(cx, cy, (0, ry))
    ensures trace[0] == (cx, cy + ry) && trace[2] == (cx, cy - ry)
    ensures ry >= 0 ==> forall q :: q in trace[|trace| - 4..] ==> q.1 == cy
  {
    var offs := EllipseQuadrant(rx, ry).offsets;
    Expand4Mirrored(cx, cy, offs);
    Expand4Rows(cx, cy, offs, ry);
    Expand4Length(cx, cy, offs);
    WalkTraceEnds(cx, cy, ry, offs);
    Expand4(cx, cy, offs)
  }

  lemma {:induction false} Expand4Length(cx: int, cy: int, offs: seq<Pixel>)
    ensures |Expand4(cx, cy, offs)| == 4 * |offs|
  {
    if offs != [] {
      Expand4Length(cx, cy, offs[..|offs| - 1]);
    }
  }
}

=== FILE: framebuffer.dfy ===
/** The software framebuffer of BallCollision.cpp and TrafficSim.cpp: a flat
    array of w*h RGBA pixels, four bytes each, row-major. Writes outside the
    window are discarded silently. */
module Framebuffer {
  import opened Pixels

  type byte = b: int | 0 <= b < 256

  datatype Rgb = Rgb(r: byte, g: byte, b: byte)

  /** BallCollision.cpp window. */
  const BallWidth: nat := 900
  const BallHeight: nat := 700
  /** TrafficSim.cpp window. */
  const TrafficWidth: nat := 1000
  const TrafficHeight: nat := 600
  /** projectno2.cpp window, used only for clipping. */
  const TerrainWidth: nat := 1200
  const TerrainHeight: nat := 700

  /** The four stored bytes of an opaque pixel of colour c. */
  function Opaque(c: Rgb): seq<byte>
  {
    [c.r, c.g, c.b, 255]
  }

  predicate Sized(buf: seq<byte>, w: nat, h: nat)
  {
    |buf| == w * h * 4
  }

  predicate InBounds(x: int, y: int, w: nat, h: nat)
  {
    0 <= x < w && 0 <= y < h
  }

  /** Byte offset of pixel (x, y). */
  function Index(x: int, y: int, w: nat): int
  {
    (y * w + x) * 4
  }

  lemma CellBound(x: int, y: int, w: nat, h: nat)
    requires InBounds(x, y, w, h)
    ensures 0 <= y * w + x < w * h
  {
    assert y * w + x < y * w + w == (y + 1) * w;
    assert (y + 1) * w <= h * w by {
      MulMonoNat(w, y + 1, h);
    }
  }

  lemma MulMonoNat(w: nat, a: int, b: int)
    requires a <= b
    ensures a * w <= b * w
  {
  }

  /** Distinct in-window pixels occupy disjoint groups of four bytes. */
  lemma CellsDistinct(x: int, y: int, x': int, y': int, w: nat, h: nat)
    requires InBounds(x, y, w, h) && InBounds(x', y', w, h)
    requires (x, y) != (x', y')
    ensures y * w + x != y' * w + x'
  {
    if y < y' {
      MulMonoNat(w, y + 1, y');
    } else if y' < y {
      MulMonoNat(w, y' + 1, y);
    }
  }

  function PixelAt(buf: seq<byte>, w: nat, h: nat, x: int, y: int): seq<byte>
    requires Sized(buf, w, h) && InBounds(x, y, w, h)
  {
    CellBound(x, y, w, h);
    buf[Index(x, y, w)..Index(x, y, w) + 4]
  }

  /** n opaque pixels of colour c, one after another. */
  function Fill(c: Rgb, n: nat): (buf: seq<byte>)
    ensures |buf| == 4 * n
  {
    if n == 0 then [] else Fill(c, n - 1) + Opaque(c)
  }

  /** Pixel k of Fill(c, n) is (c, 255). */
  lemma {:induction false} FillAt(c: Rgb, n: nat, k: int)
    requires 0 <= k < n
    ensures Fill(c, n)[4 * k..4 * k + 4] == Opaque(c)
  {
    var front := Fill(c, n - 1);
    assert Fill(c, n) == front + Opaque(c);
    if k < n - 1 {
      FillAt(c, n - 1, k);
      assert (front + Opaque(c))[4 * k..4 * k + 4] == front[4 * k..4 * k + 4];
    } else {
      assert (front + Opaque(c))[4 * k..4 * k + 4] == Opaque(c);
    }
  }

  /** clearBuffer: every pixel becomes (r, g, b, 255). */
  method Clear(w: nat, h: nat, c: Rgb) returns (buf: seq<byte>)
    ensures Sized(buf, w, h)
    ensures forall k :: 0 <= k < w * h ==> buf[4 * k..4 * k + 4] == Opaque(c)
    ensures forall x, y :: InBounds(x, y, w, h) ==> PixelAt(buf, w, h, x, y) == Opaque(c)
  {
    var total := w * h;
    buf := [];
    var i := 0;
    while i < total
      invariant 0 <= i <= total
      invariant buf == Fill(c, i)
    {
      buf := buf + Opaque(c);
      i := i + 1;
    }
    forall k | 0 <= k < total
      ensures buf[4 * k..4 * k + 4] == Opaque(c)
    {
      FillAt(c, total, k);
    }
    forall x, y | InBounds(x, y, w, h)
      ensures PixelAt(buf, w, h, x, y) == Opaque(c)
    {
      CellBound(x, y, w, h);
      var k := y * w + x;
      FillAt(c, total, k);
      assert Index(x, y, w) == 4 * k;
    }
  }

  /** setPixel on its opaque path (a == 255): out-of-window writes are
      discarded; otherwise exactly the four bytes of (x, y) change. */
  function SetPixel(buf: seq<byte>, w: nat, h: nat, x: int, y: int, c: Rgb): (out: seq<byte>)
    requires Sized(buf, w, h)
    ensures Sized(out, w, h)
    ensures !InBounds(x, y, w, h) ==> out == buf
    ensures InBounds(x, y, w, h) ==>
      && 0 <= Index(x, y, w) && Index(x, y, w) + 4 <= |out|
      && out[Index(x, y, w)..Index(x, y, w) + 4] == Opaque(c)
      && forall k :: 0 <= k < |buf| && !(Index(x, y, w) <= k < Index(x, y, w) + 4) ==> out[k] == buf[k]
  {
    if !InBounds(x, y, w, h) then buf
    else
      CellBound(x, y, w, h);
      var i := Index(x, y, w);
      buf[..i] + Opaque(c) + buf[i + 4..]
  }

  /** Seen pixel by pixel, setPixel changes (x, y) and no other pixel. */
  lemma SetPixelAt(buf: seq<byte>, w: nat, h: nat, x: int, y: int, c: Rgb, x': int, y': int)
    requires Sized(buf, w, h) && InBounds(x', y', w, h)
    ensures PixelAt(SetPixel(buf, w, h, x, y, c), w, h, x', y') ==
      if (x', y') == (x, y) then Opaque(c) else PixelAt(buf, w, h, x', y')
  {
    if InBounds(x, y, w, h) && (x', y') != (x, y) {
      CellsDistinct(x, y, x', y', w, h);
      CellBound(x', y', w, h);
      var out := SetPixel(buf, w, h, x, y, c);
      var i' := Index(x', y', w);
      assert Index(x, y, w) + 4 <= i' || i' + 4 <= Index(x, y, w);
      assert forall k :: i' <= k < i' + 4 ==> out[k] == buf[k];
    }
  }

  /** Plots every pixel of a trace in one colour, in order, through
      setPixel: exactly the in-window pixels of the trace take the colour
      and every other pixel keeps its value. */
  function Paint(buf: seq<byte>, w: nat, h: nat, t: seq<Pixel>, c: Rgb): (out: seq<byte>)
    requires Sized(buf, w, h)
    ensures Sized(out, w, h)
    ensures forall x, y :: InBounds(x, y, w, h) ==>
      PixelAt(out, w, h, x, y) == if (x, y) in t then Opaque(c) else PixelAt(buf, w, h, x, y)
    decreases |t|
  {
    if t == [] then buf
    else
      var b1 := SetPixel(buf, w, h, t[0].0, t[0].1, c);
      var out := Paint(b1, w, h, t[1..], c);
      assert forall x, y :: InBounds(x, y, w, h) ==>
        PixelAt(out, w, h, x, y) == if (x, y) in t then Opaque(c) else PixelAt(buf, w, h, x, y)
      by {
        forall x, y | InBounds(x, y, w, h)
          ensures PixelAt(out, w, h, x, y) == if (x, y) in t then Opaque(c) else PixelAt(buf, w, h, x, y)
        {
          SetPixelAt(buf, w, h, t[0].0, t[0].1, c, x, y);
          assert (x, y) in t <==> (x, y) == t[0] || (x, y) in t[1..];
        }
      }
      out
  }

  /** Painting a trace that lies wholly outside the window changes nothing. */
  lemma {:induction false} PaintOutside(buf: seq<byte>, w: nat, h: nat, t: seq<Pixel>, c: Rgb)
    requires Sized(buf, w, h)
    requires forall k :: 0 <= k < |t| ==> !InBounds(t[k].0, t[k].1, w, h)
    ensures Paint(buf, w, h, t, c) == buf
    decreases |t|
  {
    if t != [] {
      PaintOutside(buf, w, h, t[1..], c);
    }
  }

  /** The degenerate branch of thickLine: when the two integer endpoints
      coincide the segment length is 0 (< 0.001) and exactly one pixel,
      (x0, y0), is written. */
  function ThickLineDegenerate(buf: seq<byte>, w: nat, h: nat, x0: int, y0: int, x1: int, y1: int, c: Rgb): (out: seq<byte>)
    requires Sized(buf, w, h)
    requires x0 == x1 && y0 == y1
    ensures Sized(out, w, h)
    ensures forall x, y :: InBounds(x, y, w, h) ==>
      PixelAt(out, w, h, x, y) == if (x, y) == (x0, y0) then Opaque(c) else PixelAt(buf, w, h, x, y)
  {
    var out := SetPixel(buf, w, h, x0, y0, c);
    assert forall x, y :: InBounds(x, y, w, h) ==>
      PixelAt(out, w, h, x, y) == if (x, y) == (x0, y0) then Opaque(c) else PixelAt(buf, w, h, x, y) by {
      forall x, y | InBounds(x, y, w, h) {
        SetPixelAt(buf, w, h, x0, y0, c, x, y);
      }
    }
    out
  }

  /** drawPixel of projectno2.cpp draws straight to the window and keeps only
      the pixels inside [0, w) x [0, h); the pixels it draws from a trace. */
  function Clip(t: seq<Pixel>, w: nat, h: nat): (r: seq<Pixel>)
    ensures |r| <= |t|
    ensures forall p :: p in r <==> p in t && InBounds(p.0, p.1, w, h)
  {
    if t == [] then []
    else
      var rest := Clip(t[1..], w, h);
      assert forall p :: p in t <==> p == t[0] || p in t[1..];
      if InBounds(t[0].0, t[0].1, w, h) then [t[0]] + rest else rest
  }

  /** Clipping keeps the trace's order, so it keeps it free of repeats. */
  lemma {:induction false} ClipDistinct(t: seq<Pixel>, w: nat, h: nat)
    requires Distinct(t)
    ensures Distinct(Clip(t, w, h))
    decreases |t|
  {
    if t != [] {
      var rest := Clip(t[1..], w, h);
      ClipDistinct(t[1..], w, h);
      assert t[0] !in t[1..];
      assert t[0] !in rest;
    }
  }
}

=== FILE: line_editor.dfy ===
/** The line editor of main.cpp: a list of lines, at most one pending click
    point, a mode (select, draw with DDA, draw with Bresenham) and the index
    of the selected line, or -1. */
module LineEditor {
  import opened Pixels
  import ShapeEditor

  datatype Mode = Selection | DrawDda | DrawBres

  datatype Colour = Red | Green

  /** A drawn line; DDA lines are red and Bresenham lines green. */
  datatype Line = Line(p1: Point, p2: Point, colour: Colour, useDda: bool)

  datatype Editor = Editor(lines: seq<Line>, temp: seq<Point>, mode: Mode, selected: int)

  /** The click radius within which a line is hit. */
  const PickRadius: real := 8.0

  /** moveAmount, scaleFactorUp and scaleFactorDown of main. */
  const MoveAmount: real := 0.5
  const ScaleUp: real := 1.001
  const ScaleDown: real := 0.998

  /** The editor at start-up: no lines, selection mode, nothing selected. */
  function Initial(): (ed: Editor)
    ensures ed.lines == [] && ed.temp == [] && ed.mode == Selection && ed.selected == -1
  {
    Editor([], [], Selection, -1)
  }

  /** Line i is within the click radius of m, by the distance function
      dist(m, a, b) from a point to segment ab. */
  predicate Near(lines: seq<Line>, i: int, m: Point, dist: (Point, Point, Point) -> real)
    requires 0 <= i < |lines|
  {
    dist(m, lines[i].p1, lines[i].p2) < PickRadius
  }

  /** The selection loop from index k on: the first line near m, or -1. */
  function SelectFrom(lines: seq<Line>, m: Point, dist: (Point, Point, Point) -> real, k: nat): (i: int)
    requires k <= |lines|
    ensures i == -1 || k <= i < |lines|
    decreases |lines| - k
  {
    if k == |lines| then -1
    else if Near(lines, k, m, dist) then k
    else SelectFrom(lines, m, dist, k + 1)
  }

  /** The selection click picks the lowest-index line within the radius, and
      -1 exactly when no line is. */
  lemma {:induction false} SelectFromSpec(lines: seq<Line>, m: Point, dist: (Point, Point, Point) -> real, k: nat)
    requires k <= |lines|
    ensures var i := SelectFrom(lines, m, dist, k);
      && (i >= 0 ==> Near(lines, i, m, dist) && forall j :: k <= j < i ==> !Near(lines, j, m, dist))
      && (i == -1 <==> forall j :: k <= j < |lines| ==> !Near(lines, j, m, dist))
    decreases |lines| - k
  {
    if k < |lines| && !Near(lines, k, m, dist) {
      SelectFromSpec(lines, m, dist, k + 1);
    }
  }

  /** The index the selection click sets selectedLine to. */
  function Select(lines: seq<Line>, m: Point, dist: (Point, Point, Point) -> real): (i: int)
    ensures -1 <= i < |lines|
    ensures i >= 0 ==> Near(lines, i, m, dist) && forall j :: 0 <= j < i ==> !Near(lines, j, m, dist)
    ensures i == -1 <==> forall j :: 0 <= j < |lines| ==> !Near(lines, j, m, dist)
  {
    SelectFromSpec(lines, m, dist, 0);
    SelectFrom(lines, m, dist, 0)
  }

  /** The events main reacts to: a mouse button press at m (mapped to view
      coordinates), the keys 1, 2, 3 and C, and a transform key held during
      a frame (the rotation keys carry the cosine and sine of the angle). */
  datatype Event =
    | Click(m: Point, left: bool)
    | Key1
    | Key2
    | Key3
    | KeyC
    | Held(key: ShapeEditor.HeldKey)

  /** translateLine, rotateLine and scaleLine for one held key: the arrows
      move both end points, Q and E turn them and W and S scale them about
      the midpoint. These are the Line transforms of the shape editor, with
      this program's amounts. */
  function MoveLine(l: Line, key: ShapeEditor.HeldKey): (r: Line)
    ensures r.colour == l.colour && r.useDda == l.useDda
  {
    var k := ShapeEditor.LineShape(l.p1, l.p2, ShapeEditor.Dda);
    var moved := match key
      case ArrowLeft => ShapeEditor.Translate(k, -MoveAmount, 0.0)
      case ArrowRight => ShapeEditor.Translate(k, MoveAmount, 0.0)
      case ArrowUp => ShapeEditor.Translate(k, 0.0, -MoveAmount)
      case ArrowDown => ShapeEditor.Translate(k, 0.0, MoveAmount)
      case KeyQ(cosA, sinA) => ShapeEditor.MoveAboutCenter(k, ShapeEditor.RotMat(cosA, sinA))
      case KeyE(cosA, sinA) => ShapeEditor.MoveAboutCenter(k, ShapeEditor.RotMat(cosA, sinA))
      case KeyW => ShapeEditor.MoveAboutCenter(k, ShapeEditor.ScaleMat(ScaleUp))
      case KeyS => ShapeEditor.MoveAboutCenter(k, ShapeEditor.ScaleMat(ScaleDown));
    l.(p1 := moved.p1, p2 := moved.p2)
  }

  /** The midpoint of a line. */
  function Midpoint(l: Line): Point
  {
    Point((l.p1.x + l.p2.x) / 2.0, (l.p1.y + l.p2.y) / 2.0)
  }

  /** The arrows move the midpoint by the move amount; Q, E, W and S keep it,
      since rotateLine and scaleLine work about it. */
  lemma MoveLineMidpoint(l: Line, key: ShapeEditor.HeldKey)
    ensures key.ArrowLeft? ==> Midpoint(MoveLine(l, key)) == Point(Midpoint(l).x - MoveAmount, Midpoint(l).y)
    ensures key.ArrowRight? ==> Midpoint(MoveLine(l, key)) == Point(Midpoint(l).x + MoveAmount, Midpoint(l).y)
    ensures key.ArrowUp? ==> Midpoint(MoveLine(l, key)) == Point(Midpoint(l).x, Midpoint(l).y - MoveAmount)
    ensures key.ArrowDown? ==> Midpoint(MoveLine(l, key)) == Point(Midpoint(l).x, Midpoint(l).y + MoveAmount)
    ensures !(key.ArrowLeft? || key.ArrowRight? || key.ArrowUp? || key.ArrowDown?) ==>
      Midpoint(MoveLine(l, key)) == Midpoint(l)
  {
    var k := ShapeEditor.LineShape(l.p1, l.p2, ShapeEditor.Dda);
    var r := MoveLine(l, key);
    var k' := ShapeEditor.LineShape(r.p1, r.p2, ShapeEditor.Dda);
    MidpointIsCenter(l);
    MidpointIsCenter(r);
    match key
    case ArrowLeft => ShapeEditor.TranslateCenter(k, -MoveAmount, 0.0);
    case ArrowRight => ShapeEditor.TranslateCenter(k, MoveAmount, 0.0);
    case ArrowUp => ShapeEditor.TranslateCenter(k, 0.0, -MoveAmount);
    case ArrowDown => ShapeEditor.TranslateCenter(k, 0.0, MoveAmount);
    case KeyQ(cosA, sinA) => ShapeEditor.MoveAboutCenterKeeps(k, ShapeEditor.RotMat(cosA, sinA));
    case KeyE(cosA, sinA) => ShapeEditor.MoveAboutCenterKeeps(k, ShapeEditor.RotMat(cosA, sinA));
    case KeyW => ShapeEditor.MoveAboutCenterKeeps(k, ShapeEditor.ScaleMat(ScaleUp));
    case KeyS => ShapeEditor.MoveAboutCenterKeeps(k, ShapeEditor.ScaleMat(ScaleDown));
  }

  /** The midpoint of a line is the centre of the same line in the shape
      editor. */
  lemma MidpointIsCenter(l: Line)
    ensures ShapeEditor.Center(ShapeEditor.LineShape(l.p1, l.p2, ShapeEditor.Dda)) == Midpoint(l)
  {
    var v := [l.p1, l.p2];
    assert ShapeEditor.Points(ShapeEditor.LineShape(l.p1, l.p2, ShapeEditor.Dda)) == v;
    assert v[1..] == [l.p2] && [l.p2][1..] == [];
    assert ShapeEditor.SumX([l.p2]) == l.p2.x;
    assert ShapeEditor.SumY([l.p2]) == l.p2.y;
    assert ShapeEditor.SumX(v) == l.p1.x + l.p2.x && ShapeEditor.SumY(v) == l.p1.y + l.p2.y;
  }

  /** Translating by an offset and back restores the line. */
  lemma MoveLineInverse(l: Line)
    ensures MoveLine(MoveLine(l, ShapeEditor.ArrowLeft), ShapeEditor.ArrowRight) == l
    ensures MoveLine(MoveLine(l, ShapeEditor.ArrowUp), ShapeEditor.ArrowDown) == l
  {
  }

  /** One event. A left click selects in selection mode; in a draw mode it
      records the point, and the second point completes a line in the
      current algorithm's colour. */
  function Step(ed: Editor, e: Event, dist: (Point, Point, Point) -> real): (r: Editor)
    requires -1 <= ed.selected < |ed.lines|
    ensures -1 <= r.selected < |r.lines|
    ensures r.mode != ed.mode ==> e.Key1? || e.Key2? || e.Key3?
    ensures e.Key1? ==> r == ed.(mode := Selection)
    ensures e.Key2? ==> r == ed.(mode := DrawDda)
    ensures e.Key3? ==> r == ed.(mode := DrawBres)
    ensures e.Click? && !e.left ==> r == ed
    ensures r.selected != ed.selected ==> e.KeyC? || (e.Click? && ed.mode == Selection)
    ensures r.temp == [] || r.temp == ed.temp || (e.Click? && r.temp == ed.temp + [e.m])
    ensures !e.KeyC? ==> |ed.lines| <= |r.lines| <= |ed.lines| + 1
    ensures !(e.KeyC? || e.Held?) ==> r.lines[..|ed.lines|] == ed.lines
    ensures |r.lines| > |ed.lines| ==> (e.Click? && ed.mode != Selection && |ed.temp| == 1 && r.temp == []
      && r.lines[|ed.lines|].p1 == ed.temp[0] && r.lines[|ed.lines|].p2 == e.m
      && (r.lines[|ed.lines|].useDda <==> ed.mode == DrawDda))
    ensures e.Held? ==> (r.temp == ed.temp && r.mode == ed.mode && |r.lines| == |ed.lines|
      && forall k :: 0 <= k < |ed.lines| && k != ed.selected ==> r.lines[k] == ed.lines[k])
    ensures e.Held? && ed.selected >= 0 ==> r.lines[ed.selected] == MoveLine(ed.lines[ed.selected], e.key)
  {
    match e
    case Click(m, left) =>
      if !left then ed
      else if ed.mode == Selection then ed.(selected := Select(ed.lines, m, dist))
      else
        var temp := ed.temp + [m];
        if |temp| == 2 then
          var dda := ed.mode == DrawDda;
          ed.(lines := ed.lines + [Line(temp[0], temp[1], if dda then Red else Green, dda)], temp := [])
        else ed.(temp := temp)
    case Key1 => ed.(mode := Selection)
    case Key2 => ed.(mode := DrawDda)
    case Key3 => ed.(mode := DrawBres)
    case KeyC => ed.(lines := [], selected := -1, temp := [])
    case Held(key) =>
      if ed.selected == -1 then ed
      else ed.(lines := ed.lines[ed.selected := MoveLine(ed.lines[ed.selected], key)])
  }

  /** What holds between events: at most one pending point, the selection
      is -1 or a valid index, and each line's colour matches its algorithm. */
  predicate Valid(ed: Editor)
  {
    && |ed.temp| <= 1
    && -1 <= ed.selected < |ed.lines|
    && forall k :: 0 <= k < |ed.lines| ==> (ed.lines[k].colour == Red <==> ed.lines[k].useDda)
  }

  lemma StepValid(ed: Editor, e: Event, dist: (Point, Point, Point) -> real)
    requires Valid(ed)
    ensures Valid(Step(ed, e, dist))
  {
  }

  /** In a draw mode, the click that brings the pending points to two
      appends exactly one line built from them and empties the pending list;
      the first click only records its point. */
  lemma DrawClicks(ed: Editor, m: Point, dist: (Point, Point, Point) -> real)
    requires Valid(ed) && ed.mode != Selection
    ensures var r := Step(ed, Click(m, true), dist);
      && (|ed.temp| == 1 ==>
            r.lines == ed.lines + [Line(ed.temp[0], m, if ed.mode == DrawDda then Red else Green, ed.mode == DrawDda)]
            && r.temp == [])
      && (|ed.temp| == 0 ==> r.lines == ed.lines && r.temp == [m])
      && r.selected == ed.selected && r.mode == ed.mode
  {
  }

  /** The C key empties the lines and the pending points and clears the
      selection, from any state whose selection is -1 or a line; the mode
      is kept. */
  lemma ClearKey(ed: Editor, dist: (Point, Point, Point) -> real)
    requires -1 <= ed.selected < |ed.lines|
    ensures var r := Step(ed, KeyC, dist);
      r.lines == [] && r.temp == [] && r.selected == -1 && r.mode == ed.mode && Valid(r)
  {
  }

  function Run(ed: Editor, events: seq<Event>, dist: (Point, Point, Point) -> real): Editor
    requires -1 <= ed.selected < |ed.lines|
    decreases |events|
  {
    if events == [] then ed else Run(Step(ed, events[0], dist), events[1..], dist)
  }

  /** Every state reachable from start-up keeps the invariant. */
  lemma {:induction false} RunValid(ed: Editor, events: seq<Event>, dist: (Point, Point, Point) -> real)
    requires Valid(ed)
    ensures Valid(Run(ed, events, dist))
    decreases |events|
  {
    if events != [] {
      StepValid(ed, events[0], dist);
      RunValid(Step(ed, events[0], dist), events[1..], dist);
    }
  }
}

=== FILE: pixels.dfy ===
/** Integer pixels, real-valued points, and the small facts about walks
    between pixels that every rasterization kernel shares. */
module Pixels {

  /** A pixel position (x, y); y grows downwards as on screen. */
  type Pixel = (int, int)

  /** A point with floating-point coordinates, modelled exactly as reals. */
  datatype Point = Point(x: real, y: real)

  function Abs(n: int): nat
  {
    if n < 0 then -n else n
  }

  function Max(a: int, b: int): int
  {
    if a >= b then a else b
  }

  function Sign(n: int): int
  {
    if n > 0 then 1 else if n < 0 then -1 else 0
  }

  /** C++ std::round: halfway cases are rounded away from zero. */
  function Round(r: real): (n: int)
    ensures r >= 0.0 ==> n >= 0
    ensures r <= 0.0 ==> n <= 0
    ensures -0.5 <= n as real - r <= 0.5
    ensures n as real - r == 0.5 ==> r > 0.0
    ensures r - n as real == 0.5 ==> r < 0.0
  {
    if r >= 0.0 then (r + 0.5).Floor else -((-r + 0.5).Floor)
  }

  /** A C++ (int) cast of a non-negative float: truncation. */
  function Trunc(r: real): (n: int)
    requires r >= 0.0
    ensures 0 <= n && n as real <= r < n as real + 1.0
  {
    r.Floor
  }

  /** Two pixels are 8-neighbours (or equal). */
  predicate Adjacent8(a: Pixel, b: Pixel)
  {
    Abs(a.0 - b.0) <= 1 && Abs(a.1 - b.1) <= 1
  }

  /** Manhattan distance from a pixel to a target. */
  function Distance(a: Pixel, t: Pixel): nat
  {
    Abs(t.0 - a.0) + Abs(t.1 - a.1)
  }

  /** One step of a line walk: b differs from a, and each coordinate either
      stays or moves by one unit towards the target t. */
  predicate StepToward(a: Pixel, b: Pixel, t: Pixel)
  {
    && a != b
    && (b.0 == a.0 || b.0 - a.0 == Sign(t.0 - a.0))
    && (b.1 == a.1 || b.1 - a.1 == Sign(t.1 - a.1))
  }

  /** Every consecutive pair of pts is a step towards t. */
  predicate Walk(pts: seq<Pixel>, t: Pixel)
  {
    forall k :: 0 <= k < |pts| - 1 ==> StepToward(pts[k], pts[k + 1], t)
  }

  /** Consecutive pixels of pts are 8-neighbours. */
  predicate Connected8(pts: seq<Pixel>)
  {
    forall k :: 0 <= k < |pts| - 1 ==> Adjacent8(pts[k], pts[k + 1])
  }

  /** No pixel occurs twice in pts. */
  predicate Distinct<T(==)>(pts: seq<T>)
  {
    forall a, b :: 0 <= a < b < |pts| ==> pts[a] != pts[b]
  }

  /** Appending a step towards t keeps a walk a walk. */
  lemma WalkSnoc(pts: seq<Pixel>, p: Pixel, t: Pixel)
    requires Walk(pts, t)
    requires pts != [] ==> StepToward(pts[|pts| - 1], p, t)
    ensures Walk(pts + [p], t)
  {
    var q := pts + [p];
    forall k | 0 <= k < |q| - 1
      ensures StepToward(q[k], q[k + 1], t)
    {
      if k < |pts| - 1 {
        assert q[k] == pts[k] && q[k + 1] == pts[k + 1];
      }
    }
  }

  lemma StepTowardShrinks(a: Pixel, b: Pixel, t: Pixel)
    requires StepToward(a, b, t)
    ensures Adjacent8(a, b)
    ensures Distance(b, t) < Distance(a, t)
  {
  }

  /** A walk towards t is 8-connected and visits each pixel at most once,
      because every step strictly shrinks the distance to t. */
  lemma {:induction false} WalkIsConnectedAndDistinct(pts: seq<Pixel>, t: Pixel)
    requires Walk(pts, t)
    ensures Connected8(pts)
    ensures Distinct(pts)
  {
    forall k | 0 <= k < |pts| - 1
      ensures Adjacent8(pts[k], pts[k + 1])
    {
      StepTowardShrinks(pts[k], pts[k + 1], t);
    }
    forall a, b | 0 <= a < b < |pts|
      ensures pts[a] != pts[b]
    {
      WalkShrinks(pts, t, a, b);
    }
  }

  lemma {:induction false} WalkShrinks(pts: seq<Pixel>, t: Pixel, a: int, b: int)
    requires Walk(pts, t)
    requires 0 <= a < b < |pts|
    ensures Distance(pts[b], t) < Distance(pts[a], t)
    decreases b - a
  {
    StepTowardShrinks(pts[b - 1], pts[b], t);
    if a < b - 1 {
      WalkShrinks(pts, t, a, b - 1);
    }
  }
}

=== FILE: rect.dfy ===
/** The scanline rectangle fill of TrafficSim.cpp and projectno2.cpp: two
    nested loops, rows outside and columns inside, plotting (x + j, y + i). */
module Rect {
  import opened Pixels
  import opened Framebuffer

  /** The point (px, py) lies in the half-open rectangle [x, x + w) x [y, y + h). */
  predicate Inside(x: int, y: int, w: int, h: int, px: int, py: int)
  {
    x <= px < x + w && y <= py < y + h
  }

  /** One pass of the inner loop: (x, y), (x + 1, y), ..., (x + w - 1, y). */
  function Row(x: int, y: int, w: int): (r: seq<Pixel>)
    ensures |r| == if w > 0 then w else 0
    ensures forall j :: 0 <= j < |r| ==> r[j] == (x + j, y)
    decreases w
  {
    if w <= 0 then [] else Row(x, y, w - 1) + [(x + w - 1, y)]
  }

  /** The cells the two loops visit, in order: row y, then row y + 1, ...,
      up to row y + h - 1. */
  function RectCells(x: int, y: int, w: int, h: int): (cells: seq<Pixel>)
    ensures |cells| == if w > 0 && h > 0 then w * h else 0
    decreases h
  {
    if h <= 0 then []
    else
      assert (h - 1) * w + w == h * w;
      RectCells(x, y, w, h - 1) + Row(x, y + h - 1, w)
  }

  /** The cells are exactly the points of the rectangle. */
  lemma {:induction false} RectCellsMembers(x: int, y: int, w: int, h: int)
    ensures forall p :: p in RectCells(x, y, w, h) <==> Inside(x, y, w, h, p.0, p.1)
    decreases h
  {
    if h > 0 {
      RectCellsMembers(x, y, w, h - 1);
      var above := RectCells(x, y, w, h - 1);
      var row := Row(x, y + h - 1, w);
      forall p: Pixel | x <= p.0 < x + w && p.1 == y + h - 1
        ensures p in row
      {
        assert row[p.0 - x] == p;
      }
      assert forall p :: p in above + row <==> p in above || p in row;
    }
  }

  /** The cells come in row-major order: cell i * w + j is (x + j, y + i). */
  lemma {:induction false} RectCellsOrder(x: int, y: int, w: int, h: int, i: int, j: int)
    requires 0 <= i < h && 0 <= j < w
    ensures 0 <= i * w + j < |RectCells(x, y, w, h)|
    ensures RectCells(x, y, w, h)[i * w + j] == (x + j, y + i)
    decreases h
  {
    var above, row := RectCells(x, y, w, h - 1), Row(x, y + h - 1, w);
    CellIndex(w, h, i, j);
    assert RectCells(x, y, w, h) == above + row;
    if i < h - 1 {
      RectCellsOrder(x, y, w, h - 1, i, j);
    } else {
      assert (above + row)[i * w + j] == row[j];
    }
  }

  /** Where index i * w + j falls: inside the w * h cells, inside the first
      h - 1 rows exactly when i < h - 1, and otherwise at column j of the
      last row. */
  lemma CellIndex(w: int, h: int, i: int, j: int)
    requires 0 <= i < h && 0 <= j < w
    ensures 0 <= i * w + j < w * h
    ensures i < h - 1 ==> i * w + j < w * (h - 1)
    ensures i == h - 1 ==> i * w + j == w * (h - 1) + j
    ensures h == 1 ==> w * (h - 1) == 0
  {
    var k := h - 1 - i;
    assert w * h == w * i + w * k + w;
    assert w * (h - 1) == w * i + w * k;
    assert w * i == i * w;
    assert 0 <= w * i && 0 <= w * k;
    assert k > 0 ==> w * k >= w;
  }

  /** No cell is visited twice. */
  lemma {:induction false} RectCellsDistinct(x: int, y: int, w: int, h: int)
    ensures Distinct(RectCells(x, y, w, h))
    decreases h
  {
    if h > 0 {
      var above := RectCells(x, y, w, h - 1);
      var row := Row(x, y + h - 1, w);
      RectCellsDistinct(x, y, w, h - 1);
      var cells := above + row;
      forall a, b | 0 <= a < b < |cells|
        ensures cells[a] != cells[b]
      {
        if b >= |above| && a < |above| {
          RectCellsMembers(x, y, w, h - 1);
          assert cells[a] in above;
          assert cells[b].1 == y + h - 1;
        }
      }
    }
  }

  /** fillRect of TrafficSim.cpp: every cell is plotted through setPixel,
      so exactly the in-window pixels of the rectangle take the colour,
      every other pixel keeps its value, and an empty rectangle changes
      nothing. */
  function FillRect(buf: seq<byte>, W: nat, H: nat, x: int, y: int, w: int, h: int, c: Rgb): (out: seq<byte>)
    requires Sized(buf, W, H)
    ensures Sized(out, W, H)
    ensures forall px, py :: InBounds(px, py, W, H) ==>
      PixelAt(out, W, H, px, py) == if Inside(x, y, w, h, px, py) then Opaque(c) else PixelAt(buf, W, H, px, py)
    ensures w <= 0 || h <= 0 ==> out == buf
  {
    RectCellsMembers(x, y, w, h);
    Paint(buf, W, H, RectCells(x, y, w, h), c)
  }

  /** fillRect of projectno2.cpp: the pixels drawPixel lets through, each
      once, and exactly the rectangle's cells inside the 1200 x 700 window. */
  function FillRectDrawn(x: int, y: int, w: int, h: int): (drawn: seq<Pixel>)
    ensures Distinct(drawn)
    ensures forall p :: p in drawn <==>
      Inside(x, y, w, h, p.0, p.1) && InBounds(p.0, p.1, TerrainWidth, TerrainHeight)
  {
    RectCellsMembers(x, y, w, h);
    RectCellsDistinct(x, y, w, h);
    ClipDistinct(RectCells(x, y, w, h), TerrainWidth, TerrainHeight);
    Clip(RectCells(x, y, w, h), TerrainWidth, TerrainHeight)
  }
}

=== FILE: shape_editor.dfy ===
/** The multi-shape editor of main2.cpp: a list of shapes (lines, circles,
    ellipses, polygons, Bezier curves), the pending click points, a mode,
    the selected shape, and the fill and grid toggles. */
module ShapeEditor {
  import opened Pixels
  import Bresenham

  datatype Mode = Selection | DrawDda | DrawBresenham | DrawCircle | DrawEllipse | DrawPolygon | DrawBezier

  datatype Algorithm = Dda | BresenhamAlg

  datatype Colour = White | Green | Red | Blue | Magenta | Cyan | Yellow

  /** The geometry of each shape class. */
  datatype Kind =
    | LineShape(p1: Point, p2: Point, algorithm: Algorithm)
    | CircleShape(center: Point, radius: real)
    | EllipseShape(center: Point, rx: real, ry: real)
    | PolygonShape(vertices: seq<Point>, filled: bool)
    | BezierShape(controls: seq<Point>)

  datatype Shape = Shape(kind: Kind, colour: Colour, isSelected: bool)

  /** The editor state. selected is the index of the shape selectedShape
      points at, or -1 for nullptr. */
  datatype Editor = Editor(shapes: seq<Shape>, temp: seq<Point>, mode: Mode, selected: int, fill: bool, grid: bool)

  /** The smallest radius scale and the Ellipse constructor allow. */
  const MinRadius: real := 1.0

  function Initial(): (ed: Editor)
    ensures ed.shapes == [] && ed.temp == [] && ed.mode == Selection && ed.selected == -1
    ensures !ed.fill && ed.grid
  {
    Editor([], [], Selection, -1, false, true)
  }

  // ---------------------------------------------------------------------
  // Radii
  // ---------------------------------------------------------------------

  /** if (r < 1.0f) r = 1.0f. */
  function ClampRadius(r: real): (c: real)
    ensures c >= MinRadius
    ensures r >= MinRadius ==> c == r
    ensures r < MinRadius ==> c == MinRadius
  {
    if r < MinRadius then MinRadius else r
  }

  /** The Ellipse constructor clamps both radii. The Circle constructor
      does not clamp: a circle keeps the radius it is built with. */
  function NewEllipse(c: Point, rx: real, ry: real): (k: Kind)
    ensures k.EllipseShape? && k.center == c && k.rx >= MinRadius && k.ry >= MinRadius
    ensures rx >= MinRadius ==> k.rx == rx
    ensures ry >= MinRadius ==> k.ry == ry
  {
    EllipseShape(c, ClampRadius(rx), ClampRadius(ry))
  }

  /** Circle::scale and Ellipse::scale: multiply the radii, then clamp. */
  function ScaleRadii(k: Kind, factor: real): (r: Kind)
    requires k.CircleShape? || k.EllipseShape?
    ensures (r.CircleShape? || r.EllipseShape?) && r.CircleShape? == k.CircleShape? && r.center == k.center
    ensures r.CircleShape? ==> r.radius >= MinRadius
    ensures r.EllipseShape? ==> r.rx >= MinRadius && r.ry >= MinRadius
    ensures k.CircleShape? && k.radius * factor >= MinRadius ==> r.radius == k.radius * factor
    ensures k.CircleShape? && k.radius * factor < MinRadius ==> r.radius == MinRadius
    ensures k.EllipseShape? && k.rx * factor >= MinRadius ==> r.rx == k.rx * factor
    ensures k.EllipseShape? && k.rx * factor < MinRadius ==> r.rx == MinRadius
    ensures k.EllipseShape? && k.ry * factor >= MinRadius ==> r.ry == k.ry * factor
    ensures k.EllipseShape? && k.ry * factor < MinRadius ==> r.ry == MinRadius
  {
    match k
    case CircleShape(c, radius) => CircleShape(c, ClampRadius(radius * factor))
    case EllipseShape(c, rx, ry) => EllipseShape(c, ClampRadius(rx * factor), ClampRadius(ry * factor))
  }

  /** Once a circle or ellipse has been scaled, any further scaling by a
      factor of at least one keeps its radii, since it only multiplies
      values already at least 1. */
  lemma ScaleUpNoClamp(k: Kind, factor: real)
    requires k.CircleShape? || k.EllipseShape?
    requires factor >= 1.0
    requires k.CircleShape? ==> k.radius >= MinRadius
    requires k.EllipseShape? ==> k.rx >= MinRadius && k.ry >= MinRadius
    ensures k.CircleShape? ==> ScaleRadii(k, factor) == CircleShape(k.center, k.radius * factor)
    ensures k.EllipseShape? ==> ScaleRadii(k, factor) == EllipseShape(k.center, k.rx * factor, k.ry * factor)
  {
    if k.CircleShape? {
      assert k.radius * factor >= k.radius * 1.0;
    } else {
      assert k.rx * factor >= k.rx * 1.0;
      assert k.ry * factor >= k.ry * 1.0;
    }
  }

  // ---------------------------------------------------------------------
  // Translate, rotate and scale
  // ---------------------------------------------------------------------

  /** The distance an arrow key moves the selected shape per frame. */
  const MoveAmount: real := 0.75
  /** The scale factors of the W and S keys per frame. */
  const ScaleUp: real := 1.02
  const ScaleDown: real := 0.98

  /** The points a shape's transforms move: both endpoints of a line, the
      centre of a circle or ellipse, the vertices or control points. */
  function Points(k: Kind): seq<Point>
  {
    match k
    case LineShape(p1, p2, _) => [p1, p2]
    case CircleShape(c, _) => [c]
    case EllipseShape(c, _, _) => [c]
    case PolygonShape(v, _) => v
    case BezierShape(v) => v
  }

  function SumX(v: seq<Point>): real
  {
    if v == [] then 0.0 else v[0].x + SumX(v[1..])
  }

  function SumY(v: seq<Point>): real
  {
    if v == [] then 0.0 else v[0].y + SumY(v[1..])
  }

  /** The mean of the points: what getCenter returns for a polygon or
      Bezier curve, and, for the two endpoints of a line, their midpoint. */
  function Centroid(v: seq<Point>): (c: Point)
    requires v != []
    ensures |v| as real * c.x == SumX(v) && |v| as real * c.y == SumY(v)
  {
    Point(SumX(v) / |v| as real, SumY(v) / |v| as real)
  }

  /** getCenter of every shape class. */
  function Center(k: Kind): Point
    requires Points(k) != []
  {
    Centroid(Points(k))
  }

  function Shift(p: Point, dx: real, dy: real): Point
  {
    Point(p.x + dx, p.y + dy)
  }

  function ShiftAll(v: seq<Point>, dx: real, dy: real): (r: seq<Point>)
    ensures |r| == |v|
  {
    if v == [] then [] else [Shift(v[0], dx, dy)] + ShiftAll(v[1..], dx, dy)
  }

  /** A 2x2 matrix: the linear part of scale and rotate. */
  datatype Mat = Mat(a: real, b: real, c: real, d: real)

  /** scale(factor) moves p to center + (p - center) * factor. */
  function ScaleMat(factor: real): Mat
  {
    Mat(factor, 0.0, 0.0, factor)
  }

  /** rotate moves the offset (dx, dy) to (dx cos - dy sin, dx sin + dy cos). */
  function RotMat(cosA: real, sinA: real): Mat
  {
    Mat(cosA, -sinA, sinA, cosA)
  }

  /** The point p moved by m about o: o + m (p - o). */
  function About(o: Point, m: Mat, p: Point): Point
  {
    var dx, dy := p.x - o.x, p.y - o.y;
    Point(o.x + m.a * dx + m.b * dy, o.y + m.c * dx + m.d * dy)
  }

  function AboutAll(v: seq<Point>, o: Point, m: Mat): (r: seq<Point>)
    ensures |r| == |v|
  {
    if v == [] then [] else [About(o, m, v[0])] + AboutAll(v[1..], o, m)
  }

  /** The shape's translate(dx, dy): every point moved by (dx, dy). */
  function Translate(k: Kind, dx: real, dy: real): Kind
  {
    match k
    case LineShape(p1, p2, alg) => LineShape(Shift(p1, dx, dy), Shift(p2, dx, dy), alg)
    case CircleShape(c, r) => CircleShape(Shift(c, dx, dy), r)
    case EllipseShape(c, rx, ry) => EllipseShape(Shift(c, dx, dy), rx, ry)
    case PolygonShape(v, filled) => PolygonShape(ShiftAll(v, dx, dy), filled)
    case BezierShape(v) => BezierShape(ShiftAll(v, dx, dy))
  }

  /** A line, polygon or Bezier curve moved by m about its getCenter; the
      loop over no vertices leaves an empty list as it is. */
  function MoveAboutCenter(k: Kind, m: Mat): Kind
    requires k.LineShape? || k.PolygonShape? || k.BezierShape?
  {
    match k
    case LineShape(p1, p2, alg) =>
      var o := Center(k);
      LineShape(About(o, m, p1), About(o, m, p2), alg)
    case PolygonShape(v, filled) => if v == [] then k else PolygonShape(AboutAll(v, Centroid(v), m), filled)
    case BezierShape(v) => if v == [] then k else BezierShape(AboutAll(v, Centroid(v), m))
  }

  /** The shape's scale(factor): circles and ellipses scale their radii,
      the others their points about the centre. */
  function Scale(k: Kind, factor: real): Kind
  {
    if k.CircleShape? || k.EllipseShape? then ScaleRadii(k, factor) else MoveAboutCenter(k, ScaleMat(factor))
  }

  /** The shape's rotate by an angle whose cosine and sine are cosA and sinA:
      circles and ellipses do not change, the others turn about the centre. */
  function Rotate(k: Kind, cosA: real, sinA: real): Kind
  {
    if k.CircleShape? || k.EllipseShape? then k else MoveAboutCenter(k, RotMat(cosA, sinA))
  }

  /** A key the frame loop polls while a shape is selected. Q and E rotate by
      -1 and +1 degree; the cosine and sine the math library returns for that
      angle come with the key. */
  datatype HeldKey = ArrowLeft | ArrowRight | ArrowUp | ArrowDown | KeyQ(cosA: real, sinA: real) | KeyE(cosA: real, sinA: real) | KeyW | KeyS

  function Transform(k: Kind, key: HeldKey): Kind
  {
    match key
    case ArrowLeft => Translate(k, -MoveAmount, 0.0)
    case ArrowRight => Translate(k, MoveAmount, 0.0)
    case ArrowUp => Translate(k, 0.0, -MoveAmount)
    case ArrowDown => Translate(k, 0.0, MoveAmount)
    case KeyQ(cosA, sinA) => Rotate(k, cosA, sinA)
    case KeyE(cosA, sinA) => Rotate(k, cosA, sinA)
    case KeyW => Scale(k, ScaleUp)
    case KeyS => Scale(k, ScaleDown)
  }

  /** Every transform keeps the shape's class, its number of points and its
      well-formedness. */
  lemma TransformKeepsShape(k: Kind, key: HeldKey)
    ensures var r := Transform(k, key);
      && r.LineShape? == k.LineShape? && r.CircleShape? == k.CircleShape? && r.EllipseShape? == k.EllipseShape?
      && r.PolygonShape? == k.PolygonShape? && r.BezierShape? == k.BezierShape?
      && |Points(r)| == |Points(k)|
      && (WellFormed(k) ==> WellFormed(r))
  {
  }

  lemma {:induction false} ShiftAllInverse(v: seq<Point>, dx: real, dy: real)
    ensures ShiftAll(ShiftAll(v, dx, dy), -dx, -dy) == v
  {
    if v != [] {
      ShiftAllInverse(v[1..], dx, dy);
      assert ShiftAll(v, dx, dy)[1..] == ShiftAll(v[1..], dx, dy);
    }
  }

  /** Moving back by the opposite offset restores the shape: in exact
      arithmetic, Left then Right, or Up then Down, is the identity. */
  lemma TranslateInverse(k: Kind, dx: real, dy: real)
    ensures Translate(Translate(k, dx, dy), -dx, -dy) == k
  {
    match k
    case PolygonShape(v, _) => ShiftAllInverse(v, dx, dy);
    case BezierShape(v) => ShiftAllInverse(v, dx, dy);
    case _ =>
  }

  lemma {:induction false} ShiftAllSums(v: seq<Point>, dx: real, dy: real)
    ensures SumX(ShiftAll(v, dx, dy)) == SumX(v) + |v| as real * dx
    ensures SumY(ShiftAll(v, dx, dy)) == SumY(v) + |v| as real * dy
  {
    if v != [] {
      ShiftAllSums(v[1..], dx, dy);
      assert ShiftAll(v, dx, dy)[1..] == ShiftAll(v[1..], dx, dy);
    }
  }

  /** The sums of the points' offsets from o. */
  function OffX(v: seq<Point>, o: Point): real
  {
    if v == [] then 0.0 else (v[0].x - o.x) + OffX(v[1..], o)
  }

  function OffY(v: seq<Point>, o: Point): real
  {
    if v == [] then 0.0 else (v[0].y - o.y) + OffY(v[1..], o)
  }

  lemma {:induction false} OffSums(v: seq<Point>, o: Point)
    ensures OffX(v, o) == SumX(v) - |v| as real * o.x
    ensures OffY(v, o) == SumY(v) - |v| as real * o.y
  {
    if v != [] {
      OffSums(v[1..], o);
    }
  }

  /** The offset of a moved point is m times the point's offset. */
  lemma AboutOffset(o: Point, a: real, b: real, c: real, d: real, p: Point, q: Point, px: real, py: real, qx: real, qy: real)
    requires q == About(o, Mat(a, b, c, d), p)
    requires px == p.x - o.x && py == p.y - o.y && qx == q.x - o.x && qy == q.y - o.y
    ensures qx == a * px + b * py
    ensures qy == c * px + d * py
  {
  }

  lemma AboutAllPoint(v: seq<Point>, u: seq<Point>, o: Point, a: real, b: real, c: real, d: real, i: int)
    requires |u| == |v| && 0 <= i < |v| && u[i] == About(o, Mat(a, b, c, d), v[i])
    ensures XOffsets(u, o)[i] == a * XOffsets(v, o)[i] + b * YOffsets(v, o)[i]
    ensures YOffsets(u, o)[i] == c * XOffsets(v, o)[i] + d * YOffsets(v, o)[i]
  {
    AboutOffset(o, a, b, c, d, v[i], u[i], XOffsets(v, o)[i], YOffsets(v, o)[i], XOffsets(u, o)[i], YOffsets(u, o)[i]);
  }

  lemma {:induction false} AboutAllAt(v: seq<Point>, o: Point, m: Mat, i: int)
    requires 0 <= i < |v|
    ensures AboutAll(v, o, m)[i] == About(o, m, v[i])
  {
    if i > 0 {
      AboutAllAt(v[1..], o, m, i - 1);
    }
  }

  function Total(s: seq<real>): real
  {
    if s == [] then 0.0 else s[0] + Total(s[1..])
  }

  /** The x offsets of the points from o, one per point. */
  function XOffsets(v: seq<Point>, o: Point): (r: seq<real>)
    ensures |r| == |v| && forall i :: 0 <= i < |v| ==> r[i] == v[i].x - o.x
  {
    seq(|v|, i requires 0 <= i < |v| => v[i].x - o.x)
  }

  function YOffsets(v: seq<Point>, o: Point): (r: seq<real>)
    ensures |r| == |v| && forall i :: 0 <= i < |v| ==> r[i] == v[i].y - o.y
  {
    seq(|v|, i requires 0 <= i < |v| => v[i].y - o.y)
  }

  lemma {:induction false} OffsetsTotal(v: seq<Point>, o: Point)
    ensures OffX(v, o) == Total(XOffsets(v, o)) && OffY(v, o) == Total(YOffsets(v, o))
  {
    if v != [] {
      OffsetsTotal(v[1..], o);
      assert XOffsets(v, o)[1..] == XOffsets(v[1..], o);
      assert YOffsets(v, o)[1..] == YOffsets(v[1..], o);
    }
  }

  /** A row of a matrix applied to a sum of two terms. */
  lemma LinearStep(a: real, b: real, px: real, py: real, qx: real, qy: real, sx: real, sy: real, first: real, rest: real, total: real)
    requires sx == px + qx && sy == py + qy
    requires first == a * px + b * py && rest == a * qx + b * qy && total == first + rest
    ensures total == a * sx + b * sy
  {
  }

  /** When each term is a times one sequence's term plus b times the
      other's, the total is a times the first total plus b times the
      second. */
  lemma {:induction false} TotalCombined(xs: seq<real>, ys: seq<real>, zs: seq<real>, a: real, b: real)
    requires |xs| == |ys| == |zs|
    requires forall i :: 0 <= i < |xs| ==> zs[i] == a * xs[i] + b * ys[i]
    ensures Total(zs) == a * Total(xs) + b * Total(ys)
  {
    if xs == [] {
      assert a * 0.0 + b * 0.0 == 0.0;
    } else {
      assert zs[0] == a * xs[0] + b * ys[0];
      TotalCombined(xs[1..], ys[1..], zs[1..], a, b);
      LinearStep(a, b, xs[0], ys[0], Total(xs[1..]), Total(ys[1..]), Total(xs), Total(ys), zs[0], Total(zs[1..]), Total(zs));
    }
  }

  /** Each moved point's x offset is the first matrix row applied to the
      point's offsets. */
  lemma AboutRowX(v: seq<Point>, o: Point, a: real, b: real, c: real, d: real)
    ensures var u := AboutAll(v, o, Mat(a, b, c, d));
      forall i :: 0 <= i < |v| ==> XOffsets(u, o)[i] == a * XOffsets(v, o)[i] + b * YOffsets(v, o)[i]
  {
    forall i | 0 <= i < |v|
      ensures XOffsets(AboutAll(v, o, Mat(a, b, c, d)), o)[i] == a * XOffsets(v, o)[i] + b * YOffsets(v, o)[i]
    {
      AboutAllAt(v, o, Mat(a, b, c, d), i);
      AboutAllPoint(v, AboutAll(v, o, Mat(a, b, c, d)), o, a, b, c, d, i);
    }
  }

  /** Each moved point's y offset is the second matrix row applied to the
      point's offsets. */
  lemma AboutRowY(v: seq<Point>, o: Point, a: real, b: real, c: real, d: real)
    ensures var u := AboutAll(v, o, Mat(a, b, c, d));
      forall i :: 0 <= i < |v| ==> YOffsets(u, o)[i] == c * XOffsets(v, o)[i] + d * YOffsets(v, o)[i]
  {
    forall i | 0 <= i < |v|
      ensures YOffsets(AboutAll(v, o, Mat(a, b, c, d)), o)[i] == c * XOffsets(v, o)[i] + d * YOffsets(v, o)[i]
    {
      AboutAllAt(v, o, Mat(a, b, c, d), i);
      AboutAllPoint(v, AboutAll(v, o, Mat(a, b, c, d)), o, a, b, c, d, i);
    }
  }

  /** The total of the moved x offsets is the first matrix row applied to
      the totals of the offsets. */
  lemma AboutTotalX(v: seq<Point>, o: Point, a: real, b: real, c: real, d: real)
    ensures var u := AboutAll(v, o, Mat(a, b, c, d));
      Total(XOffsets(u, o)) == a * Total(XOffsets(v, o)) + b * Total(YOffsets(v, o))
  {
    AboutRowX(v, o, a, b, c, d);
    TotalCombined(XOffsets(v, o), YOffsets(v, o), XOffsets(AboutAll(v, o, Mat(a, b, c, d)), o), a, b);
  }

  /** The total of the moved y offsets is the second matrix row applied to
      the totals of the offsets. */
  lemma AboutTotalY(v: seq<Point>, o: Point, a: real, b: real, c: real, d: real)
    ensures var u := AboutAll(v, o, Mat(a, b, c, d));
      Total(YOffsets(u, o)) == c * Total(XOffsets(v, o)) + d * Total(YOffsets(v, o))
  {
    AboutRowY(v, o, a, b, c, d);
    TotalCombined(XOffsets(v, o), YOffsets(v, o), YOffsets(AboutAll(v, o, Mat(a, b, c, d)), o), c, d);
  }

  /** Points whose offsets from o sum to zero still do after moving them
      by a matrix about o. */
  lemma AboutKeepsBalance(v: seq<Point>, o: Point, a: real, b: real, c: real, d: real)
    requires Total(XOffsets(v, o)) == 0.0 && Total(YOffsets(v, o)) == 0.0
    ensures var u := AboutAll(v, o, Mat(a, b, c, d));
      Total(XOffsets(u, o)) == 0.0 && Total(YOffsets(u, o)) == 0.0
  {
    var u := AboutAll(v, o, Mat(a, b, c, d));
    AboutTotalX(v, o, a, b, c, d);
    AboutTotalY(v, o, a, b, c, d);
    ZeroRow(a, b, Total(XOffsets(v, o)), Total(YOffsets(v, o)), Total(XOffsets(u, o)));
    ZeroRow(c, d, Total(XOffsets(v, o)), Total(YOffsets(v, o)), Total(YOffsets(u, o)));
  }

  /** The offsets of the points from their centroid sum to zero. */
  lemma CentroidOffsetsZero(v: seq<Point>)
    requires v != []
    ensures Total(XOffsets(v, Centroid(v))) == 0.0 && Total(YOffsets(v, Centroid(v))) == 0.0
  {
    OffSums(v, Centroid(v));
    OffsetsTotal(v, Centroid(v));
  }

  /** A point from which the offsets sum to zero is the centroid. */
  lemma CentroidFromOffsets(w: seq<Point>, o: Point)
    requires w != [] && Total(XOffsets(w, o)) == 0.0 && Total(YOffsets(w, o)) == 0.0
    ensures Centroid(w) == o
  {
    OffsetsTotal(w, o);
    OffSums(w, o);
    CentroidIs(w, o);
  }

  /** Moving the points by any matrix about their centroid keeps it. */
  lemma AboutCentroidKeepsIt(v: seq<Point>, m: Mat)
    requires v != []
    ensures Centroid(AboutAll(v, Centroid(v), m)) == Centroid(v)
  {
    assert m == Mat(m.a, m.b, m.c, m.d);
    CentroidOffsetsZero(v);
    AboutKeepsBalance(v, Centroid(v), m.a, m.b, m.c, m.d);
    CentroidFromOffsets(AboutAll(v, Centroid(v), m), Centroid(v));
  }

  lemma ZeroRow(a: real, b: real, x: real, y: real, r: real)
    requires x == 0.0 && y == 0.0 && r == a * x + b * y
    ensures r == 0.0
  {
  }

  lemma DivCancel(n: real, x: real, s: real)
    requires n > 0.0 && s == n * x
    ensures s / n == x
  {
  }

  /** getCenter after a transform: translate moves it by the offset; rotate
      and scale keep it, since lines, polygons and Bezier curves turn and
      scale about it and circles and ellipses keep their centre. */
  lemma TransformCenter(k: Kind, key: HeldKey)
    requires Points(k) != []
    ensures Points(Transform(k, key)) != []
    ensures key.ArrowLeft? ==> Center(Transform(k, key)) == Shift(Center(k), -MoveAmount, 0.0)
    ensures key.ArrowRight? ==> Center(Transform(k, key)) == Shift(Center(k), MoveAmount, 0.0)
    ensures key.ArrowUp? ==> Center(Transform(k, key)) == Shift(Center(k), 0.0, -MoveAmount)
    ensures key.ArrowDown? ==> Center(Transform(k, key)) == Shift(Center(k), 0.0, MoveAmount)
    ensures key.KeyQ? || key.KeyE? || key.KeyW? || key.KeyS? ==> Center(Transform(k, key)) == Center(k)
  {
    TransformKeepsShape(k, key);
    match key
    case ArrowLeft => TranslateCenter(k, -MoveAmount, 0.0);
    case ArrowRight => TranslateCenter(k, MoveAmount, 0.0);
    case ArrowUp => TranslateCenter(k, 0.0, -MoveAmount);
    case ArrowDown => TranslateCenter(k, 0.0, MoveAmount);
    case KeyQ(cosA, sinA) => MoveAboutCenterKeeps(k, RotMat(cosA, sinA));
    case KeyE(cosA, sinA) => MoveAboutCenterKeeps(k, RotMat(cosA, sinA));
    case KeyW => MoveAboutCenterKeeps(k, ScaleMat(ScaleUp));
    case KeyS => MoveAboutCenterKeeps(k, ScaleMat(ScaleDown));
  }

  lemma TranslateCenter(k: Kind, dx: real, dy: real)
    requires Points(k) != []
    ensures Points(Translate(k, dx, dy)) == ShiftAll(Points(k), dx, dy)
    ensures Center(Translate(k, dx, dy)) == Shift(Center(k), dx, dy)
  {
    var v := Points(k);
    if k.LineShape? {
      assert ShiftAll(v, dx, dy) == [Shift(v[0], dx, dy), Shift(v[1], dx, dy)];
    } else if k.CircleShape? || k.EllipseShape? {
      assert ShiftAll(v, dx, dy) == [Shift(v[0], dx, dy)];
    }
    ShiftCentroid(v, dx, dy);
  }

  /** Shifting every point shifts the centroid by the same offset. */
  lemma ShiftCentroid(v: seq<Point>, dx: real, dy: real)
    requires v != []
    ensures Centroid(ShiftAll(v, dx, dy)) == Shift(Centroid(v), dx, dy)
  {
    ShiftedCentroidIs(v, Centroid(v), dx, dy);
  }

  lemma ShiftedCentroidIs(v: seq<Point>, c: Point, dx: real, dy: real)
    requires v != [] && SumX(v) == |v| as real * c.x && SumY(v) == |v| as real * c.y
    ensures Centroid(ShiftAll(v, dx, dy)) == Point(c.x + dx, c.y + dy)
  {
    ShiftAllSums(v, dx, dy);
    Distribute(|v| as real, c.x, dx);
    Distribute(|v| as real, c.y, dy);
    CentroidIs(ShiftAll(v, dx, dy), Point(c.x + dx, c.y + dy));
  }

  lemma Distribute(n: real, x: real, d: real)
    ensures n * (x + d) == n * x + n * d
  {
  }

  /** A point p with |w| p.x == SumX(w) and |w| p.y == SumY(w) is the centroid. */
  lemma CentroidIs(w: seq<Point>, p: Point)
    requires w != [] && SumX(w) == |w| as real * p.x && SumY(w) == |w| as real * p.y
    ensures Centroid(w) == p
  {
    DivCancel(|w| as real, p.x, SumX(w));
    DivCancel(|w| as real, p.y, SumY(w));
  }

  lemma MoveAboutCenterKeeps(k: Kind, m: Mat)
    requires Points(k) != []
    ensures !(k.CircleShape? || k.EllipseShape?) ==> Center(MoveAboutCenter(k, m)) == Center(k)
  {
    if k.LineShape? {
      var v := Points(k);
      assert AboutAll(v, Centroid(v), m) == Points(MoveAboutCenter(k, m));
      AboutCentroidKeepsIt(v, m);
    } else if k.PolygonShape? || k.BezierShape? {
      AboutCentroidKeepsIt(Points(k), m);
    }
  }

  // ---------------------------------------------------------------------
  // Polygon::draw
  // ---------------------------------------------------------------------

  /** The index after i round a cycle of n vertices: (i + 1) % n for
      0 <= i < n. */
  function Next(i: int, n: int): int
  {
    if i + 1 == n then 0 else i + 1
  }

  lemma NextIsSuccessorMod(i: int, n: int)
    requires 0 <= i < n
    ensures Next(i, n) == (i + 1) % n
  {
  }

  /** The edges Polygon::draw passes to drawBresenhamLine: none for fewer
      than two vertices, otherwise one per vertex, from vertex i to vertex
      (i + 1) mod n, so the last edge closes the outline. */
  function PolygonEdges(v: seq<Point>): (edges: seq<(Point, Point)>)
    ensures |v| < 2 ==> edges == []
    ensures |v| >= 2 ==> |edges| == |v|
    ensures forall i :: 0 <= i < |edges| ==> edges[i] == (v[i], v[Next(i, |v|)])
  {
    if |v| < 2 then [] else EdgesFrom(v, 0)
  }

  function EdgesFrom(v: seq<Point>, i: nat): (edges: seq<(Point, Point)>)
    requires 0 < |v| && i <= |v|
    ensures |edges| == |v| - i
    ensures forall k :: 0 <= k < |edges| ==> edges[k] == (v[i + k], v[Next(i + k, |v|)])
    decreases |v| - i
  {
    if i == |v| then [] else [(v[i], v[Next(i, |v|)])] + EdgesFrom(v, i + 1)
  }

  /** The edges form one closed loop through the vertices: each edge ends
      where the next begins, the last ends at the first vertex, and every
      vertex starts exactly one edge. */
  lemma PolygonEdgesClosed(v: seq<Point>)
    requires |v| >= 2
    ensures var e := PolygonEdges(v);
      && (forall i :: 0 <= i < |e| - 1 ==> e[i].1 == e[i + 1].0)
      && e[|e| - 1] == (v[|v| - 1], v[0])
      && forall i :: 0 <= i < |v| ==> e[i].0 == v[i]
  {
    EdgesChain(v);
    EdgeAt(v, |v| - 1);
  }

  /** Each edge ends where the next one begins. */
  lemma EdgesChain(v: seq<Point>)
    requires |v| >= 2
    ensures var e := PolygonEdges(v);
      forall i :: 0 <= i < |e| - 1 ==> e[i].1 == e[i + 1].0
  {
    var e := PolygonEdges(v);
    forall i | 0 <= i < |e| - 1
      ensures e[i].1 == e[i + 1].0
    {
      EdgeAt(v, i);
      EdgeAt(v, i + 1);
    }
  }

  /** Edge i runs from vertex i to vertex Next(i, n). */
  lemma EdgeAt(v: seq<Point>, i: int)
    requires |v| >= 2 && 0 <= i < |v|
    ensures |PolygonEdges(v)| == |v|
    ensures PolygonEdges(v)[i] == (v[i], v[Next(i, |v|)])
  {
  }

  /** The scan-line fill runs only for a filled polygon with at least three
      vertices. */
  predicate FillsInterior(k: Kind)
    requires k.PolygonShape?
  {
    k.filled && |k.vertices| >= 3
  }

  /** The strict Bresenham traces of the edges, in order, end to end. */
  function OutlineOf(edges: seq<(Point, Point)>): seq<Pixel>
    decreases |edges|
  {
    if edges == [] then []
    else
      var last := edges[|edges| - 1];
      OutlineOf(edges[..|edges| - 1]) + Bresenham.RoundedTrace(last.0, last.1)
  }

  /** Polygon::draw: the pixels of the outline, each edge drawn with the
      rounded strict Bresenham line. The pixels are exactly the edge traces
      in edge order, every vertex is plotted, and a polygon with fewer than
      two vertices draws nothing. */
  method PolygonOutline(v: seq<Point>) returns (pixels: seq<Pixel>)
    ensures pixels == OutlineOf(PolygonEdges(v))
    ensures |v| < 2 ==> pixels == []
    ensures |v| >= 2 ==> forall i :: 0 <= i < |v| ==> (Round(v[i].x), Round(v[i].y)) in pixels
  {
    pixels := [];
    if |v| < 2 {
      return;
    }
    var edges := PolygonEdges(v);
    var i := 0;
    while i < |edges|
      invariant 0 <= i <= |edges|
      invariant pixels == OutlineOf(edges[..i])
    {
      var pts := Bresenham.RoundedLine(edges[i].0, edges[i].1);
      OutlineSnoc(edges, i);
      pixels := pixels + pts;
      i := i + 1;
    }
    assert edges[..|edges|] == edges;
    OutlineHasStarts(edges);
    forall k | 0 <= k < |v|
      ensures (Round(v[k].x), Round(v[k].y)) in pixels
    {
      assert edges[k].0 == v[k];
    }
  }

  /** The outline plots the rounded start of every edge. */
  lemma {:induction false} OutlineHasStarts(edges: seq<(Point, Point)>)
    ensures forall k :: 0 <= k < |edges| ==> (Round(edges[k].0.x), Round(edges[k].0.y)) in OutlineOf(edges)
    decreases |edges|
  {
    if edges != [] {
      var front, last := edges[..|edges| - 1], edges[|edges| - 1];
      OutlineHasStarts(front);
      var t := Bresenham.RoundedTrace(last.0, last.1);
      Bresenham.StrictTraceShape(Round(last.0.x), Round(last.0.y), Round(last.1.x), Round(last.1.y));
      assert t[0] in t;
      forall k | 0 <= k < |edges|
        ensures (Round(edges[k].0.x), Round(edges[k].0.y)) in OutlineOf(edges)
      {
        if k < |front| {
          assert edges[k] == front[k];
        }
      }
    }
  }

  /** Drawing edge i appends its trace to the outline of the edges before it. */
  lemma OutlineSnoc(edges: seq<(Point, Point)>, i: int)
    requires 0 <= i < |edges|
    ensures OutlineOf(edges[..i + 1]) == OutlineOf(edges[..i]) + Bresenham.RoundedTrace(edges[i].0, edges[i].1)
  {
    assert edges[..i + 1][..i] == edges[..i];
  }

  // ---------------------------------------------------------------------
  // Selection and deletion
  // ---------------------------------------------------------------------

  /** The shape at index i is hit by a click at m, by the shape's own
      containsPoint, which is a parameter here. */
  predicate Hit(shapes: seq<Shape>, i: int, m: Point, contains: (Kind, Point) -> bool)
    requires 0 <= i < |shapes|
  {
    contains(shapes[i].kind, m)
  }

  /** The reverse search: the index of the last-added shape hit by m, or -1. */
  function Topmost(shapes: seq<Shape>, m: Point, contains: (Kind, Point) -> bool): (i: int)
    ensures -1 <= i < |shapes|
    decreases |shapes|
  {
    if shapes == [] then -1
    else if contains(shapes[|shapes| - 1].kind, m) then |shapes| - 1
    else Topmost(shapes[..|shapes| - 1], m, contains)
  }

  /** Topmost finds a hit shape with no hit shape above it, and -1 exactly
      when no shape is hit. */
  lemma {:induction false} TopmostSpec(shapes: seq<Shape>, m: Point, contains: (Kind, Point) -> bool)
    ensures var i := Topmost(shapes, m, contains);
      && (i >= 0 ==> Hit(shapes, i, m, contains) && forall j :: i < j < |shapes| ==> !Hit(shapes, j, m, contains))
      && (i == -1 <==> forall j :: 0 <= j < |shapes| ==> !Hit(shapes, j, m, contains))
    decreases |shapes|
  {
    if shapes != [] && !contains(shapes[|shapes| - 1].kind, m) {
      var front := shapes[..|shapes| - 1];
      TopmostSpec(front, m, contains);
      assert forall j :: 0 <= j < |front| ==> (Hit(front, j, m, contains) <==> Hit(shapes, j, m, contains));
      assert !Hit(shapes, |shapes| - 1, m, contains);
    }
  }

  /** Only shape i is flagged as selected; every shape is otherwise
      unchanged. */
  function Flag(shapes: seq<Shape>, i: int): (r: seq<Shape>)
    ensures |r| == |shapes|
    ensures forall k :: 0 <= k < |r| ==> r[k].kind == shapes[k].kind && r[k].colour == shapes[k].colour
    ensures forall k :: 0 <= k < |r| ==> (r[k].isSelected <==> k == i)
    decreases |shapes|
  {
    if shapes == [] then []
    else
      var n := |shapes| - 1;
      var front := Flag(shapes[..n], i);
      assert forall k :: 0 <= k < n ==> front[k].kind == shapes[k].kind && front[k].colour == shapes[k].colour;
      front + [shapes[n].(isSelected := n == i)]
  }

  /** A selection click: all flags cleared, then the topmost hit shape, if
      any, flagged and selected. */
  function SelectClick(ed: Editor, m: Point, contains: (Kind, Point) -> bool): (r: Editor)
    ensures r.temp == ed.temp && r.mode == ed.mode && r.fill == ed.fill && r.grid == ed.grid
    ensures |r.shapes| == |ed.shapes| && -1 <= r.selected < |r.shapes|
    ensures forall k :: 0 <= k < |r.shapes| ==> r.shapes[k].kind == ed.shapes[k].kind
  {
    var i := Topmost(ed.shapes, m, contains);
    ed.(shapes := Flag(ed.shapes, i), selected := i)
  }

  /** The selection click marks at most one shape: the last-added one hit,
      and nothing when none is; the shapes themselves do not change. */
  lemma SelectClickSpec(ed: Editor, m: Point, contains: (Kind, Point) -> bool)
    ensures var r := SelectClick(ed, m, contains);
      && |r.shapes| == |ed.shapes|
      && (forall k :: 0 <= k < |r.shapes| ==> r.shapes[k].kind == ed.shapes[k].kind)
      && (forall k :: 0 <= k < |r.shapes| ==> (r.shapes[k].isSelected <==> k == r.selected))
      && (r.selected >= 0 ==>
            Hit(ed.shapes, r.selected, m, contains) &&
            forall j :: r.selected < j < |ed.shapes| ==> !Hit(ed.shapes, j, m, contains))
      && (r.selected == -1 <==> forall j :: 0 <= j < |ed.shapes| ==> !Hit(ed.shapes, j, m, contains))
  {
    TopmostSpec(ed.shapes, m, contains);
  }

  /** Delete: the selected shape is removed and the selection cleared; with
      nothing selected, nothing happens. */
  function Delete(ed: Editor): (r: Editor)
    requires -1 <= ed.selected < |ed.shapes|
    ensures r.selected == -1 && r.temp == ed.temp && r.mode == ed.mode
    ensures ed.selected == -1 ==> r == ed
    ensures ed.selected >= 0 ==> |r.shapes| == |ed.shapes| - 1
    ensures ed.selected >= 0 ==> forall k :: 0 <= k < |r.shapes| ==>
      r.shapes[k] == ed.shapes[if k < ed.selected then k else k + 1]
  {
    if ed.selected == -1 then ed
    else ed.(shapes := ed.shapes[..ed.selected] + ed.shapes[ed.selected + 1..], selected := -1)
  }

  /** Deleting keeps the other shapes in their order: the remaining list
      with the deleted shape put back at its index is the original list. */
  lemma DeleteKeepsOrder(ed: Editor)
    requires -1 <= ed.selected < |ed.shapes| && ed.selected >= 0
    ensures var r := Delete(ed);
      r.shapes[..ed.selected] + [ed.shapes[ed.selected]] + r.shapes[ed.selected..] == ed.shapes
  {
    var r := Delete(ed);
    var i := ed.selected;
    assert r.shapes[..i] == ed.shapes[..i];
    assert r.shapes[i..] == ed.shapes[i + 1..];
    assert ed.shapes[..i] + [ed.shapes[i]] + ed.shapes[i + 1..] == ed.shapes;
  }

  // ---------------------------------------------------------------------
  // Events
  // ---------------------------------------------------------------------

  datatype Event =
    | ModeKey(m: Mode)
    | KeyF
    | KeyG
    | KeyC
    | KeyEscape
    | KeyDelete
    | LeftClick(at: Point)
    | RightClick
    | Held(key: HeldKey)

  /** The modes in which the second click completes a shape. */
  predicate TwoClick(m: Mode)
  {
    m == DrawDda || m == DrawBresenham || m == DrawCircle || m == DrawEllipse
  }

  /** dx * dx + dy * dy for the offset from a to b. */
  function SquaredDistance(a: Point, b: Point): real
  {
    (b.x - a.x) * (b.x - a.x) + (b.y - a.y) * (b.y - a.y)
  }

  /** The shape the second click of a two-click mode builds from the two
      pending points a and b; sqrt is the square root the source calls. */
  function TwoClickShape(mode: Mode, a: Point, b: Point, sqrt: real -> real): (r: Shape)
    requires TwoClick(mode)
    ensures !r.isSelected && WellFormed(r.kind)
    ensures (mode == DrawDda || mode == DrawBresenham) ==> r.kind.LineShape? && r.kind.p1 == a && r.kind.p2 == b
    ensures mode == DrawDda ==> r.kind.algorithm == Dda && r.colour == Green
    ensures mode == DrawBresenham ==> r.kind.algorithm == BresenhamAlg && r.colour == Red
    ensures mode == DrawCircle ==> (r.kind.CircleShape? && r.kind.center == a && r.colour == Blue
      && r.kind.radius == sqrt(SquaredDistance(a, b)))
    ensures mode == DrawEllipse ==> (r.kind.EllipseShape? && r.kind.center == a && r.colour == Magenta
      && ((b.x - a.x >= MinRadius || a.x - b.x >= MinRadius) ==> (r.kind.rx == b.x - a.x || r.kind.rx == a.x - b.x))
      && ((b.y - a.y >= MinRadius || a.y - b.y >= MinRadius) ==> (r.kind.ry == b.y - a.y || r.kind.ry == a.y - b.y))
      && (-MinRadius < b.x - a.x < MinRadius ==> r.kind.rx == MinRadius)
      && (-MinRadius < b.y - a.y < MinRadius ==> r.kind.ry == MinRadius))
  {
    match mode
    case DrawDda => Shape(LineShape(a, b, Dda), Green, false)
    case DrawBresenham => Shape(LineShape(a, b, BresenhamAlg), Red, false)
    case DrawCircle => Shape(CircleShape(a, sqrt(SquaredDistance(a, b))), Blue, false)
    case DrawEllipse =>
      var rx, ry := b.x - a.x, b.y - a.y;
      Shape(NewEllipse(a, if rx < 0.0 then -rx else rx, if ry < 0.0 then -ry else ry), Magenta, false)
  }

  /** A left click outside selection mode: the point is recorded, and in a
      two-click mode a pending list of exactly two points becomes a shape. */
  function DrawClick(ed: Editor, m: Point, sqrt: real -> real): (r: Editor)
    requires ed.mode != Selection
    ensures r.mode == ed.mode && r.selected == ed.selected && r.fill == ed.fill && r.grid == ed.grid
    ensures TwoClick(ed.mode) && |ed.temp| == 1 ==>
      (r.shapes == ed.shapes + [TwoClickShape(ed.mode, ed.temp[0], m, sqrt)] && r.temp == [])
    ensures !(TwoClick(ed.mode) && |ed.temp| == 1) ==> r.shapes == ed.shapes && r.temp == ed.temp + [m]
  {
    var temp := ed.temp + [m];
    if TwoClick(ed.mode) && |temp| == 2 then
      ed.(shapes := ed.shapes + [TwoClickShape(ed.mode, temp[0], temp[1], sqrt)], temp := [])
    else ed.(temp := temp)
  }

  /** A right click completes a polygon from at least three pending points,
      filled as the fill toggle says, or a Bezier curve from at least two. */
  function Finish(ed: Editor): (r: Editor)
    ensures r.mode == ed.mode && r.selected == ed.selected && r.fill == ed.fill && r.grid == ed.grid
    ensures r.shapes == ed.shapes || (|r.shapes| == |ed.shapes| + 1 && r.shapes[..|ed.shapes|] == ed.shapes)
    ensures r.shapes != ed.shapes <==>
      (ed.mode == DrawPolygon && |ed.temp| >= 3) || (ed.mode == DrawBezier && |ed.temp| >= 2)
    ensures r.shapes != ed.shapes ==> (r.temp == [] && WellFormed(r.shapes[|ed.shapes|].kind)
      && r.shapes[|ed.shapes|].colour == (if ed.mode == DrawPolygon then Cyan else Yellow)
      && Points(r.shapes[|ed.shapes|].kind) == ed.temp)
    ensures r.shapes != ed.shapes && ed.mode == DrawPolygon ==>
      r.shapes[|ed.shapes|].kind == PolygonShape(ed.temp, ed.fill) && (FillsInterior(r.shapes[|ed.shapes|].kind) <==> ed.fill)
    ensures r.shapes != ed.shapes && ed.mode == DrawBezier ==> r.shapes[|ed.shapes|].kind == BezierShape(ed.temp)
    ensures r.shapes == ed.shapes ==> r.temp == ed.temp
  {
    if ed.mode == DrawPolygon && |ed.temp| >= 3 then
      ed.(shapes := ed.shapes + [Shape(PolygonShape(ed.temp, ed.fill), Cyan, false)], temp := [])
    else if ed.mode == DrawBezier && |ed.temp| >= 2 then
      ed.(shapes := ed.shapes + [Shape(BezierShape(ed.temp), Yellow, false)], temp := [])
    else ed
  }

  /** One event of the main loop, as written: a mode key changes only the
      mode and keeps the pending points. A held key transforms the selected
      shape, if any, and changes nothing else. */
  function Step(ed: Editor, e: Event, contains: (Kind, Point) -> bool, sqrt: real -> real): (r: Editor)
    requires -1 <= ed.selected < |ed.shapes|
    ensures -1 <= r.selected < |r.shapes|
    ensures r.mode != ed.mode ==> e.ModeKey?
    ensures e.ModeKey? ==> r.mode == e.m && r.temp == ed.temp && r.shapes == ed.shapes
    ensures e.ModeKey? ==> r == ed.(mode := e.m)
    ensures e.KeyF? ==> r == ed.(fill := !ed.fill)
    ensures e.KeyG? ==> r == ed.(grid := !ed.grid)
    ensures e.KeyEscape? ==> r == ed.(temp := [])
  {
    match e
    case ModeKey(m) => ed.(mode := m)
    case KeyF => ed.(fill := !ed.fill)
    case KeyG => ed.(grid := !ed.grid)
    case KeyC => ed.(shapes := [], selected := -1, temp := [])
    case KeyEscape => ed.(temp := [])
    case KeyDelete => Delete(ed)
    case LeftClick(m) => if ed.mode == Selection then SelectClick(ed, m, contains) else DrawClick(ed, m, sqrt)
    case RightClick => Finish(ed)
    case Held(key) => TransformSelected(ed, key)
  }

  /** The per-frame transform of a held key: the selected shape, if any, is
      transformed; nothing else changes. */
  function TransformSelected(ed: Editor, key: HeldKey): (r: Editor)
    requires -1 <= ed.selected < |ed.shapes|
    ensures r.temp == ed.temp && r.mode == ed.mode && r.selected == ed.selected
    ensures r.fill == ed.fill && r.grid == ed.grid && |r.shapes| == |ed.shapes|
    ensures forall k :: 0 <= k < |ed.shapes| && k != ed.selected ==> r.shapes[k] == ed.shapes[k]
    ensures ed.selected >= 0 ==> (r.shapes[ed.selected].kind == Transform(ed.shapes[ed.selected].kind, key)
      && r.shapes[ed.selected].colour == ed.shapes[ed.selected].colour
      && r.shapes[ed.selected].isSelected == ed.shapes[ed.selected].isSelected)
  {
    if ed.selected == -1 then ed
    else
      var s := ed.shapes[ed.selected];
      ed.(shapes := ed.shapes[ed.selected := s.(kind := Transform(s.kind, key))])
  }

  /** What one event does to the pending points: they are kept, emptied,
      or grow by the clicked point; C empties the shapes, the selection and
      the pending points. */
  lemma StepPending(ed: Editor, e: Event, contains: (Kind, Point) -> bool, sqrt: real -> real)
    requires -1 <= ed.selected < |ed.shapes|
    ensures var r := Step(ed, e, contains, sqrt);
      r.temp == [] || r.temp == ed.temp || (e.LeftClick? && r.temp == ed.temp + [e.at])
    ensures var r := Step(ed, e, contains, sqrt);
      e.KeyC? ==> r.shapes == [] && r.temp == [] && r.selected == -1
  {
  }

  /** What one event does to the shape list: at most one shape is added;
      only C, Delete and a held key touch the shapes already there. */
  lemma StepShapes(ed: Editor, e: Event, contains: (Kind, Point) -> bool, sqrt: real -> real)
    requires -1 <= ed.selected < |ed.shapes|
    ensures |Step(ed, e, contains, sqrt).shapes| <= |ed.shapes| + 1
    ensures var r := Step(ed, e, contains, sqrt);
      !(e.KeyC? || e.KeyDelete? || e.Held?) ==> (|r.shapes| >= |ed.shapes|
        && forall k :: 0 <= k < |ed.shapes| ==> r.shapes[k].kind == ed.shapes[k].kind)
  {
    match e
    case LeftClick(m) =>
    case RightClick =>
    case _ =>
  }

  /** A held key transforms the selected shape alone and changes nothing
      else; with nothing selected it changes nothing. */
  lemma StepHeld(ed: Editor, key: HeldKey, contains: (Kind, Point) -> bool, sqrt: real -> real)
    requires -1 <= ed.selected < |ed.shapes|
    ensures var r := Step(ed, Held(key), contains, sqrt);
      && r.temp == ed.temp && r.mode == ed.mode && r.selected == ed.selected
      && |r.shapes| == |ed.shapes|
      && (forall k :: 0 <= k < |ed.shapes| && k != ed.selected ==> r.shapes[k] == ed.shapes[k])
    ensures var r := Step(ed, Held(key), contains, sqrt);
      ed.selected >= 0 ==> (r.shapes[ed.selected].kind == Transform(ed.shapes[ed.selected].kind, key)
        && r.shapes[ed.selected].colour == ed.shapes[ed.selected].colour
        && r.shapes[ed.selected].isSelected == ed.shapes[ed.selected].isSelected)
    ensures ed.selected == -1 ==> Step(ed, Held(key), contains, sqrt) == ed
  {
  }

  /** What every shape satisfies once it is in the list: ellipse radii are
      at least 1, polygons have three vertices or more, Bezier curves two
      control points or more. */
  predicate WellFormed(k: Kind)
  {
    match k
    case EllipseShape(_, rx, ry) => rx >= MinRadius && ry >= MinRadius
    case PolygonShape(v, _) => |v| >= 3
    case BezierShape(c) => |c| >= 2
    case _ => true
  }

  /** What holds between events: the selection is -1 or a valid index, the
      flagged shapes are exactly the selected one, and every shape is well
      formed. */
  predicate Valid(ed: Editor)
  {
    && -1 <= ed.selected < |ed.shapes|
    && (forall k :: 0 <= k < |ed.shapes| ==> (ed.shapes[k].isSelected <==> k == ed.selected))
    && (forall k :: 0 <= k < |ed.shapes| ==> WellFormed(ed.shapes[k].kind))
  }

  lemma StepValid(ed: Editor, e: Event, contains: (Kind, Point) -> bool, sqrt: real -> real)
    requires Valid(ed)
    ensures Valid(Step(ed, e, contains, sqrt))
  {
    match e
    case LeftClick(m) =>
      if ed.mode == Selection {
        SelectClickSpec(ed, m, contains);
        assert Step(ed, e, contains, sqrt) == SelectClick(ed, m, contains);
      } else {
        DrawClickValid(ed, m, sqrt);
        assert Step(ed, e, contains, sqrt) == DrawClick(ed, m, sqrt);
      }
    case KeyDelete =>
      DeleteValid(ed);
      assert Step(ed, e, contains, sqrt) == Delete(ed);
    case RightClick =>
      FinishValid(ed);
      assert Step(ed, e, contains, sqrt) == Finish(ed);
    case Held(key) =>
      TransformSelectedValid(ed, key);
      assert Step(ed, e, contains, sqrt) == TransformSelected(ed, key);
    case _ =>
  }

  lemma TransformSelectedValid(ed: Editor, key: HeldKey)
    requires Valid(ed)
    ensures Valid(TransformSelected(ed, key))
  {
    if ed.selected >= 0 {
      TransformKeepsShape(ed.shapes[ed.selected].kind, key);
    }
  }

  lemma DeleteValid(ed: Editor)
    requires Valid(ed)
    ensures Valid(Delete(ed))
  {
  }

  lemma DrawClickValid(ed: Editor, m: Point, sqrt: real -> real)
    requires Valid(ed) && ed.mode != Selection
    ensures Valid(DrawClick(ed, m, sqrt))
  {
    var r := DrawClick(ed, m, sqrt);
    if TwoClick(ed.mode) && |ed.temp + [m]| == 2 {
      var shape := TwoClickShape(ed.mode, (ed.temp + [m])[0], (ed.temp + [m])[1], sqrt);
      assert r.shapes == ed.shapes + [shape];
      assert !shape.isSelected && WellFormed(shape.kind);
    }
  }

  lemma FinishValid(ed: Editor)
    requires Valid(ed)
    ensures Valid(Finish(ed))
  {
  }

  /** In Bresenham mode, the click that brings the pending list to two
      appends exactly one Bresenham line built from the two points and
      empties the list. The C key empties shapes, selection and pending
      points. */
  lemma BresenhamClickAndClear(ed: Editor, m: Point, contains: (Kind, Point) -> bool, sqrt: real -> real)
    requires Valid(ed) && ed.mode == DrawBresenham && |ed.temp| == 1
    ensures var r := Step(ed, LeftClick(m), contains, sqrt);
      r.shapes == ed.shapes + [Shape(LineShape(ed.temp[0], m, BresenhamAlg), Red, false)] && r.temp == []
    ensures var r := Step(ed, KeyC, contains, sqrt);
      r.shapes == [] && r.selected == -1 && r.temp == []
  {
  }

  function Run(ed: Editor, events: seq<Event>, contains: (Kind, Point) -> bool, sqrt: real -> real): Editor
    requires Valid(ed)
    decreases |events|
  {
    if events == [] then ed
    else
      StepValid(ed, events[0], contains, sqrt);
      Run(Step(ed, events[0], contains, sqrt), events[1..], contains, sqrt)
  }

  // ---------------------------------------------------------------------
  // The pending points across mode switches
  // ---------------------------------------------------------------------

  /** As written, once two or more points are pending in a two-click mode,
      no left click ever completes a shape: the list only grows, because the
      test is for exactly two points. */
  lemma StaleTempBlocksShapes(ed: Editor, clicks: seq<Point>, contains: (Kind, Point) -> bool, sqrt: real -> real)
    requires Valid(ed) && TwoClick(ed.mode) && |ed.temp| >= 2
    ensures var r := Run(ed, seq(|clicks|, i requires 0 <= i < |clicks| => LeftClick(clicks[i])), contains, sqrt);
      r.shapes == ed.shapes && r.temp == ed.temp + clicks
    decreases |clicks|
  {
    var events := seq(|clicks|, i requires 0 <= i < |clicks| => LeftClick(clicks[i]));
    if clicks != [] {
      var next := Step(ed, events[0], contains, sqrt);
      StepValid(ed, events[0], contains, sqrt);
      StaleTempBlocksShapes(next, clicks[1..], contains, sqrt);
      assert events[1..] == seq(|clicks[1..]|, i requires 0 <= i < |clicks[1..]| => LeftClick(clicks[1..][i]));
      assert next.temp + clicks[1..] == ed.temp + clicks;
    }
  }

  /** A run the program allows: three polygon clicks, then the Bresenham
      mode key. Two further clicks leave no line, only five pending points. */
  lemma PolygonThenLineLosesLine(a: Point, b: Point, c: Point, d: Point, f: Point,
                                 contains: (Kind, Point) -> bool, sqrt: real -> real)
    ensures var e0 := Initial();
      var e1 := Step(e0, ModeKey(DrawPolygon), contains, sqrt);
      var e2 := Step(e1, LeftClick(a), contains, sqrt);
      var e3 := Step(e2, LeftClick(b), contains, sqrt);
      var e4 := Step(e3, LeftClick(c), contains, sqrt);
      var e5 := Step(e4, ModeKey(DrawBresenham), contains, sqrt);
      var e6 := Step(e5, LeftClick(d), contains, sqrt);
      var e7 := Step(e6, LeftClick(f), contains, sqrt);
      e7.shapes == [] && e7.temp == [a, b, c, d, f]
  {
  }

  /** The corrected event step: a mode key also drops the pending points,
      as the Escape key does. */
  function StepCorrected(ed: Editor, e: Event, contains: (Kind, Point) -> bool, sqrt: real -> real): (r: Editor)
    requires -1 <= ed.selected < |ed.shapes|
    ensures e.ModeKey? ==> r.mode == e.m && r.temp == [] && r.shapes == ed.shapes && r.selected == ed.selected
    ensures !e.ModeKey? ==> r == Step(ed, e, contains, sqrt)
    ensures r.mode == Step(ed, e, contains, sqrt).mode && r.shapes == Step(ed, e, contains, sqrt).shapes
  {
    match e
    case ModeKey(m) => ed.(mode := m, temp := [])
    case _ => Step(ed, e, contains, sqrt)
  }

  /** With the correction, a two-click mode never holds more than one
      pending point, and selection mode holds none. */
  predicate PendingBounded(ed: Editor)
  {
    && (TwoClick(ed.mode) ==> |ed.temp| <= 1)
    && (ed.mode == Selection ==> ed.temp == [])
  }

  lemma StepCorrectedKeeps(ed: Editor, e: Event, contains: (Kind, Point) -> bool, sqrt: real -> real)
    requires Valid(ed) && PendingBounded(ed)
    ensures Valid(StepCorrected(ed, e, contains, sqrt)) && PendingBounded(StepCorrected(ed, e, contains, sqrt))
  {
    StepValid(ed, e, contains, sqrt);
  }

  /** With the correction, from a state of a two-click mode with nothing
      pending, the next two left clicks add exactly one shape built from
      them. */
  lemma CorrectedTwoClicksAddShape(ed: Editor, a: Point, b: Point, contains: (Kind, Point) -> bool, sqrt: real -> real)
    requires Valid(ed) && PendingBounded(ed) && TwoClick(ed.mode) && ed.temp == []
    ensures var e1 := StepCorrected(ed, LeftClick(a), contains, sqrt);
      && Valid(e1)
      && StepCorrected(e1, LeftClick(b), contains, sqrt).shapes == ed.shapes + [TwoClickShape(ed.mode, a, b, sqrt)]
      && StepCorrected(e1, LeftClick(b), contains, sqrt).temp == []
  {
    StepValid(ed, LeftClick(a), contains, sqrt);
  }

  /** The run that loses a line as written draws it once corrected: the
      Bresenham mode key drops the polygon points. */
  lemma PolygonThenLineCorrected(a: Point, b: Point, c: Point, d: Point, f: Point,
                                 contains: (Kind, Point) -> bool, sqrt: real -> real)
    ensures var e0 := Initial();
      var e1 := StepCorrected(e0, ModeKey(DrawPolygon), contains, sqrt);
      var e2 := StepCorrected(e1, LeftClick(a), contains, sqrt);
      var e3 := StepCorrected(e2, LeftClick(b), contains, sqrt);
      var e4 := StepCorrected(e3, LeftClick(c), contains, sqrt);
      var e5 := StepCorrected(e4, ModeKey(DrawBresenham), contains, sqrt);
      var e6 := StepCorrected(e5, LeftClick(d), contains, sqrt);
      var e7 := StepCorrected(e6, LeftClick(f), contains, sqrt);
      e7.shapes == [Shape(LineShape(d, f, BresenhamAlg), Red, false)] && e7.temp == []
  {
  }
}

=== FILE: terrain.dfy ===
/** The user-drawn terrain of projectno2.cpp: a list of points and a flag
    saying whether the user is currently drawing. Pressing D starts a new
    line at x = 0, mouse moves add points (at most 100 while drawing), and a
    left click finishes it at x = 1200. */
module TerrainPoints {
  import opened Pixels

  datatype Terrain = Terrain(points: seq<Point>, drawing: bool)

  /** The most points addPoint lets a drawing reach. */
  const MaxPoints: nat := 100
  /** The x coordinate finishDrawing closes the line at. */
  const RightEdge: real := 1200.0

  /** The default hill built by the constructor. */
  function Default(): (t: Terrain)
    ensures |t.points| == 8 && !t.drawing
    ensures t.points[0].x == 0.0 && t.points[7].x == RightEdge
    ensures forall k :: 0 < k < 8 ==> t.points[k - 1].x < t.points[k].x
  {
    Terrain([Point(0.0, 500.0), Point(150.0, 450.0), Point(300.0, 350.0), Point(450.0, 300.0),
             Point(600.0, 400.0), Point(750.0, 500.0), Point(900.0, 550.0), Point(1200.0, 600.0)], false)
  }

  /** startDrawing(x, y): the list restarts with the single point (0, y);
      the x argument is not used. */
  function StartDrawing(t: Terrain, x: real, y: real): (r: Terrain)
    ensures r.drawing && |r.points| == 1 && r.points[0] == Point(0.0, y)
  {
    Terrain([Point(0.0, y)], true)
  }

  /** addPoint(x, y): appends only while drawing and below the cap. */
  function AddPoint(t: Terrain, x: real, y: real): (r: Terrain)
    ensures r.drawing == t.drawing
    ensures t.drawing && |t.points| < MaxPoints ==> r.points == t.points + [Point(x, y)]
    ensures !(t.drawing && |t.points| < MaxPoints) ==> r == t
  {
    if t.drawing && |t.points| < MaxPoints then Terrain(t.points + [Point(x, y)], t.drawing) else t
  }

  /** finishDrawing: stops drawing and, when there is a last point, closes
      the line at the right edge at that point's height. */
  function FinishDrawing(t: Terrain): (r: Terrain)
    ensures !r.drawing
    ensures |t.points| > 0 ==> r.points == t.points + [Point(RightEdge, t.points[|t.points| - 1].y)]
    ensures |t.points| == 0 ==> r.points == []
  {
    var points := if t.points == [] then [] else t.points + [Point(RightEdge, t.points[|t.points| - 1].y)];
    Terrain(points, false)
  }

  /** A run of addPoint calls, one per point of moves. */
  function AddPoints(t: Terrain, moves: seq<Point>): Terrain
    decreases |moves|
  {
    if moves == [] then t else AddPoints(AddPoint(t, moves[0].x, moves[0].y), moves[1..])
  }

  /** Any run of addPoint calls leaves at most max(n, 100) points, where n
      is the starting count, and changes nothing when not drawing. */
  lemma {:induction false} AddPointsBounded(t: Terrain, moves: seq<Point>)
    ensures |AddPoints(t, moves).points| <= Max(|t.points|, MaxPoints)
    ensures |t.points| <= |AddPoints(t, moves).points|
    ensures AddPoints(t, moves).drawing == t.drawing
    ensures !t.drawing ==> AddPoints(t, moves) == t
    decreases |moves|
  {
    if moves != [] {
      AddPointsBounded(AddPoint(t, moves[0].x, moves[0].y), moves[1..]);
    }
  }

  /** The terrain-related events of the main loop. The D key passes the
      mouse-move fields of a key event, whose value the program does not
      define; y stands for whatever it reads. */
  datatype Event =
    | KeyD(y: real)
    | KeySpace
    | LeftClick
    | MouseMoved(x: real, y: real)

  /** One event: D restarts drawing, Space resets to the default hill, a
      left click finishes a drawing in progress (otherwise it places the
      car, which leaves the terrain alone), and a mouse move adds a point
      while drawing. */
  function Step(t: Terrain, e: Event): (r: Terrain)
    ensures e.KeyD? ==> r.drawing && r.points == [Point(0.0, e.y)]
    ensures e.KeySpace? ==> r == Default()
    ensures e.LeftClick? ==> !r.drawing
    ensures e.LeftClick? && t.drawing && t.points != [] ==>
      r.points == t.points + [Point(RightEdge, t.points[|t.points| - 1].y)]
    ensures e.LeftClick? && !t.drawing ==> r == t
    ensures e.MouseMoved? ==> r.drawing == t.drawing
    ensures e.MouseMoved? && t.drawing && |t.points| < MaxPoints ==> r.points == t.points + [Point(e.x, e.y)]
    ensures e.MouseMoved? && !(t.drawing && |t.points| < MaxPoints) ==> r == t
    ensures !(e.KeyD? || e.KeySpace?) ==> r.points[..|t.points|] == t.points && |r.points| <= |t.points| + 1
  {
    match e
    case KeyD(y) => StartDrawing(t, 0.0, y)
    case KeySpace => Default()
    case LeftClick => if t.drawing then FinishDrawing(t) else t
    case MouseMoved(x, y) => if t.drawing then AddPoint(t, x, y) else t
  }

  function Run(t: Terrain, events: seq<Event>): Terrain
    decreases |events|
  {
    if events == [] then t else Run(Step(t, events[0]), events[1..])
  }

  /** What every reachable terrain satisfies: the line starts at x = 0 and
      is never empty; while drawing it holds at most 100 points; once
      finished it ends at x = 1200 and holds at most 101. */
  predicate Valid(t: Terrain)
  {
    && 0 < |t.points| <= MaxPoints + 1
    && t.points[0].x == 0.0
    && (t.drawing ==> |t.points| <= MaxPoints)
    && (!t.drawing ==> t.points[|t.points| - 1].x == RightEdge)
  }

  lemma DefaultValid()
    ensures Valid(Default())
  {
  }

  lemma StepValid(t: Terrain, e: Event)
    requires Valid(t)
    ensures Valid(Step(t, e))
  {
  }

  lemma {:induction false} RunValid(t: Terrain, events: seq<Event>)
    requires Valid(t)
    ensures Valid(Run(t, events))
    decreases |events|
  {
    if events != [] {
      StepValid(t, events[0]);
      RunValid(Step(t, events[0]), events[1..]);
    }
  }

  /** Every terrain the program can reach from its default hill is valid. */
  lemma ReachableValid(events: seq<Event>)
    ensures Valid(Run(Default(), events))
    ensures 0 < |Run(Default(), events).points| <= MaxPoints + 1
  {
    DefaultValid();
    RunValid(Default(), events);
  }
}

=== FILE: traffic.dfy ===
/** The traffic light of TrafficSim.cpp: three states, starting on green,
    advanced one step by every left click. */
module Traffic {

  datatype LightState = Green | Yellow | Red

  /** The position of a state in the green, yellow, red order. */
  function Index(s: LightState): (i: nat)
    ensures i < 3
  {
    match s
    case Green => 0
    case Yellow => 1
    case Red => 2
  }

  /** The state at position i mod 3 of the green, yellow, red order. */
  function AtIndex(i: int): (s: LightState)
    ensures Index(s) == i % 3
  {
    if i % 3 == 0 then Green else if i % 3 == 1 then Yellow else Red
  }

  /** A new TrafficLight. */
  function Initial(): (s: LightState)
    ensures Index(s) == 0
  {
    Green
  }

  /** cycle: green to yellow, yellow to red, red back to green. */
  function Cycle(s: LightState): (t: LightState)
    ensures Index(t) == (Index(s) + 1) % 3
    ensures t != s
  {
    match s
    case Green => Yellow
    case Yellow => Red
    case Red => Green
  }

  /** The state after n cycles. */
  function CycleN(s: LightState, n: nat): LightState
  {
    if n == 0 then s else Cycle(CycleN(s, n - 1))
  }

  /** n cycles move n places along the order, wrapping after red. */
  lemma {:induction false} CycleNIndex(s: LightState, n: nat)
    ensures Index(CycleN(s, n)) == (Index(s) + n) % 3
    ensures CycleN(s, n) == AtIndex(Index(s) + n)
  {
    if n > 0 {
      CycleNIndex(s, n - 1);
    }
    IndexDetermines(CycleN(s, n), AtIndex(Index(s) + n));
  }

  lemma IndexDetermines(s: LightState, t: LightState)
    requires Index(s) == Index(t)
    ensures s == t
  {
  }

  /** Three cycles are the identity, and no shorter positive number of
      cycles is: the period is exactly three. */
  lemma CyclePeriod(s: LightState)
    ensures CycleN(s, 3) == s
    ensures CycleN(s, 1) != s && CycleN(s, 2) != s
  {
    CycleNIndex(s, 3);
    CycleNIndex(s, 1);
    CycleNIndex(s, 2);
    IndexDetermines(CycleN(s, 3), s);
  }

  /** After n clicks the light shows the state at position n mod 3. */
  lemma AfterClicks(n: nat)
    ensures CycleN(Initial(), n) == AtIndex(n)
    ensures CycleN(Initial(), n) == Green <==> n % 3 == 0
  {
    CycleNIndex(Initial(), n);
  }
}
